=== FILE: README.md ===
# UFT channel controller, modelled in Dafny

UFT is the controller of a manufacturing test fixture for PGEM backup-power
modules. A `Channel` owns the DUT slots of one motherboard: four on the fixture, slots 0 to 3 (the I2C mux could select eight). It takes
phase codes from a queue and runs the matching phase routine on every DUT
whose test item lets it through:

- charge and discharge polling;
- VPD programming with two CRC-16 checks;
- temperature, encrypted-IC and power-fail-interrupt checks;
- the capacitance estimate.

At exit every DUT still `Idle` passes. The DUT side (`PGEMBase`, `Diamond4`)
provides three groups of helpers:

- **Identity:** the barcode parser and the EEPROM field table with its
  decoder and template patcher.
- **Charge ICs:** the 16-bit register helpers of the BQ24707 and LTC3350,
  and the charge-option bit.
- **Other devices:** the PCA9536 LED and self-discharge outputs, the
  encrypted-IC probe and the SE97B temperature decoding.

The model is written in two styles.

- **Value semantics.** Pure computations are datatypes and functions. This
  covers bit and byte helpers, the barcode, table queries, the CRC, the
  temperature decoding and the per-DUT verdict rules.
- **Imperative.** What the source does step by step is imperative Dafny.
  `Channels.Channel` is a class whose fields are the ones `run` and the
  phase routines update (slots, progress bar, counter, current, exit flag,
  queue) plus the instrument state it drives. The loops of `run`,
  `prepare_to_exit`, the phase routines, the polling loops, `check_crc`,
  `read_vpd_byname`, `read_vpd` and `write_vpd` are methods with loop
  invariants. Each is proved equal to a specification function, and the
  promised properties are proved as lemmas about that function.

Hardware is an oracle:

- every byte, word, voltage and time the source reads from a device or the
  clock is a parameter;
- the device helpers (`Fixture`, `Pgem`, `Vpd.WriteVpd`) return their I2C
  writes as a trace of `Common.I2cOp`, or apply them to a register-file or
  expander model; the phase methods of `Channels.Channel` do not sequence
  those writes (see "Left out");
- a DUT is a value, held in `Channel.duts: seq<Option<Dut>>`;
- its EEPROM is an ideal 256-byte memory;
- its test items are records of already-parsed values.

Modules, one per file:

| file | module | source |
|---|---|---|
| `common.dfy` | `Common` | bytes, `ord`/`chr`, options, I2C writes |
| `barcode.dfy` | `Barcode` | `BARCODE_PATTERN` and its use in `PGEMBase.__init__` |
| `vpd.dfy` | `Vpd` | `EEP_MAP`, `_query_map`, `read_vpd_byname`, `read_vpd_byaddress`, `read_vpd`, `write_vpd` |
| `crc.dfy` | `Crc` | `check_crc` |
| `devices.dfy` | `Pgem` | charge ICs, `control_led`, `self_discharge`, `encrypted_ic`, `_calc_temp`, `check_temp` |
| `fixture.dfy` | `Fixture` | `auto_discharge`, `switch_to_dut`, `switch_to_mb`, `read_power_fail_io` |
| `dut.dfy` | `Duts` | the DUT record, the gates, `prepare_to_exit`'s verdict |
| `phases.dfy` | `Phases` | the temperature, encrypted-IC, power-fail, capacitance and programming phases |
| `polling.dfy` | `Polling` | the loops of `charge_dut` and `discharge_dut` |
| `sequencer.dfy` | `Sequencer` | `ChannelStates`, the weights, `auto_test`, the `run` loop |
| `channel.dfy` | `Channels` | the `Channel` class |

Behaviours of the code that a reader may not expect, and that the model
follows:

- **Progress total.** The progress bar is commented as running from 0 to
  100 (channel.py:87), but the weights `run` adds for the `auto_test`
  phases total 105 (`Sequencer.AutoTestWeights`).
- **CRC address lists.** The second checksum's address list is the first
  list followed by 0xD0–0xD9 and 0xFF, so every address of the first list
  is covered by both checksums (`Crc.ListsCovered`). Neither list covers
  the CRC1 bytes 0x7D and 0x7E.
- **Encrypted-IC check.** `check_encryptedic_dut` says a DUT passes when the
  data "is not all zero". `encrypted_ic` actually reports failure for a
  block of all 0xFF bytes; a block of zeros passes
  (`Pgem.EncryptedIcValid`, `Pgem.ErasedBlockInvalid`).
- **Per-DUT exceptions.** In `program_dut` only the `AssertionError` of the
  readback is caught. The `KeyError` of a slot without a PGEM ID letter
  leaves the routine, and with it `run` (`Phases.ProgramStep`,
  `Channels.Channel.ProgramDut`).
- **`read_vpd` keys.** `read_vpd` stores each field under its lower-cased
  name (`Vpd.Record`).

## Model

Paths are relative to the repository root.

| member | source | states |
|---|---|---|
| Common.Ascii | UFT/src/UFT/models/base.py:161-164 | `[ord(x) for x in s]`: one byte per character, each the character's code |
| Common.Chars | UFT/src/UFT/models/base.py:108-109 | `''.join(chr(i) for i in datas)`: one character per byte, each with that code |
| Common.CharsOfAscii | UFT/src/UFT/models/base.py:190-196 | decoding the ASCII bytes of a one-byte-per-character string gives the string back, which is what the readback `assert`s of `write_vpd` rely on |
| Barcode.Parse | UFT/src/UFT/models/base.py:59-75 | an accepted barcode yields well-formed groups that spell it back; `partnumber` is its first 16 characters and `revision` its last 2; `None` is the "Unvalide barcode." exception |
| Barcode.PatternParses | UFT/src/UFT/models/base.py:43-45 | every string matching the anchored pattern, read position by position, is accepted |
| Barcode.ParsedMatchesPattern | UFT/src/UFT/models/base.py:43-45 | every accepted string matches the pattern |
| Barcode.ParseAcceptsPattern | UFT/src/UFT/models/base.py:43-45 | a barcode is accepted if and only if it matches the pattern |
| Barcode.ParseFormat | UFT/src/UFT/models/base.py:43-45 | formatting well-formed groups and parsing the result gives the same groups back |
| Barcode.ExampleBarcode | UFT/src/UFT/channel.py:1001 | the barcode of the module's own script parses into PN `AGIGA9811-001BCA`, VV `02`, YY `14`, WW `39`, ID `00000228`, RR `01` |
| Vpd.FilterBy | UFT/src/UFT/models/base.py:86 | `filter(lambda row: row[k] == v, r)` keeps exactly the rows meeting the condition |
| Vpd.QueryMapIsSelect | UFT/src/UFT/models/base.py:78-87 | `_query_map` returns exactly the rows meeting every condition, in table order |
| Vpd.SelectMembers | UFT/src/UFT/models/base.py:78-87 | a row is in the query result if and only if it is in the table and meets every condition |
| Vpd.QueryMapOrderIrrelevant | UFT/src/UFT/models/base.py:84-86 | the order in which the keyword conditions are applied does not change the result |
| Vpd.EepMapNamesDistinct | UFT/src/UFT/models/base.py:17-38 | no two rows of EEP_MAP share a name |
| Vpd.EepMapFits | UFT/src/UFT/models/base.py:17-38 | every field of EEP_MAP lies inside the 256-byte EEPROM |
| Vpd.LookupByName | UFT/src/UFT/models/base.py:96 | `_query_map(EEP_MAP, name=n)` of a table name is exactly that one row, so `[0]` is it |
| Vpd.LeValueBound | UFT/src/UFT/models/base.py:110-113 | a decoded `n`-byte "int" field is below 256^n |
| Vpd.LeRoundTrip | UFT/src/UFT/models/base.py:110-113 | decoding the little-endian bytes of a value that fits gives it back |
| Vpd.LeBytesOfValue | UFT/src/UFT/models/base.py:110-113 | encoding a decoded field gives its bytes back: the decoding loses nothing |
| Vpd.DecodeLittleEndian | UFT/src/UFT/models/base.py:104-113 | the accumulation loop computes the sum of `datas[i] << 8*i` |
| Vpd.DecodeDatas | UFT/src/UFT/models/base.py:104-113 | "str" fields decode to characters, "int" and "word" fields to the little-endian number |
| Vpd.ReadByName | UFT/src/UFT/models/base.py:89-114 | `read_vpd_byname` decodes the bytes of the row found by name; an unknown name is the `IndexError` case |
| Vpd.FieldValueOfRow | UFT/src/UFT/models/base.py:89-114 | reading any field of EEP_MAP by name decodes that field's own bytes |
| Vpd.LowerChar | UFT/src/UFT/models/base.py:135 | `lower()` leaves no capital letter |
| Vpd.Lower | UFT/src/UFT/models/base.py:135 | `lower()` maps each character in place and keeps the length |
| Vpd.LowerInjective | UFT/src/UFT/models/base.py:135 | distinct names without lower-case letters stay distinct once lower-cased |
| Vpd.EepMapCapitals | UFT/src/UFT/models/base.py:17-38 | the names of EEP_MAP contain no lower-case letters |
| Vpd.RecordHoldsEveryField | UFT/src/UFT/models/base.py:128-140 | the dictionary of `read_vpd` holds every EEP_MAP field, under its lower-cased name, with its decoded value |
| Vpd.ReadVpd | UFT/src/UFT/models/base.py:128-140 | the loop over EEP_MAP builds that dictionary |
| Vpd.PgemId | UFT/src/UFT/models/base.py:41 | slots 0 to 3, and only they, have an ID letter, `'A' + slot` |
| Vpd.SliceAssign | UFT/src/UFT/models/base.py:168 | a slice assignment of the slice's own width keeps the length, puts the values in the slice and leaves every other byte |
| Vpd.WellFormedIsProgrammable | UFT/src/UFT/models/base.py:161-164 | every accepted barcode has ID, YY+WW and VV of the field widths, in one-byte characters |
| Vpd.ImageFrame | UFT/src/UFT/models/base.py:159-181 | the patched template has the template's length; bytes 0x5C–0x63 are the ID, 0x66–0x69 YY+WW, 0x6A–0x6B VV, 0xDA the slot letter when `write_id` is set; every other byte is the template's |
| Vpd.WriteBytes | UFT/src/UFT/models/base.py:185-187 | the write loop leaves the buffer in the EEPROM's first bytes and the rest unchanged, or stops at the first address past the EEPROM |
| Vpd.CheckFieldsReadBack | UFT/src/UFT/models/base.py:190-193 | the first three readback `assert`s pass exactly when SN, MFDATE and ENDUSR decode to ID, YY+WW and VV |
| Vpd.CheckIdReadBack | UFT/src/UFT/models/base.py:195-196 | the last `assert` passes exactly when `write_id` is 0 or PGEMID decodes to the slot letter |
| Vpd.WriteVpd | UFT/src/UFT/models/base.py:155-196 | `write_vpd` leaves the EEPROM and ends (written, readback `AssertionError`, `KeyError`, adapter fault) as the specification of the patch, burn and readback says |
| Vpd.FieldsAfterBurn | UFT/src/UFT/models/base.py:185-193 | once a patched image is burnt, SN, MFDATE and ENDUSR read back as the barcode groups |
| Vpd.IdAfterBurn | UFT/src/UFT/models/base.py:185-196 | once a patched image is burnt, PGEMID reads back as the slot letter when `write_id` is set |
| Vpd.WriteSucceeds | UFT/src/UFT/models/base.py:155-196 | a template that covers the identity fields and fits the EEPROM, on a slot with a letter when `write_id` is set, is always programmed without a readback failure |
| Crc.CheckValue | UFT/src/UFT/channel.py:544-555 | the computation is CRC-16/XMODEM: its CRC of the ASCII digits "123456789" is 0x31C3 |
| Crc.Crc16Append | UFT/src/UFT/channel.py:546-554 | one more byte continues the checksum from the value so far |
| Crc.Residue | UFT/src/UFT/channel.py:544-555 | a byte string followed by its checksum, high byte first, has checksum 0 |
| Crc.ListsCovered | UFT/src/UFT/channel.py:523-541 | list 1 has 47 addresses and list 2 has 58; list 1 is the start of list 2; every address is one of 0x41–0x5B, 0x64, 0x65, 0x78, 0x79, 0x7C, 0x7F–0x8D, 0xD0–0xD9 or 0xFF, so never a CRC1 byte 0x7D or 0x7E |
| Crc.Gather | UFT/src/UFT/channel.py:546-547 | one `read_vpd_byaddress` byte per listed address, in list order |
| Crc.Stored | UFT/src/UFT/channel.py:557-558 | the stored checksum `(hi << 8) + lo` is a 16-bit value |
| Crc.ShiftByte | UFT/src/UFT/channel.py:550-554 | the inner loop is eight steps of shift-and-XOR-0x1021 |
| Crc.CrcOver | UFT/src/UFT/channel.py:544-555 | the outer loop over a list computes the CRC-16 of the bytes at those addresses |
| Crc.CheckCrc | UFT/src/UFT/channel.py:521-584 | each flag says whether the stored checksum matches the CRC of its list |
| Crc.ListsAvoidPatches | UFT/src/UFT/channel.py:523-541 | no address either checksum covers or is stored at is one that `write_vpd` patches |
| Crc.PatchKeepsCrc | UFT/src/UFT/models/base.py:159-187 | burning the patched template gives the same checksum verdicts as burning the template itself |
| Pgem.WordBytes | UFT/src/UFT/models/base.py:266 | `[w & 0xFF, w >> 8]`: the low byte, then the rest, spelling `w`; both bytes for a 16-bit word |
| Pgem.WordValue | UFT/src/UFT/models/base.py:277 | `(b1 << 8) + b0` is a 16-bit word whose low byte is `b0` and high byte `b1` |
| Pgem.WordRoundTrip | UFT/src/UFT/models/base.py:258-278 | writing a 16-bit word and reading the bytes back gives the word (the LTC3350 helpers at base.py lines 373-397 send and read the same bytes) |
| Pgem.BytesRoundTrip | UFT/src/UFT/models/base.py:258-278 | splitting a word that was read gives back the two bytes it was read from |
| Pgem.ReadWord | UFT/src/UFT/models/base.py:268-278 | `read_bq24707` returns a 16-bit word |
| Pgem.ReadAfterWrite | UFT/src/UFT/models/base.py:258-278 | on a register file, a word written to a register reads back unchanged |
| Pgem.ReadOtherAfterWrite | UFT/src/UFT/models/base.py:258-278 | a write to one register leaves every other register's reading |
| Pgem.ClearBit0 | UFT/src/UFT/models/base.py:310 | `&= ~0x01` clears bit 0 and keeps every other bit |
| Pgem.SetBit0 | UFT/src/UFT/models/base.py:325 | `\|= 0x01` sets bit 0 and keeps every other bit |
| Pgem.ChargeStartReadsBack | UFT/src/UFT/models/base.py:299-321 | on an IC that stores what is written, the four readback `assert`s of `charge(status=True)` pass; ChargeOption then has bit 0 clear and its other bits as configured |
| Pgem.ChargeStopSetsInhibit | UFT/src/UFT/models/base.py:322-326 | after `charge(status=False)` ChargeOption has bit 0 set and every other bit as read |
| Pgem.StopAfterStart | UFT/src/UFT/models/base.py:299-326 | starting and then stopping the charge leaves ChargeOption as configured with bit 0 set |
| Pgem.Ltc3350ChargeEffect | UFT/src/UFT/models/base.py:399-433 | after `Diamond4.charge` VSHUNT and VCAPFB_DAC hold the configured words on start and 0 on stop |
| Pgem.ControlLed | UFT/src/UFT/models/base.py:198-219 | "on" and "off" are accepted and anything else raises "wrong LED status is set" before any write |
| Pgem.ControlLedEffect | UFT/src/UFT/models/base.py:208-219 | after `control_led` the LED pin is an output, low exactly for "on"; pin 0 is driven low |
| Pgem.SelfDischargeEffect | UFT/src/UFT/models/base.py:221-240 | after `self_discharge` pin 0 is an output, high exactly when discharging; the LED pin is driven low |
| Pgem.EncryptedIcValid | UFT/src/UFT/models/base.py:242-256 | `encrypted_ic` returns True if and only if some byte read is not 0xFF |
| Pgem.ErasedBlockInvalid | UFT/src/UFT/models/base.py:246-256 | an all-0xFF block of 128 bytes returns False |
| Pgem.Field | UFT/src/UFT/models/base.py:338 | `(temp >> 1) & 0xFFF` is a 12-bit field |
| Pgem.SignBitOfField | UFT/src/UFT/models/base.py:331-338 | bit 12 of the register is the top bit of that field |
| Pgem.CalcTemp | UFT/src/UFT/models/base.py:328-340 | the result is negative exactly when bit 12 is set; it is a multiple of 0.125; a non-negative result is at most 255.875 and a negative one lies in [-256, -0.125] |
| Pgem.CalcTempIsTwosComplement | UFT/src/UFT/models/base.py:329-340 | the complement-plus-one formula is the 12-bit two's-complement value of the field, in eighths of a degree |
| Pgem.CalcTempOfSensor | UFT/src/UFT/models/base.py:329-340 | decoding what the sensor reports for a temperature gives that temperature back |
| Pgem.AllOnesIsMinusOneStep | UFT/src/UFT/models/base.py:335 | 0xFFFF decodes to -0.125, not 0 |
| Pgem.CheckTempOfSensor | UFT/src/UFT/models/base.py:329-356 | the two bytes the sensor sends for a temperature, most significant first, are read back by `check_temp` as that temperature |
| Fixture.Mask | UFT/src/UFT/channel.py:664 | `0x01 << slot` has exactly one bit set |
| Fixture.PortAfter | UFT/src/UFT/channel.py:659-664 | bit `slot` becomes 0 when discharging and 1 otherwise; every other bit of port 0 is as read |
| Fixture.SlotBit | UFT/src/UFT/channel.py:674 | `(val & (0x01 << slot)) >> slot` is 0 or 1, and 1 exactly when the slot's bit is set |
| Fixture.AutoDischarge | UFT/src/UFT/channel.py:632-675 | the readback `assert` passes exactly when the slot's bit reads IO; the port configuration and the changed port 0 are written before it, whether or not it then fails |
| Fixture.AutoDischargeReadsBack | UFT/src/UFT/channel.py:668-675 | when port 0 reads back what was written, the `assert` passes |
| Fixture.AutoDischargeUndo | UFT/src/UFT/channel.py:659-664 | discharging a released slot and releasing it again restores port 0 |
| Fixture.AutoDischargeOtherSlots | UFT/src/UFT/channel.py:659-664 | changing one slot's line never changes another slot's |
| Fixture.SwitchToDutEnablesOne | UFT/src/UFT/channel.py:677-688 | the control byte `0x01 << slot` sent to 0x70 + channel enables exactly the slot's mux channel |
| Fixture.SwitchToDut | UFT/src/UFT/channel.py:677-688 | `switch_to_dut` sends one byte, 2 to the power of the slot, to the mux at 0x70 + channel |
| Fixture.SwitchToMbEnablesNone | UFT/src/UFT/channel.py:690-701 | the control byte 0x00 disconnects every slot |
| Fixture.ReadPowerFailIo | UFT/src/UFT/channel.py:703-720 | the result is the slot's bit of port 1, 0 or 1, after the one configuration write |
| Duts.Verdict | UFT/src/UFT/channel.py:871-875 | an `Idle` DUT becomes `Pass`; any other status stays; nothing else changes |
| Duts.Verdicts | UFT/src/UFT/channel.py:868-877 | `prepare_to_exit` keeps the number of slots, keeps empty slots empty and gives each present DUT its verdict |
| Duts.VerdictsChangeOnlyIdle | UFT/src/UFT/channel.py:868-877 | empty slots stay empty; a DUT ends `Pass` if and only if it was `Idle` or `Pass`; non-`Idle` DUTs are unchanged; no attribute but the status changes |
| Duts.VerdictsFinal | UFT/src/UFT/channel.py:868-877 | after `prepare_to_exit` no DUT is `Idle`, and a second application changes nothing |
| Duts.PrepareVerdicts | UFT/src/UFT/channel.py:868-877 | the loop computes those verdicts |
| Phases.TempStep | UFT/src/UFT/channel.py:596-606 | a DUT the gate rejects is untouched; otherwise it is kept or failed with "Temperature out of range.", and an `Idle` DUT stays `Idle` if and only if min < temperature < max |
| Common.FirstFault | UFT/src/UFT/channel.py:590-606 | the position where a pass over the slots raises is the first position that faults, or the end when none does |
| Phases.TempPhase | UFT/src/UFT/channel.py:591-606 | empty slots stay empty; each DUT is kept or failed with the temperature message; rejected DUTs are untouched; the routine raises if and only if an examined DUT's sensor read raises, and the slots from that one on are untouched |
| Phases.TempVerdict | UFT/src/UFT/channel.py:596-606 | an examined `Idle` DUT before the slot that raises was read, and stays `Idle` if and only if min < temperature < max |
| Phases.TempPhaseStopOnFail | UFT/src/UFT/channel.py:591-606 | with `stoponfail` on every DUT, the temperature check only moves a status from `Idle` to `Fail` |
| Phases.EncryptedStep | UFT/src/UFT/channel.py:613-630 | a DUT the gate rejects (including any non-`Idle` one) is untouched; an examined DUT fails with "Check I2C on Encrypted IC Fail." exactly when the probe reports no valid data |
| Phases.EncryptedPhase | UFT/src/UFT/channel.py:613-630 | the phase keeps empty slots empty and only moves a status from `Idle` to `Fail`; rejected DUTs are untouched; it raises if and only if an examined DUT's probe raises; the slots before that one are judged by the encrypted-IC step, the rest untouched |
| Phases.ErasedEncryptedIcFails | UFT/src/UFT/channel.py:626-628 | an examined DUT whose probe reads an erased block fails |
| Phases.PowerFailStep | UFT/src/UFT/channel.py:729-745 | a DUT the gate rejects is untouched; an examined one is kept or failed with "check power_fail_int fail." |
| Phases.PowerFailRound | UFT/src/UFT/channel.py:726-745 | a pass keeps DUTs in their slots and only moves a status from `Idle` to `Fail`; it raises if and only if an examined DUT's port read raises |
| Phases.PowerFailRoundSlot | UFT/src/UFT/channel.py:726-745 | after a pass a slot differs at most in status and message; from the slot whose read raises on it is untouched; before that slot an examined DUT had its port read and is judged by the power-fail step |
| Phases.PowerFailRoundUpTo | UFT/src/UFT/channel.py:726-746 | the slots judged up to the one that raises (or the end), with the rest as they were, are exactly what the pass leaves |
| Phases.PowerFailPhase | UFT/src/UFT/channel.py:722-771 | the two passes keep every DUT in its slot and only move a status from `Idle` to `Fail` |
| Phases.PowerFailVerdict | UFT/src/UFT/channel.py:722-771 | when the check completes, an examined DUT stays `Idle` if and only if its bit reads `ON` with the supply on and, read again at 9 V, `OFF` |
| Phases.Discharges | UFT/src/UFT/channel.py:793-794 | the samples kept are all tagged "discharge" |
| Phases.Contributions | UFT/src/UFT/channel.py:791-808 | at most one estimate per sample; which estimates there are, and their values, are stated by `Phases.ContributionsSnoc` |
| Phases.ContributionsSnoc | UFT/src/UFT/channel.py:798-808 | a new "discharge" sample adds the estimate of its pair with the previous sample exactly when both are in (5.2, 6.3); the previous sample advances either way |
| Phases.PairWithPrevious | UFT/src/UFT/channel.py:798-808 | one step of the loop extends the list of estimates to that of the longer sample sequence |
| Phases.EstimateCapacitance | UFT/src/UFT/channel.py:791-814 | the loop computes the mean of the in-band pair estimates, or 0 without any |
| Phases.CapacitanceOfConstant | UFT/src/UFT/channel.py:791-814 | a capacitor discharged at constant current, with at least one in-band pair, is estimated exactly |
| Phases.MeanWithin | UFT/src/UFT/channel.py:809-811 | the mean of estimates that all lie in a band lies in it |
| Phases.NoPairIsZero | UFT/src/UFT/channel.py:813-814 | without an in-band pair the estimate is 0 |
| Phases.CapacitanceStep | UFT/src/UFT/channel.py:783-820 | a rejected DUT is untouched; an examined DUT records the estimate, stays `Idle` if and only if min < estimate < max, and otherwise fails with "Capacitor out of range."; no other attribute changes |
| Phases.CapacitancePhase | UFT/src/UFT/channel.py:780-820 | the phase keeps empty slots empty and only moves a status from `Idle` to `Fail` |
| Phases.CrcStep | UFT/src/UFT/channel.py:557-584 | the DUT fails exactly when a checksum mismatches; the message is "CR2C fail" when the second does, else "CRC fail"; nothing else changes |
| Phases.ProgramStep | UFT/src/UFT/channel.py:499-519 | a rejected DUT is untouched and nothing raises; otherwise the status can only become `Fail`, and only the status, message, EEPROM and `program_vpd` change |
| Phases.ProgramPasses | UFT/src/UFT/channel.py:499-519 | an `Idle` DUT whose template fills the EEPROM and has valid checksums is programmed, stays `Idle` and nothing raises |
| Phases.ProgramFrom | UFT/src/UFT/channel.py:499-519 | the slots already visited are unchanged; the number of slots is kept, and every DUT still sits in its own slot with well-formed barcode groups |
| Phases.ProgramSlotOnlyFails | UFT/src/UFT/channel.py:499-519 | programming one slot can only fail its DUT |
| Phases.ProgramFromOnlyFails | UFT/src/UFT/channel.py:499-519 | `program_dut` never empties or fills a slot and can only fail DUTs |
| Phases.ProgramPhase | UFT/src/UFT/channel.py:495-519 | after `program_dut` every DUT still sits in its own slot with well-formed barcode groups |
| Polling.OutcomeCases | UFT/src/UFT/channel.py:283-299 | each verdict holds exactly under its condition: too long past max; otherwise too short or in time once the threshold is crossed; otherwise pending |
| Polling.PollDutEffect | UFT/src/UFT/channel.py:262-300 | a sample appends exactly one cycle with the counter and the loop's tag; too long fails with the "Too Long." message; crossing fails with "Too Short." before min, else sets `Idle`; otherwise the status stays; identity and items are kept |
| Polling.SettledNotResampled | UFT/src/UFT/channel.py:256-260 | a settled DUT is `Idle` or `Fail`, so with `stoponfail` it is no longer sampled |
| Polling.Visit | UFT/src/UFT/channel.py:374-393 | a visit advances the counter by one and can only switch load inputs off, never while charging |
| Polling.RoundFrom | UFT/src/UFT/channel.py:251-300 | a round keeps the number of slots, advances the counter by exactly the number of samples it reads, and only switches load inputs off, never while charging; it ends with `all_charged` set only if it began so |
| Polling.RoundConsumes | UFT/src/UFT/channel.py:251-300 | a round that does not run out of samples reads exactly one sample per sampled slot |
| Polling.RoundKeepsUnsampled | UFT/src/UFT/channel.py:251-260 | a slot the round does not sample is untouched |
| Polling.RoundSlot | UFT/src/UFT/channel.py:251-300 | the sampled slots take consecutive samples and consecutive counters, in slot order |
| Polling.RoundSettled | UFT/src/UFT/channel.py:283-299 | in a round ending with every DUT settled, every sampled DUT is `Idle` or `Fail` and, while discharging, its load input is off |
| Polling.Poll | UFT/src/UFT/channel.py:249-305 | the loop keeps the slots' number, advances the counter by one per sample read, and only switches load inputs off |
| Polling.PollKeepsUnsampled | UFT/src/UFT/channel.py:249-260 | a slot that is not sampled at the start is never touched |
| Polling.PollEndsSettled | UFT/src/UFT/channel.py:249-305 | when the loop ends, no DUT whose item is enabled is still charging (or discharging) |
| Polling.PollRound | UFT/src/UFT/channel.py:250-304 | the `for dut in self.dut_list` pass computes one round |
| Polling.PollLoop | UFT/src/UFT/channel.py:249-305 | the `while (not all_charged)` loop computes the polling specification |
| Polling.ArmSlot | UFT/src/UFT/channel.py:220-242 | arming keeps empty slots empty and changes no attribute but the status |
| Polling.ArmStep | UFT/src/UFT/channel.py:310-332 | arming one more slot adds its load channel, and makes its current the channel's, exactly when the gate admits it for discharge |
| Polling.ArmedIsSampled | UFT/src/UFT/channel.py:242-260 | an armed DUT is sampled in the first round |
| Sequencer.Weight | UFT/src/UFT/channel.py:898-961 | only the nine phase codes carry a weight, never EXIT, and every weight is positive |
| Sequencer.PhaseCodes | UFT/src/UFT/channel.py:48-58 | the codes `run` dispatches to a routine are exactly INIT, LOAD_DISCHARGE, CHARGE, PROGRAM_VPD, CHECK_CAPACITANCE, CHECK_ENCRYPTED_IC, CHECK_TEMP, DUT_DISCHARGE and CHECK_POWER_FAIL |
| Sequencer.RunFrom | UFT/src/UFT/channel.py:889-964 | the loop never takes more codes than are queued |
| Sequencer.RunEnds | UFT/src/UFT/channel.py:889-964 | every code completed is a phase whose routine did not raise; the loop waits exactly when it took the whole queue; otherwise the last code taken is the EXIT, unknown code or raising routine that stopped it |
| Sequencer.RunProgress | UFT/src/UFT/channel.py:898-961 | the final progress is the initial one plus the weights of the completed phases |
| Sequencer.RunStopsAtFirst | UFT/src/UFT/channel.py:889-964 | codes are taken in FIFO order; the first EXIT, unknown code or raising routine is the last one taken |
| Sequencer.AutoTestWeights | UFT/src/UFT/channel.py:966-976 | the weights of the `auto_test` phases total 105 |
| Sequencer.AutoTestRun | UFT/src/UFT/channel.py:966-976 | with no routine raising, all eight phases and EXIT are taken, the loop exits and the progress is 105 |
| Sequencer.AutoTestRaises | UFT/src/UFT/channel.py:966-976 | when the routine at position `k` raises, the loop stops there with the weights of the phases before it |
| Sequencer.SlotsStepCases | UFT/src/UFT/channel.py:891-964 | INIT keeps the slots it had and appends after them the slots `init` appended, also when it raises; EXIT gives the verdicts; an unknown code leaves the slots alone |
| Sequencer.SupplyStepCases | UFT/src/UFT/channel.py:125-127 | INIT switches the supply output on; EXIT switches it off unless saving raised; other codes leave it |
| Sequencer.AutoTestSlots | UFT/src/UFT/channel.py:966-976 | a clean `auto_test` run ends with the verdicts of the slots as the capacitance check left them, and the supply off |
| Sequencer.InitTwice | UFT/src/UFT/channel.py:148-167 | a second INIT appends a second copy of the slots |
| Sequencer.RunAfterQuit | UFT/src/UFT/channel.py:989-991 | after `quit` the loop takes EXIT and stops without progress; on a channel with no slots yet, no DUT passes |
| Channels.Channel.constructor | UFT/src/UFT/channel.py:69-100 | a new channel keeps its barcode list and has no slots, progress 0, counter 0, current 2.0, the exit flag clear and an empty queue; the supply and the loads are as the channel finds them |
| Channels.Channel.AutoTest | UFT/src/UFT/channel.py:966-976 | `auto_test` appends INIT, CHARGE, PROGRAM_VPD, CHECK_ENCRYPTED_IC, CHECK_TEMP, CHECK_POWER_FAIL, LOAD_DISCHARGE, CHECK_CAPACITANCE, EXIT to the queue |
| Channels.Channel.Empty | UFT/src/UFT/channel.py:979-981 | `empty` leaves the queue empty |
| Channels.Channel.Quit | UFT/src/UFT/channel.py:989-991 | `quit` leaves the queue holding exactly EXIT |
| Channels.Channel.PrepareToExit | UFT/src/UFT/channel.py:864-883 | the slots get the final verdicts; the supply output is off unless saving raised |
| Channels.Channel.Phase | UFT/src/UFT/channel.py:905-911 | a routine that completes adds its weight; one that raises adds nothing, sets the exit flag (`error`) and raises |
| Channels.Channel.Init | UFT/src/UFT/channel.py:109-167 | every load input off and the supply output on; a range failure sets the supply to 0 V and raises before any slot is appended; otherwise the supply is at `PS_VOLT`, and the slots and the raise are those of the barcode loop (`Duts.InitSlots`) |
| Channels.Channel.InitInstruments | UFT/src/UFT/channel.py:113-144 | every load input off, the supply output on and at `PS_VOLT`; it raises if and only if the supply check fails, and then the supply is at 0 V |
| Channels.Channel.AppendBarcodes | UFT/src/UFT/channel.py:146-167 | the slots the barcode loop appends, up to the barcode that does not parse or whose `load_config` raises, stay appended, and the loop raises as `Duts.InitSlots` gives it |
| Channels.Channel.InitSlot | UFT/src/UFT/channel.py:147-167 | one barcode: an empty slot for an empty barcode, nothing and a raise for one that does not parse, otherwise its DUT appended, with a raise when its `load_config` raises |
| Duts.InitSlots | UFT/src/UFT/channel.py:146-167 | at most one slot per barcode; what each slot holds is stated by `Duts.InitSlotsSlot`, and when and why the loop raises by `Duts.InitSlotsRaises` |
| Duts.InitStopFirst | UFT/src/UFT/channel.py:146-167 | the loop stops at the first non-empty barcode that does not parse or whose `load_config` raises, and at no barcode before it |
| Duts.InitCountParses | UFT/src/UFT/channel.py:146-160 | every barcode that has an appended slot is empty or parses |
| Duts.InitSlotsRaises | UFT/src/UFT/channel.py:146-167 | the loop raises if and only if some non-empty barcode does not parse or its `load_config` raises; then the barcode after the appended slots did not parse, or the last appended one's `load_config` raised; otherwise every barcode has its slot |
| Duts.InitSlotsSlot | UFT/src/UFT/channel.py:146-167 | an appended slot is empty if and only if its barcode is empty; otherwise it holds the DUT of that slot, `Idle`, whose groups format back to its barcode, with the EEPROM and test items found for it |
| Duts.InitSlotsNext | UFT/src/UFT/channel.py:146-167 | the loop appends in barcode order, one slot at a time |
| Duts.InitStopsAtBadBarcode | UFT/src/UFT/models/base.py:70-75 | with a valid barcode followed by "x", the first DUT is appended and then the loop raises "Unvalide barcode." |
| Channels.Channel.Dispatch | UFT/src/UFT/channel.py:891-964 | EXIT gives the verdicts and sets the flag; INIT sets up the instruments and keeps what `init` appended, also when it raises; another phase code leaves the slots as its routine does and adds its weight or raises; an unknown code sets the flag and changes nothing else |
| Channels.Channel.Run | UFT/src/UFT/channel.py:885-964 | `run` ends with the progress, remaining queue, exit flag and raised exception that the loop specification gives, and with the slots and supply output that the codes taken leave; with the flag already set it does nothing |
| Channels.Channel.CheckTemperature | UFT/src/UFT/channel.py:586-606 | the slots and the raised flag become the temperature phase's result |
| Channels.Channel.CheckEncryptedIc | UFT/src/UFT/channel.py:608-630 | the slots and the raised flag become the encrypted-IC phase's result |
| Channels.Channel.PowerFailDut | UFT/src/UFT/channel.py:729-745 | one DUT is judged as one power-fail step says; it raises if and only if it is examined and its read raises |
| Channels.Channel.PowerFailPass | UFT/src/UFT/channel.py:726-746 | one pass over the slots, and whether it raises, is one power-fail round |
| Channels.Channel.CheckPowerFail | UFT/src/UFT/channel.py:722-774 | the slots and the raised flag become the two-pass power-fail result; the supply is back at `PS_VOLT`, or stays where it was (first pass) or at 9 V (second pass) when a pass raises |
| Channels.Channel.CapacitanceDut | UFT/src/UFT/channel.py:783-820 | one DUT is judged as the capacitance step says |
| Channels.Channel.CalculateCapacitance | UFT/src/UFT/channel.py:776-820 | the slots become the capacitance phase's result at the channel's current |
| Channels.Channel.CheckCrc | UFT/src/UFT/channel.py:521-584 | `check_crc` judges the DUT as the CRC step says |
| Channels.Channel.ProgramOne | UFT/src/UFT/channel.py:499-519 | one slot of `program_dut` is judged, and raises or not, as the programming step says |
| Channels.Channel.ProgramDut | UFT/src/UFT/channel.py:495-519 | the slots and the raised flag are the programming phase's result |
| Channels.Channel.ArmDuts | UFT/src/UFT/channel.py:220-332 | the arming loop of `charge_dut` (lines 220-244) sets the admitted DUTs charging; that of `discharge_dut` (lines 310-332) sets them discharging, switches their load inputs on and keeps the current of the last one |
| Channels.Channel.ChargeDut | UFT/src/UFT/channel.py:217-305 | `charge_dut` arms, resets the counter to 0 and leaves the slots and counter the polling specification gives |
| Channels.Channel.DischargeDut | UFT/src/UFT/channel.py:307-399 | `discharge_dut` arms, keeps the counter going and leaves the slots, counter and load inputs the polling specification gives; the supply is at 0 V during the loop and back at `PS_VOLT` after it |

## Left out

- The Aardvark adapter, DC load and power supply drivers are not part of this model. Their readings are parameters and their writes are traces or fields of the channel.
- Threading and the blocking `Queue`: `run` is a sequential loop over a `seq`. Where `queue.get()` would block on an empty queue, the method returns.
- `time.sleep` and `time.time()`: the timestamps come with the samples.
- `save_db`, `save_file`, `load_bin_file`, `load_config` and `load_test_item` are not part of this model. The test items are records and the VPD template is a byte sequence.
- The string-to-number conversions of configuration values (`.strip("aAvV")`, `int(v, 0)`) are not modelled; the items hold numbers.
- `init`'s instrument setup is not modelled: its range check is a parameter (`Duts.InitEnv`). For each barcode, the DUT the adapter and `load_config` present is given, along with whether `load_config` raises. The switch to the `Diamond4` class, the product class, the cable barcodes, the test date and the `config_list` are not modelled. `reset_dut` and `read_volt` are not part of this model.
- `check_dut_discharge` is not part of this model: its estimate uses `math.log`. Its code is reached only through DUT_DISCHARGE, which `auto_test` does not queue. Its weight is modelled.
- `Diamond4.meas_vcap`, `meas_capacitor` and `start_cap_meas` (analog scaling constants) are not part of this model.
- Logging, the `__main__` blocks and the `setattr` of every field that `read_vpd` performs are not modelled.
- Voltages, times and currents are exact reals, not IEEE floating point.
- Channels.Channel.Run: the phase routines other than EXIT's are abstract steps, and so is INIT's loop over the barcodes (its instrument part runs). Whether each raises and how it leaves the slots are parameters, and for an INIT also whether the raise came from the supply check. They need not agree with the phase methods or `Channels.Channel.AppendBarcodes`, since `Run` does not call them. `Run` states nothing about the supply setpoint, the load inputs, the counter or the current, which those routines change.
- Channels.Channel.Dispatch: the same abstraction for one code. Its contract ties the slots after a phase routine to the given slots, not to the phase methods.
- Channels.Channel.PrepareToExit: whether `save_file` raises is a parameter; the files are not modelled.
- Channels.Channel.Empty: drains the whole queue; the `qsize` snapshot matters only with concurrent producers.
- Channels.Channel.ChargeDut: the arming writes (auto-discharge off, self-discharge off, charger start) and their exceptions are not sequenced inside the method. They are the device helpers `Fixture.AutoDischarge`, `Pgem.SelfDischargeEffect` and `Pgem.ChargeStartReadsBack`. A raise inside the polling loop is not modelled. The calls that can raise there are `switch_to_dut`, `measureVolt`, `select_channel` and `read_volt`; only `check_temp`'s adapter exception is caught. Such a raise leaves the DUTs visited earlier in that round updated, and the counter already advanced for the failing DUT. `Channels.Channel.ChargeDut` always completes.
- Channels.Channel.DischargeDut: the arming writes (auto-discharge off, self-discharge off, charger stop, DC-load current) are not sequenced inside the method. Their exceptions are not modelled either. Unlike in `charge_dut`, the `self_discharge(status=False)` call is not guarded, so a DUT that does not answer ends the routine during arming. A raise inside the polling loop is not modelled: `switch_to_dut`, `measureVolt`, `select_channel`, `read_volt` and `input_off` can raise there. Such a raise leaves the DUTs visited earlier in that round updated, and the supply at 0 V, because the final `setVolt(PS_VOLT)` is skipped. `Channels.Channel.DischargeDut` always completes and restores the supply.
- Polling.Poll: a sample read cannot raise. In the source, an adapter or instrument exception while taking a sample ends the loop mid-round, and `Poll` has no such outcome. The samples are a finite trace. Running out of samples ends the loop with `exhausted` set, which the source cannot do (there the loop may run forever).
- Phases.CapacitanceStep: requires that no in-band pair has equal voltages. The source would raise `ZeroDivisionError` there.
- Phases.EstimateCapacitance: the same precondition as `Phases.CapacitanceStep`.
- Phases.CapacitancePhase: the same precondition, for every present slot.
- Channels.Channel.CapacitanceDut: the same precondition as `Phases.CapacitanceStep`.
- Channels.Channel.CalculateCapacitance: the same precondition as `Phases.CapacitanceStep`.
- Fixture.SwitchToMb: `switch_to_mb` passes the integer 0x00 to the adapter's `write`, not a list. The model reads it as one control byte; what the driver does with a bare integer is not part of this model.
- Channels.Channel.CheckTemperature, Channels.Channel.CheckEncryptedIc, Channels.Channel.PowerFailPass, Channels.Channel.CheckPowerFail, Channels.Channel.ProgramDut: the `switch_to_dut` and `switch_to_mb` mux writes and `read_power_fail_io`'s configuration writes are not sequenced inside these methods. They are the device helpers `Fixture.SwitchToDut`, `Fixture.SwitchToMb` and `Fixture.ReadPowerFailIo`.
- Crc.CrcOver: the numpy `int16` arithmetic is modelled as unsigned 16-bit. The result is masked with `0xffff` before the comparison, so only the low 16 bits matter.
- Barcode.Parse: models an exact match. Python's `$` would also accept one trailing newline, which a 33-character match then ignores.
- Vpd.WriteVpd: a template longer than the EEPROM is modelled as failing at the first address past 0xFF. The adapter's real behaviour there is not part of this model.
- Pgem.ReadAfterWrite: the charge ICs are ideal register files. Reserved bits and read-only registers are not modelled.
- Phases.PowerFailPhase: its contract states only the slot and status frame. The per-DUT verdict of a completed check is `Phases.PowerFailVerdict`; the pass that raises is described by `Phases.PowerFailRound`.
- Phases.TempPhase, Phases.EncryptedPhase, Phases.PowerFailRound: an adapter exception is modelled only for the read of an examined DUT (`None`). The exception of the `switch_to_dut` write before it is folded into that read.

=== FILE: barcode.dfy ===
/** The fixed-width 2D barcode of a PGEM module and the pattern that splits
    it into part number, vendor, date code, serial id and revision
    (BARCODE_PATTERN and its use in PGEMBase.__init__). */
module Barcode {
  import opened Common

  /** The length of every accepted barcode: `AGIGA####-###XXX##YYWW########-##`. */
  const BARCODE_LENGTH: nat := 33

  /** Python 2's `\d` on a byte string. */
  predicate IsDigit(c: char) { '0' <= c <= '9' }

  /** Python 2's `\w` on a byte string without the LOCALE or UNICODE flag. */
  predicate IsWordChar(c: char) {
    ('a' <= c <= 'z') || ('A' <= c <= 'Z') || IsDigit(c) || c == '_'
  }

  predicate AllDigits(s: string) {
    forall i :: 0 <= i < |s| ==> IsDigit(s[i])
  }

  /** The named groups of a match. `sn` is the whole barcode. */
  datatype Fields = Fields(
    sn: string, pn: string, vv: string, yy: string, ww: string, id: string, rr: string)

  /** Group PN: `AGIGA\d{4}-\d{3}\w{3}`. */
  predicate IsPartNumber(pn: string) {
    |pn| == 16 && pn[..5] == "AGIGA" && AllDigits(pn[5..9]) && pn[9] == '-' &&
    AllDigits(pn[10..13]) && IsWordChar(pn[13]) && IsWordChar(pn[14]) && IsWordChar(pn[15])
  }

  /** Group YY: `[1-2][0-9]`. */
  predicate IsYear(yy: string) {
    |yy| == 2 && '1' <= yy[0] <= '2' && IsDigit(yy[1])
  }

  /** Group WW: `[0-4][0-9]|5[0-3]`, that is a week from 00 to 53. */
  predicate IsWeek(ww: string) {
    |ww| == 2 && (('0' <= ww[0] <= '4' && IsDigit(ww[1])) || (ww[0] == '5' && '0' <= ww[1] <= '3'))
  }

  /** What a well-formed match holds in each group. */
  predicate WellFormed(f: Fields) {
    IsPartNumber(f.pn) && |f.vv| == 2 && AllDigits(f.vv) && IsYear(f.yy) && IsWeek(f.ww) &&
    |f.id| == 8 && AllDigits(f.id) && |f.rr| == 2 && AllDigits(f.rr) &&
    f.sn == f.pn + f.vv + f.yy + f.ww + f.id + "-" + f.rr
  }

  /** The barcode spelled by the groups of a match. */
  function Format(f: Fields): string {
    f.pn + f.vv + f.yy + f.ww + f.id + "-" + f.rr
  }

  /** The pattern read character by character: the character class that the
      anchored pattern demands at each position, with the week alternation
      as the one constraint that spans two positions. This is an independent
      reading of the regular expression, used to check the parser. */
  predicate ClassAt(i: nat, c: char) {
    if i < 5 then c == "AGIGA"[i]
    else if i == 9 || i == 30 then c == '-'
    else if 13 <= i < 16 then IsWordChar(c)
    else if i == 18 then '1' <= c <= '2'
    else if i == 20 || i == 21 then true
    else IsDigit(c)
  }

  predicate MatchesPattern(s: string) {
    |s| == BARCODE_LENGTH &&
    (forall i :: 0 <= i < |s| ==> ClassAt(i, s[i])) &&
    IsWeek(s[20..22])
  }

  /** `BARCODE_PATTERN.search(barcode)` followed by `groupdict()`; `None`
      stands for the failed match on which the constructor raises
      PGEMException("Unvalide barcode."). */
  function Parse(s: string): (r: Option<Fields>)
    ensures r.Some? ==> WellFormed(r.value) && Format(r.value) == s
    ensures r.Some? ==> r.value.pn == s[..16] && r.value.rr == s[31..]
  {
    if |s| != BARCODE_LENGTH then None
    else
      var f := Fields(s, s[..16], s[16..18], s[18..20], s[20..22], s[22..30], s[31..]);
      if IsPartNumber(f.pn) && AllDigits(f.vv) && IsYear(f.yy) && IsWeek(f.ww) &&
         AllDigits(f.id) && s[30] == '-' && AllDigits(f.rr)
      then
        assert s == f.pn + f.vv + f.yy + f.ww + f.id + "-" + f.rr;
        Some(f)
      else None
  }

  /** Every string the pattern matches parses. */
  lemma PatternParses(s: string)
    requires MatchesPattern(s)
    ensures Parse(s).Some?
  {
    assert s[..5] == "AGIGA" by {
      forall i | 0 <= i < 5 ensures s[..5][i] == "AGIGA"[i] { assert ClassAt(i, s[i]); }
    }
    forall i | 5 <= i < 9 ensures IsDigit(s[i]) { assert ClassAt(i, s[i]); }
    forall i | 10 <= i < 13 ensures IsDigit(s[i]) { assert ClassAt(i, s[i]); }
    forall i | 16 <= i < 18 ensures IsDigit(s[i]) { assert ClassAt(i, s[i]); }
    forall i | 22 <= i < 30 ensures IsDigit(s[i]) { assert ClassAt(i, s[i]); }
    forall i | 31 <= i < 33 ensures IsDigit(s[i]) { assert ClassAt(i, s[i]); }
    assert ClassAt(9, s[9]) && ClassAt(30, s[30]) && ClassAt(18, s[18]) && ClassAt(19, s[19]);
    assert ClassAt(13, s[13]) && ClassAt(14, s[14]) && ClassAt(15, s[15]);
    assert AllDigits(s[16..18]);
    assert AllDigits(s[22..30]);
    assert AllDigits(s[31..]);
    assert AllDigits(s[..16][5..9]);
    assert AllDigits(s[..16][10..13]);
  }

  /** Every string that parses matches the pattern. */
  lemma ParsedMatchesPattern(s: string)
    requires Parse(s).Some?
    ensures MatchesPattern(s)
  {
    var f := Parse(s).value;
    forall i | 0 <= i < |s| ensures ClassAt(i, s[i]) {
      if i < 16 {
        assert s[i] == f.pn[i];
        if i < 5 { assert f.pn[..5][i] == "AGIGA"[i]; }
        else if 5 <= i < 9 { assert f.pn[5..9][i - 5] == s[i]; }
        else if 10 <= i < 13 { assert f.pn[10..13][i - 10] == s[i]; }
      } else if i < 18 {
        assert f.vv[i - 16] == s[i];
      } else if i < 20 {
        assert f.yy[i - 18] == s[i];
      } else if 22 <= i < 30 {
        assert f.id[i - 22] == s[i];
      } else if 31 <= i {
        assert f.rr[i - 31] == s[i];
      }
    }
  }

  /** The parser accepts exactly the strings the pattern matches. */
  lemma ParseAcceptsPattern(s: string)
    ensures Parse(s).Some? <==> MatchesPattern(s)
  {
    if MatchesPattern(s) {
      PatternParses(s);
    }
    if Parse(s).Some? {
      ParsedMatchesPattern(s);
    }
  }

  /** Formatting well-formed groups and parsing the result gives them back. */
  lemma ParseFormat(f: Fields)
    requires WellFormed(f)
    ensures Parse(Format(f)) == Some(f)
  {
    var s := Format(f);
    assert |s| == BARCODE_LENGTH;
    assert s[..16] == f.pn;
    assert s[16..18] == f.vv;
    assert s[18..20] == f.yy;
    assert s[20..22] == f.ww;
    assert s[22..30] == f.id;
    assert s[30] == '-';
    assert s[31..] == f.rr;
  }

  /** A barcode from the repository's own scripts. */
  const EXAMPLE: string := "AGIGA9811-001BCA02143900000228-01"

  /** The example parses into its seven groups. */
  lemma ExampleBarcode()
    ensures Parse(EXAMPLE) == Some(Fields(EXAMPLE, "AGIGA9811-001BCA", "02", "14", "39", "00000228", "01"))
  {
    var f := Fields(EXAMPLE, "AGIGA9811-001BCA", "02", "14", "39", "00000228", "01");
    assert IsPartNumber(f.pn) by {
      assert f.pn[..5] == "AGIGA" && f.pn[5..9] == "9811" && f.pn[10..13] == "001";
    }
    assert AllDigits(f.vv) && IsYear(f.yy) && IsWeek(f.ww) && AllDigits(f.id) && AllDigits(f.rr);
    assert Format(f) == EXAMPLE;
    ParseFormat(f);
  }
}

=== FILE: channel.dfy ===
/** The `Channel` of one motherboard: the slots it owns, the progress bar,
    the sample counter, the discharge current, the exit flag and the queue
    of phase codes, and the state of the instruments it drives (the
    supply's setpoint and output, the DC-load inputs that are on). Its
    methods are the phase routines and the `run` loop; what the
    instruments and the DUTs read back is passed in. */
module Channels {
  import opened Common
  import opened Duts
  import Barcode
  import Vpd
  import Crc
  import Pgem
  import Fixture
  import Phases
  import Polling
  import Sequencer

  class Channel {
    /** The motherboard channel, 0 to 7. */
    const channel: nat
    /** PS_VOLT, the supply voltage of normal operation. */
    const psVolt: real
    /** `barcode_list`: one barcode per fixture slot, "" where none is
        loaded. */
    const barcodes: seq<string>

    var duts: Slots
    var progressbar: int
    var counter: int
    var current: real
    var exit: bool
    var queue: seq<int>
    var supplyVolt: real
    var supplyOn: bool
    var loadOn: set<nat>

    /** A channel as `__init__` leaves it: no slots yet (`init` builds
        them), nothing queued, and the supply and the loads as the channel
        finds them, since `__init__` does not touch the instruments. */
    constructor (channel: nat, psVolt: real, barcodes: seq<string>, volt: real, on: bool, loads: set<nat>)
      ensures this.channel == channel && this.psVolt == psVolt && this.barcodes == barcodes && duts == []
      ensures progressbar == 0 && counter == 0 && current == 2.0 && !exit && queue == []
      ensures supplyVolt == volt && supplyOn == on && loadOn == loads
    {
      this.channel := channel;
      this.psVolt := psVolt;
      this.barcodes := barcodes;
      duts := [];
      progressbar := 0;
      counter := 0;
      current := 2.0;
      exit := false;
      queue := [];
      supplyVolt := volt;
      supplyOn := on;
      loadOn := loads;
    }

    // -------------------------------------------------------------------------
    // The queue

    /** `auto_test`: queue the test phases and EXIT (the thread is then
        started, which is the `Run` below). */
    method AutoTest()
      modifies this`queue
      ensures queue == old(queue) + Sequencer.AUTO_TEST
    {
      queue := queue + [Sequencer.INIT];
      queue := queue + [Sequencer.CHARGE];
      queue := queue + [Sequencer.PROGRAM_VPD];
      queue := queue + [Sequencer.CHECK_ENCRYPTED_IC];
      queue := queue + [Sequencer.CHECK_TEMP];
      queue := queue + [Sequencer.CHECK_POWER_FAIL];
      queue := queue + [Sequencer.LOAD_DISCHARGE];
      queue := queue + [Sequencer.CHECK_CAPACITANCE];
      queue := queue + [Sequencer.EXIT];
    }

    /** `empty`: take as many codes as the queue holds. */
    method Empty()
      modifies this`queue
      ensures queue == []
    {
      var n := |queue|;
      for i := 0 to n
        invariant |queue| == n - i
      {
        queue := queue[1..];
      }
    }

    /** `quit`: drop whatever is queued and queue EXIT. */
    method Quit()
      modifies this`queue
      ensures queue == [Sequencer.EXIT]
    {
      Empty();
      queue := queue + [Sequencer.EXIT];
    }

    // -------------------------------------------------------------------------
    // run

    /** `prepare_to_exit`: every `Idle` DUT passes, then the results are
        saved and the supply output switched off. `saveFails` says whether
        saving raises, which leaves the supply on. */
    method PrepareToExit(saveFails: bool) returns (raised: bool)
      modifies this`duts, this`supplyOn
      ensures duts == Verdicts(old(duts))
      ensures raised == saveFails && supplyOn == (old(supplyOn) && saveFails)
    {
      duts := PrepareVerdicts(duts);
      if saveFails {
        return true;
      }
      supplyOn := false;
      raised := false;
    }

    /** One `try: routine; progressbar += weight; except: error(e)` branch
        of `run`, for a routine that raises when `fails`: `error` sets the
        exit flag and the exception leaves `run`. */
    method Phase(weight: nat, fails: bool) returns (raised: bool)
      modifies this`progressbar, this`exit
      ensures raised == fails
      ensures progressbar == old(progressbar) + (if fails then 0 else weight)
      ensures exit == (old(exit) || fails)
    {
      if fails {
        exit := true;
        return true;
      }
      progressbar := progressbar + weight;
      raised := false;
    }

    /** `init`: the instruments are set up, then the slots are built from
        the barcodes. */
    method Init(env: InitEnv) returns (raised: bool)
      requires |env.found| == |barcodes|
      modifies this`duts, this`loadOn, this`supplyVolt, this`supplyOn
      ensures loadOn == {} && supplyOn
      ensures supplyVolt == (if env.rangeFails then 0.0 else psVolt)
      ensures raised == InitOutcome(barcodes, env).1
      ensures duts == old(duts) + InitOutcome(barcodes, env).0
    {
      raised := InitInstruments(env.rangeFails);
      if raised {
        return;
      }
      raised := AppendBarcodes(env.found);
    }

    /** The instrument part of `init`: every load input is switched off,
        the supply is set to `PS_VOLT` and its output switched on. When the
        supply's voltage or current is out of range (`rangeFails`), the
        supply is set to 0 V and the AssertionError leaves the routine. */
    method InitInstruments(rangeFails: bool) returns (raised: bool)
      modifies this`loadOn, this`supplyVolt, this`supplyOn
      ensures raised == rangeFails && loadOn == {} && supplyOn
      ensures supplyVolt == (if rangeFails then 0.0 else psVolt)
    {
      loadOn := {};
      supplyVolt := psVolt;
      supplyOn := true;
      if rangeFails {
        supplyVolt := 0.0;
        return true;
      }
      raised := false;
    }

    /** The loop of `init` over the barcodes: it appends one slot per
        barcode to `dut_list` until a barcode does not parse (the
        constructor raises before the append) or its `load_config` raises
        (after the append); the slots appended stay. */
    method AppendBarcodes(found: seq<Found>) returns (raised: bool)
      requires |found| == |barcodes|
      modifies this`duts
      ensures raised == InitSlots(barcodes, found).1
      ensures duts == old(duts) + InitSlots(barcodes, found).0
    {
      ghost var spec := InitSlots(barcodes, found).0;
      ghost var k := InitStop(barcodes, found);
      InitStopFirst(barcodes, found);
      for i := 0 to |barcodes|
        invariant i <= k && i <= InitCount(barcodes, found)
        invariant duts == old(duts) + spec[..i]
      {
        var stop := InitSlot(i, found[i]);
        if stop {
          assert i == k;
          assert duts == old(duts) + spec by {
            if Barcode.Parse(barcodes[i]).Some? {
              InitSlotsNext(barcodes, found, i);
              assert spec[..i + 1] == spec;
            } else {
              assert spec[..i] == spec;
            }
          }
          return true;
        }
        InitSlotsNext(barcodes, found, i);
      }
      assert spec[..|barcodes|] == spec;
      raised := false;
    }

    /** One pass of `init`'s loop: nothing for an empty barcode but an
        empty slot; otherwise the DUT is built, which raises when the
        barcode does not parse, appended as `Idle`, and its `load_config`
        may raise after the append. `stop` says whether the loop leaves. */
    method InitSlot(i: nat, f: Found) returns (stop: bool)
      requires i < |barcodes|
      modifies this`duts
      ensures stop == InitFault(barcodes[i], f)
      ensures duts == old(duts) +
        (if barcodes[i] != "" && Barcode.Parse(barcodes[i]).None? then [] else [BuiltSlot(i, barcodes[i], f)])
    {
      if barcodes[i] == "" {
        duts := duts + [None];
        return false;
      }
      var fields := Barcode.Parse(barcodes[i]);
      if fields.None? {
        return true;
      }
      var d := f.dut.(slot := i, fields := fields.value, status := Idle);
      duts := duts + [Some(d)];
      stop := f.configRaises;
    }

    /** The `if ... elif ...` dispatch of `run` on one code: EXIT runs
        `prepare_to_exit` and sets the flag, INIT runs `init`, another
        known code runs its routine, which leaves the slots `out`, and an
        unknown code sets the flag. `fails` says whether the routine
        raises. For INIT the instrument part runs, and `rangeFails` says
        whether the raise comes from its supply check; the loop over the
        barcodes is the abstract routine, and `out` is what `init`
        appended (nothing when the supply check raised; `AppendBarcodes`
        computes it otherwise). What the abstract routines do
        to the instruments, the counter and the current is left open. */
    method Dispatch(state: int, fails: bool, out: Slots, rangeFails: bool) returns (raised: bool)
      modifies this`duts, this`progressbar, this`exit, this`supplyOn, this`supplyVolt, this`loadOn
      modifies this`counter, this`current
      ensures duts == Sequencer.SlotsStep(state, fails, out, old(duts))
      ensures supplyOn == Sequencer.SupplyStep(state, fails, old(supplyOn))
      ensures state == Sequencer.EXIT ==>
        progressbar == old(progressbar) && exit && raised == fails &&
        supplyVolt == old(supplyVolt) && loadOn == old(loadOn)
      ensures state == Sequencer.INIT ==>
        loadOn == {} && supplyVolt == (if fails && rangeFails then 0.0 else psVolt)
      ensures state != Sequencer.EXIT && Sequencer.IsPhase(state) ==>
        raised == fails && exit == (old(exit) || fails) &&
        progressbar == old(progressbar) + (if fails then 0 else Sequencer.Weight(state).value)
      ensures state != Sequencer.EXIT && !Sequencer.IsPhase(state) ==>
        progressbar == old(progressbar) && exit && !raised &&
        supplyVolt == old(supplyVolt) && loadOn == old(loadOn)
    {
      raised := false;
      if state == Sequencer.EXIT {
        raised := PrepareToExit(fails);
        exit := true;
      } else if state == Sequencer.INIT {
        raised := InitInstruments(fails && rangeFails);
        duts := duts + out;
        raised := Phase(20, fails);
      } else if state == Sequencer.CHARGE {
        duts := out;
        raised := Phase(20, fails);
      } else if state == Sequencer.LOAD_DISCHARGE {
        duts := out;
        raised := Phase(30, fails);
      } else if state == Sequencer.PROGRAM_VPD {
        duts := out;
        raised := Phase(10, fails);
      } else if state == Sequencer.CHECK_ENCRYPTED_IC {
        duts := out;
        raised := Phase(5, fails);
      } else if state == Sequencer.CHECK_TEMP {
        duts := out;
        raised := Phase(5, fails);
      } else if state == Sequencer.CHECK_CAPACITANCE {
        duts := out;
        raised := Phase(5, fails);
      } else if state == Sequencer.DUT_DISCHARGE {
        duts := out;
        raised := Phase(10, fails);
      } else if state == Sequencer.CHECK_POWER_FAIL {
        duts := out;
        raised := Phase(10, fails);
      } else {
        exit := true;
      }
    }

    /** `run`: take codes from the queue until the exit flag is set. The
        routines other than INIT's and EXIT's are abstract steps:
        `raises[m]` says whether the routine of the `m`-th queued code
        raises, and `outs[m]` how it leaves the slots. For an INIT,
        `raises[m]` says whether `init` raises, `ranges[m]` whether at
        its supply check, and `outs[m]` what it appended. The method returns when the flag is set, or when
        the queue is empty, where the thread would wait in `queue.get()`.
        `raised` says whether an exception leaves `run`. */
    method Run(raises: seq<bool>, outs: seq<Slots>, ranges: seq<bool>) returns (raised: bool)
      requires |raises| == |queue| && |outs| == |queue| && |ranges| == |queue|
      modifies this`duts, this`progressbar, this`exit, this`queue, this`supplyOn, this`supplyVolt, this`loadOn
      modifies this`counter, this`current
      ensures old(exit) ==> !raised && duts == old(duts) && progressbar == old(progressbar) &&
                            exit && queue == old(queue) && supplyOn == old(supplyOn)
      ensures !old(exit) ==>
        var r := Sequencer.RunFrom(old(queue), raises, 0, old(progressbar));
        progressbar == r.progress && queue == old(queue)[r.taken..] &&
        exit == (r.stop != Sequencer.Waiting) && raised == (r.stop == Sequencer.Raised) &&
        duts == Sequencer.SlotsAfter(old(queue), raises, outs, r.taken, old(duts)) &&
        supplyOn == Sequencer.SupplyAfter(old(queue), raises, r.taken, old(supplyOn))
    {
      raised := false;
      if exit {
        return;
      }
      ghost var q0, d0, s0 := queue, duts, supplyOn;
      ghost var end := Sequencer.RunFrom(queue, raises, 0, progressbar);
      Sequencer.RunEnds(queue, raises, 0, progressbar);
      var taken := 0;
      while true
        invariant taken <= |q0| && queue == q0[taken..]
        invariant !exit && !raised
        invariant duts == Sequencer.SlotsAfter(q0, raises, outs, taken, d0)
        invariant supplyOn == Sequencer.SupplyAfter(q0, raises, taken, s0)
        invariant Sequencer.RunFrom(q0, raises, taken, progressbar) == end
        decreases |queue|
      {
        if queue == [] {
          return;
        }
        var state, fails, out := queue[0], raises[taken], outs[taken];
        assert state == q0[taken];
        queue := queue[1..];
        raised := Dispatch(state, fails, out, ranges[taken]);
        taken := taken + 1;
        if exit {
          assert end == Sequencer.RunEnd(progressbar, taken,
            if state == Sequencer.EXIT then (if fails then Sequencer.Raised else Sequencer.Exited)
            else if Sequencer.IsPhase(state) then Sequencer.Raised
            else Sequencer.UnknownCode);
          return;
        }
      }
    }

    // -------------------------------------------------------------------------
    // The checks that examine one DUT at a time

    /** `check_temperature_dut`, given the temperature register each
        slot's sensor reads (`None` where the adapter raises). `raised`
        says whether that exception left the routine, with the slots
        before it judged. */
    method CheckTemperature(readings: seq<Option<Phases.TempReading>>) returns (raised: bool)
      requires |readings| == |duts|
      modifies this`duts
      ensures (duts, raised) == Phases.TempPhase(old(duts), readings)
    {
      ghost var before := duts;
      ghost var faults := Phases.TempFaults(before, readings);
      ghost var spec := Phases.TempPhase(before, readings).0;
      for i := 0 to |duts|
        invariant |duts| == |before| && i <= Phases.TempFault(before, readings)
        invariant forall j :: 0 <= j < i ==> duts[j] == spec[j]
        invariant forall j :: i <= j < |duts| ==> duts[j] == before[j]
      {
        if duts[i].None? {
          continue;
        }
        var d := duts[i].value;
        var item := d.config.checkTemp;
        if !item.enable || (item.stopOnFail && d.status != Idle) {
          assert !faults[i];
          continue;
        }
        if readings[i].None? {
          assert faults[i];
          assert duts == spec;
          return true;
        }
        assert !faults[i];
        var temp := Pgem.CheckTemp(readings[i].value.msb, readings[i].value.lsb);
        if !(item.min < temp < item.max) {
          duts := duts[i := Some(Failed(d, Phases.TEMP_MSG))];
        }
      }
      assert duts == spec;
      raised := false;
    }

    /** `check_encryptedic_dut`, given the block each slot's encrypted IC
        reads (`None` where the adapter raises). */
    method CheckEncryptedIc(blocks: seq<Option<seq<Byte>>>) returns (raised: bool)
      requires |blocks| == |duts|
      modifies this`duts
      ensures (duts, raised) == Phases.EncryptedPhase(old(duts), blocks)
    {
      ghost var before := duts;
      ghost var faults := Phases.EncryptedFaults(before, blocks);
      ghost var spec := Phases.EncryptedPhase(before, blocks).0;
      for i := 0 to |duts|
        invariant |duts| == |before| && i <= Phases.EncryptedFault(before, blocks)
        invariant forall j :: 0 <= j < i ==> duts[j] == spec[j]
        invariant forall j :: i <= j < |duts| ==> duts[j] == before[j]
      {
        if duts[i].None? {
          continue;
        }
        var d := duts[i].value;
        var item := d.config.encryptedIc;
        if !item.enable || (item.stopOnFail && d.status != Idle) || d.status != Idle {
          assert !faults[i];
          continue;
        }
        if blocks[i].None? {
          assert faults[i];
          assert duts == spec;
          return true;
        }
        assert !faults[i];
        if !Pgem.EncryptedIcValid(blocks[i].value) {
          duts := duts[i := Some(Failed(d, Phases.ENCRYPTED_MSG))];
        }
      }
      assert duts == spec;
      raised := false;
    }

    /** `check_power_fail`'s examination of one DUT, given port 1 of the
        motherboard expander as the read finds it (`None` where the
        adapter raises, which only an examined DUT's read can do). */
    method PowerFailDut(d: Dut, port1: Option<bv8>, on: bool) returns (r: Dut, raised: bool)
      requires d.slot < MUX_CHANNELS
      ensures raised <==> IdleGate(d.config.powerFailInt, d.status) && port1.None?
      ensures Some(r) == Phases.PowerFailSlot(channel, Some(d), port1, on, true)
    {
      r, raised := d, false;
      var item := d.config.powerFailInt;
      if !item.enable || (item.stopOnFail && d.status != Idle) || d.status != Idle {
        return;
      }
      if port1.None? {
        return d, true;
      }
      var (_, val) := Fixture.ReadPowerFailIo(channel, d.slot, port1.value);
      if val != (if on then item.on else item.off) {
        r := Failed(d, Phases.POWER_FAIL_MSG);
      }
    }

    /** One pass of `check_power_fail` over the slots, given port 1 of the
        motherboard expander as each slot's read finds it. */
    method PowerFailPass(ports: seq<Option<bv8>>, on: bool) returns (raised: bool)
      requires InSlots(duts) && |ports| == |duts|
      modifies this`duts
      ensures (duts, raised) == Phases.PowerFailRound(channel, old(duts), ports, on)
    {
      ghost var before := duts;
      ghost var faults := Phases.PowerFailFaults(before, ports);
      var slots := duts;
      raised := false;
      for i := 0 to |slots|
        invariant |slots| == |before| && i <= Phases.PowerFailFault(before, ports)
        invariant forall j :: 0 <= j < i ==> slots[j] == Phases.PowerFailSlot(channel, before[j], ports[j], on, true)
        invariant forall j :: i <= j < |slots| ==> slots[j] == before[j]
      {
        if slots[i].None? {
          continue;
        }
        var d, fault := PowerFailDut(slots[i].value, ports[i], on);
        if fault {
          assert faults[i];
          Phases.PowerFailRoundUpTo(channel, before, ports, on, slots, i);
          duts := slots;
          return true;
        }
        assert !faults[i];
        slots := slots[i := Some(d)];
      }
      Phases.PowerFailRoundUpTo(channel, before, ports, on, slots, |slots|);
      duts := slots;
    }

    /** `check_power_fail`: the pass with the supply at `PS_VOLT`, the pass
        with the supply at 9 V, then the supply back at `PS_VOLT`. A pass
        that raises leaves the supply where it is. */
    method CheckPowerFail(portsOn: seq<Option<bv8>>, portsOff: seq<Option<bv8>>) returns (raised: bool)
      requires InSlots(duts) && |portsOn| == |duts| && |portsOff| == |duts|
      modifies this`duts, this`supplyVolt
      ensures (duts, raised) == Phases.PowerFailPhase(channel, old(duts), portsOn, portsOff)
      ensures supplyVolt == (if Phases.PowerFailRound(channel, old(duts), portsOn, true).1 then old(supplyVolt)
                             else if raised then 9.0 else psVolt)
    {
      raised := PowerFailPass(portsOn, true);
      if raised {
        return;
      }
      supplyVolt := 9.0;
      raised := PowerFailPass(portsOff, false);
      if raised {
        return;
      }
      supplyVolt := psVolt;
    }

    /** `calculate_capacitance` on one DUT: the estimate is recorded, and
        the DUT fails when it is not strictly inside the item's band. */
    method CapacitanceDut(d: Dut) returns (r: Dut)
      requires IdleGate(d.config.capacitor, d.status) ==> Phases.NoFlatPair(Phases.Discharges(d.cycles))
      ensures r == Phases.CapacitanceStep(d, current)
    {
      r := d;
      var item := d.config.capacitor;
      if !item.enable || (item.stopOnFail && d.status != Idle) || d.status != Idle {
        return;
      }
      var capacitor := Phases.EstimateCapacitance(d.cycles, current);
      r := d.(capacitanceMeasured := capacitor);
      if !(item.min < r.capacitanceMeasured < item.max) {
        r := Failed(r, Phases.CAP_MSG);
      }
    }

    /** `calculate_capacitance`, with the discharge current last set. */
    method CalculateCapacitance()
      requires Phases.CapacitanceDefined(duts)
      modifies this`duts
      ensures duts == Phases.CapacitancePhase(old(duts), current)
    {
      ghost var before := duts;
      for i := 0 to |duts|
        invariant |duts| == |before|
        invariant forall j :: 0 <= j < i ==>
          duts[j] == if before[j].None? then None else Some(Phases.CapacitanceStep(before[j].value, current))
        invariant forall j :: i <= j < |duts| ==> duts[j] == before[j]
      {
        if duts[i].None? {
          continue;
        }
        var d := CapacitanceDut(duts[i].value);
        duts := duts[i := Some(d)];
      }
    }

    // -------------------------------------------------------------------------
    // program_dut and check_crc

    /** `check_crc(dut)`: each checksum that does not match fails the DUT. */
    method CheckCrc(d: Dut) returns (r: Dut)
      ensures r == Phases.CrcStep(d)
    {
      r := d;
      var ok1, ok2 := Crc.CheckCrc(d.eeprom);
      if !ok1 {
        r := Failed(r, Phases.CRC1_MSG);
      }
      if !ok2 {
        r := Failed(r, Phases.CRC2_MSG);
      }
    }

    /** One DUT of `program_dut`: the gate, `write_vpd` (an AssertionError
        fails the DUT; any other exception raises out of the routine), then
        `check_crc`. */
    method ProgramOne(d: Dut) returns (r: Dut, raised: bool)
      requires Barcode.WellFormed(d.fields)
      ensures (r, raised) == Phases.ProgramStep(d)
    {
      r, raised := d, false;
      var item := d.config.programVpd;
      if !item.enable || (item.stopOnFail && d.status != Idle) {
        return;
      }
      Vpd.WellFormedIsProgrammable(d.fields);
      var mem, outcome := Vpd.WriteVpd(d.eeprom, item.file, d.fields, item.pgemId, d.slot);
      match outcome {
        case UnknownSlot =>
          return d, true;
        case AdapterFault =>
          return d.(eeprom := mem), true;
        case ReadbackMismatch =>
          r := Failed(d.(eeprom := mem), Phases.PROGRAM_MSG);
        case Written =>
          r := d.(eeprom := mem, programVpd := 1);
      }
      r := CheckCrc(r);
    }

    /** `program_dut`: `raised` says whether an exception other than the
        caught AssertionError left the routine, at the slot where it
        happened. */
    method ProgramDut() returns (raised: bool)
      requires WellPlaced(duts)
      modifies this`duts
      ensures (duts, raised) == Phases.ProgramPhase(old(duts))
    {
      ghost var before := duts;
      for i := 0 to |duts|
        invariant WellPlaced(duts)
        invariant Phases.ProgramFrom(duts, i) == Phases.ProgramFrom(before, 0)
      {
        if duts[i].None? {
          continue;
        }
        ghost var pre := duts;
        var d;
        d, raised := ProgramOne(duts[i].value);
        duts := duts[i := Some(d)];
        Phases.ProgramSlotOnlyFails(pre, i);
        if raised {
          return;
        }
      }
      raised := false;
    }

    // -------------------------------------------------------------------------
    // charge_dut and discharge_dut

    /** The arming loop of `charge_dut` (`k` is charge) or `discharge_dut`:
        each DUT its gate admits is set charging or discharging; while
        discharging, its load input is switched on at the item's current,
        which the channel keeps. */
    method ArmDuts(k: Polling.PollKind)
      modifies this`duts, this`current, this`loadOn
      ensures duts == Polling.Arm(k, old(duts))
      ensures current == (if k == Polling.DischargePoll then Polling.ArmedCurrent(old(duts), old(current)) else old(current))
      ensures loadOn == (if k == Polling.DischargePoll then old(loadOn) + Polling.ArmedSlots(old(duts)) else old(loadOn))
    {
      ghost var before, current0, load0 := duts, current, loadOn;
      var slots, cur, load := duts, current, loadOn;
      for i := 0 to |slots|
        invariant |slots| == |before|
        invariant forall j :: 0 <= j < i ==> slots[j] == Polling.ArmSlot(k, before[j])
        invariant forall j :: i <= j < |slots| ==> slots[j] == before[j]
        invariant cur == (if k == Polling.DischargePoll then Polling.ArmedCurrent(before[..i], current0) else current0)
        invariant load == (if k == Polling.DischargePoll then load0 + Polling.ArmedSlots(before[..i]) else load0)
      {
        Polling.ArmStep(before, i, current0);
        if slots[i].None? {
          continue;
        }
        var d := slots[i].value;
        var item := Polling.Item(k, d);
        if !item.enable || (item.stopOnFail && d.status != Idle) {
          continue;
        }
        if k == Polling.DischargePoll {
          cur := item.current;
          load := load + {d.slot};
        }
        slots := slots[i := Some(d.(status := Polling.Active(k)))];
      }
      assert before[..|before|] == before;
      duts, current, loadOn := slots, cur, load;
    }

    /** `charge_dut`: arm, reset the counter, and poll the supplied samples
        (`start` is the time the loop starts). `exhausted` says whether the
        samples ran out before every DUT settled. */
    method ChargeDut(samples: seq<Polling.Sample>, start: real) returns (exhausted: bool)
      modifies this`duts, this`counter, this`current, this`loadOn
      ensures current == old(current) && loadOn == old(loadOn)
      ensures var e := Polling.Poll(Polling.ChargePoll,
                                    Polling.PollState(Polling.Arm(Polling.ChargePoll, old(duts)), 0, old(loadOn)),
                                    samples, 0, start);
        duts == e.st.duts && counter == e.st.counter && exhausted == e.exhausted
    {
      ArmDuts(Polling.ChargePoll);
      counter := 0;
      var e := Polling.PollLoop(Polling.ChargePoll, Polling.PollState(duts, counter, loadOn), samples, start);
      duts, counter := e.st.duts, e.st.counter;
      exhausted := e.exhausted;
    }

    /** `discharge_dut`: arm, lower the supply to 0 V, poll the supplied
        samples, and set the supply back to `PS_VOLT` once every DUT
        settled. The counter goes on from where the charge left it. */
    method DischargeDut(samples: seq<Polling.Sample>, start: real) returns (exhausted: bool)
      modifies this`duts, this`counter, this`current, this`loadOn, this`supplyVolt
      ensures current == Polling.ArmedCurrent(old(duts), old(current))
      ensures var e := Polling.Poll(Polling.DischargePoll,
                                    Polling.PollState(Polling.Arm(Polling.DischargePoll, old(duts)), old(counter),
                                                      old(loadOn) + Polling.ArmedSlots(old(duts))),
                                    samples, 0, start);
        duts == e.st.duts && counter == e.st.counter && loadOn == e.st.loadOn && exhausted == e.exhausted
      ensures supplyVolt == (if exhausted then 0.0 else psVolt)
    {
      ArmDuts(Polling.DischargePoll);
      supplyVolt := 0.0;
      var e := Polling.PollLoop(Polling.DischargePoll, Polling.PollState(duts, counter, loadOn), samples, start);
      duts, counter, loadOn := e.st.duts, e.st.counter, e.st.loadOn;
      exhausted := e.exhausted;
      if !exhausted {
        supplyVolt := psVolt;
      }
    }
  }
}

=== FILE: common.dfy ===
/** Shared vocabulary of the fixture model: bytes, optional values, outcomes
    and the I2C write transactions that the controller issues. */
module Common {

  /** One byte as read from or written to an I2C device: the source handles
      bytes as Python integers from 0 to 255. */
  newtype Byte = b: int | 0 <= b < 256

  datatype Option<+T> = None | Some(value: T)

  /** The result of an operation that either completes or raises. */
  datatype Result<+T, +E> = Ok(value: T) | Err(error: E)

  /** One write on the I2C bus: `Write` sends raw bytes to a slave address,
      `WriteReg` sends a register address followed by data. The data are
      integers because the source builds them as integer lists. */
  datatype I2cOp =
    | Write(slave: nat, data: seq<int>)
    | WriteReg(slave: nat, reg: nat, data: seq<int>)

  /** 2 to the power `k`: the value of bit `k`. */
  function Pow2(k: nat): (p: nat)
    ensures p >= 1
  {
    if k == 0 then 1 else 2 * Pow2(k - 1)
  }

  /** The first position from `i` on where `faults` holds, or the length
      of `faults`: the slot at which a pass over the slots, or over the
      barcodes, leaves with an exception. */
  function FirstFault(faults: seq<bool>, i: nat): (k: nat)
    requires i <= |faults|
    ensures i <= k <= |faults|
    ensures k < |faults| ==> faults[k]
    ensures forall j :: i <= j < k ==> !faults[j]
    decreases |faults| - i
  {
    if i == |faults| || faults[i] then i else FirstFault(faults, i + 1)
  }

  /** Encoding of characters as bytes (`ord`), for characters below 256. */
  function CharToByte(c: char): (b: Byte)
    requires c as int < 256
  {
    (c as int) as Byte
  }

  /** Decoding of bytes as characters (`chr`). */
  function ByteToChar(b: Byte): (c: char)
    ensures c as int < 256
  {
    (b as int) as char
  }

  lemma CharByteRoundTrip(c: char)
    requires c as int < 256
    ensures ByteToChar(CharToByte(c)) == c
  {
  }

  /** Every character of `s` is one byte wide. */
  predicate ByteChars(s: string) {
    forall i :: 0 <= i < |s| ==> s[i] as int < 256
  }

  function Ascii(s: string): (r: seq<Byte>)
    requires ByteChars(s)
    ensures |r| == |s|
    ensures forall i :: 0 <= i < |s| ==> r[i] == CharToByte(s[i])
  {
    if s == [] then [] else [CharToByte(s[0])] + Ascii(s[1..])
  }

  function Chars(bs: seq<Byte>): (s: string)
    ensures |s| == |bs|
    ensures forall i :: 0 <= i < |bs| ==> s[i] == ByteToChar(bs[i])
  {
    if bs == [] then [] else [ByteToChar(bs[0])] + Chars(bs[1..])
  }

  /** Decoding the ASCII bytes of a string gives the string back. */
  lemma CharsOfAscii(s: string)
    requires ByteChars(s)
    ensures Chars(Ascii(s)) == s
  {
    var r := Chars(Ascii(s));
    forall i | 0 <= i < |s| ensures r[i] == s[i] {
      CharByteRoundTrip(s[i]);
    }
  }
}

=== FILE: crc.dfy ===
/** The VPD checksum test of `check_crc`: CRC-16 with the polynomial 0x1021
    of ITU-T V.41, initial value 0, most significant bit first and no final
    XOR (the parametrisation known as CRC-16/XMODEM), over two fixed lists of
    EEPROM addresses, compared with checksums stored little-endian in the
    EEPROM itself. */
module Crc {
  import opened Common
  import opened Vpd

  const POLY: bv16 := 0x1021

  /** One step of the inner loop: shift left, and XOR the polynomial in
      when the bit shifted out was set. */
  function Step(crc: bv16): bv16 {
    if crc & 0x8000 != 0 then (crc << 1) ^ POLY else crc << 1
  }

  /** `k` steps of the inner loop. */
  function Steps(crc: bv16, k: nat): bv16 {
    if k == 0 then crc else Step(Steps(crc, k - 1))
  }

  /** The eight steps of the inner loop, written out. */
  function Shift8(crc: bv16): bv16 {
    Step(Step(Step(Step(Step(Step(Step(Step(crc))))))))
  }

  lemma {:induction false} StepsEight(crc: bv16)
    ensures Steps(crc, 8) == Shift8(crc)
  {
    assert Steps(crc, 1) == Step(crc);
    assert Steps(crc, 2) == Step(Steps(crc, 1));
    assert Steps(crc, 3) == Step(Steps(crc, 2));
    assert Steps(crc, 4) == Step(Steps(crc, 3));
    assert Steps(crc, 5) == Step(Steps(crc, 4));
    assert Steps(crc, 6) == Step(Steps(crc, 5));
    assert Steps(crc, 7) == Step(Steps(crc, 6));
  }

  /** One byte of the outer loop, given as a 16-bit value below 256: XOR it
      into the high byte, then eight steps. */
  function UpdateBits(crc: bv16, b: bv16): bv16 {
    Steps(crc ^ (b << 8), 8)
  }

  function ByteBits(b: Byte): (r: bv16)
    ensures r < 256
  {
    (b as int) as bv16
  }

  function Update(crc: bv16, b: Byte): bv16 {
    UpdateBits(crc, ByteBits(b))
  }

  /** The CRC of a byte string, from the initial value 0. */
  function Crc16(data: seq<Byte>): bv16 {
    if data == [] then 0 else Update(Crc16(data[..|data| - 1]), data[|data| - 1])
  }

  // ---------------------------------------------------------------------------
  // Properties of the checksum

  lemma UpdateUnfolded(crc: bv16, b: Byte)
    ensures Update(crc, b) == Shift8(crc ^ (ByteBits(b) << 8))
  {
    StepsEight(crc ^ (ByteBits(b) << 8));
  }

  /** The ASCII digits "123456789", the input of the standard check value. */
  const CHECK_INPUT: seq<Byte> := [0x31, 0x32, 0x33, 0x34, 0x35, 0x36, 0x37, 0x38, 0x39]

  /** The checksum after each digit of the check input, from the initial 0. */
  const CHECK_STATES: seq<bv16> := [0, 0x2672, 0x20B5, 0x9752, 0xD789, 0x546C, 0x20E4, 0x86D6, 0x9015, 0x31C3]

  /** Each digit takes the checksum from one state of CHECK_STATES to the next. */
  lemma CheckStep(k: nat)
    requires k < |CHECK_INPUT|
    ensures Update(CHECK_STATES[k], CHECK_INPUT[k]) == CHECK_STATES[k + 1]
  {
    if k == 0 { UpdateUnfolded(0, 0x31); }
    else if k == 1 { UpdateUnfolded(0x2672, 0x32); }
    else if k == 2 { UpdateUnfolded(0x20B5, 0x33); }
    else if k == 3 { UpdateUnfolded(0x9752, 0x34); }
    else if k == 4 { UpdateUnfolded(0xD789, 0x35); }
    else if k == 5 { UpdateUnfolded(0x546C, 0x36); }
    else if k == 6 { UpdateUnfolded(0x20E4, 0x37); }
    else if k == 7 { UpdateUnfolded(0x86D6, 0x38); }
    else { UpdateUnfolded(0x9015, 0x39); }
  }

  /** The checksum of each prefix of the check input is the matching state. */
  lemma {:induction false} CheckPrefix(k: nat)
    requires k <= |CHECK_INPUT|
    ensures Crc16(CHECK_INPUT[..k]) == CHECK_STATES[k]
  {
    if k > 0 {
      CheckPrefix(k - 1);
      CheckStep(k - 1);
      assert CHECK_INPUT[..k][..k - 1] == CHECK_INPUT[..k - 1];
    }
  }

  /** The standard check value: the CRC of the ASCII digits "123456789". */
  lemma CheckValue()
    ensures Crc16(CHECK_INPUT) == 0x31C3
  {
    CheckPrefix(|CHECK_INPUT|);
    assert CHECK_INPUT[..|CHECK_INPUT|] == CHECK_INPUT;
  }

  /** Feeding a CRC value back in, high byte first, leaves the residue 0. */
  lemma ResidueBits(c: bv16)
    ensures UpdateBits(UpdateBits(c, c >> 8), c & 0xFF) == 0
  {
    var first := UpdateBits(c, c >> 8);
    StepsEight(c ^ ((c >> 8) << 8));
    StepsEight(first ^ ((c & 0xFF) << 8));
  }

  /** Appending one byte continues the computation from the checksum so far. */
  lemma Crc16Append(data: seq<Byte>, b: Byte)
    ensures Crc16(data + [b]) == Update(Crc16(data), b)
  {
    assert (data + [b])[..|data|] == data;
  }

  /** A byte string followed by its own checksum, high byte first, has
      checksum 0: the defining property of a CRC without final XOR. */
  lemma Residue(data: seq<Byte>, h: Byte, l: Byte)
    requires ByteBits(h) == Crc16(data) >> 8 && ByteBits(l) == Crc16(data) & 0xFF
    ensures Crc16(data + [h, l]) == 0
  {
    var c := Crc16(data);
    Crc16Append(data, h);
    Crc16Append(data + [h], l);
    assert data + [h] + [l] == data + [h, l];
    ResidueBits(c);
  }

  // ---------------------------------------------------------------------------
  // check_crc

  /** The addresses from `lo` up to, not including, `hi`. */
  function Range(lo: nat, hi: nat): (r: seq<nat>)
    requires lo <= hi
    ensures |r| == hi - lo && forall k :: 0 <= k < |r| ==> r[k] == lo + k
  {
    seq(hi - lo, k => lo + k)
  }

  /** The addresses the first checksum covers: 0x41 to 0x5B, 0x64, 0x65,
      0x78, 0x79, 0x7C, 0x7F and 0x80 to 0x8D, in that order. */
  const CRC_LIST1: seq<nat> := Range(0x41, 0x5C) + [0x64, 0x65, 0x78, 0x79, 0x7C, 0x7F] + Range(0x80, 0x8E)

  /** The addresses the second checksum covers: the first list, then
      0xD0 to 0xD9 and 0xFF. */
  const CRC_LIST2: seq<nat> := CRC_LIST1 + Range(0xD0, 0xDA) + [0xFF]

  /** Every address of either list: 0x41..0x5B, 0x64, 0x65, 0x78, 0x79,
      0x7C, 0x7F..0x8D, 0xD0..0xD9 or 0xFF. The CRC1 bytes 0x7D and 0x7E
      are not among them. */
  predicate CoveredAddress(a: nat) {
    (0x41 <= a < 0x5C) || a == 0x64 || a == 0x65 || a == 0x78 || a == 0x79 || a == 0x7C ||
    (0x7F <= a < 0x8E) || (0xD0 <= a < 0xDA) || a == 0xFF
  }

  lemma ListsCovered()
    ensures |CRC_LIST1| == 47 && |CRC_LIST2| == 58
    ensures forall k :: 0 <= k < |CRC_LIST2| ==> CoveredAddress(CRC_LIST2[k])
    ensures forall k :: 0 <= k < |CRC_LIST1| ==> CRC_LIST1[k] == CRC_LIST2[k]
  {
    var r1 := Range(0x41, 0x5C);
    var r2 := Range(0x80, 0x8E);
    var mid: seq<nat> := [0x64, 0x65, 0x78, 0x79, 0x7C, 0x7F];
    assert CRC_LIST1 == r1 + mid + r2;
    forall k | 0 <= k < |CRC_LIST1| ensures CoveredAddress(CRC_LIST1[k]) {
      if k < |r1| { assert CRC_LIST1[k] == r1[k]; }
      else if k < |r1| + |mid| { assert CRC_LIST1[k] == mid[k - |r1|]; }
      else { assert CRC_LIST1[k] == r2[k - |r1| - |mid|]; }
    }
    var r3 := Range(0xD0, 0xDA);
    forall k | 0 <= k < |CRC_LIST2| ensures CoveredAddress(CRC_LIST2[k]) {
      if k < |CRC_LIST1| { assert CRC_LIST2[k] == CRC_LIST1[k]; }
      else if k < |CRC_LIST1| + |r3| { assert CRC_LIST2[k] == r3[k - |CRC_LIST1|]; }
      else { assert CRC_LIST2[k] == 0xFF; }
    }
  }

  /** Where each checksum is stored: low byte, then high byte. */
  const CRC1_LO: nat := 0x7D
  const CRC1_HI: nat := 0x7E
  const CRC2_LO: nat := 0xFD
  const CRC2_HI: nat := 0xFE

  predicate InEeprom(addrs: seq<nat>) {
    forall k :: 0 <= k < |addrs| ==> addrs[k] < EEPROM_SIZE
  }

  /** The bytes `read_vpd_byaddress` returns for each address in turn. */
  function Gather(mem: Eeprom, addrs: seq<nat>): (r: seq<Byte>)
    requires InEeprom(addrs)
    ensures |r| == |addrs| && forall k :: 0 <= k < |addrs| ==> r[k] == mem[addrs[k]]
  {
    seq(|addrs|, k requires 0 <= k < |addrs| => mem[addrs[k]])
  }

  /** `(read_vpd_byaddress(hi) << 8) + read_vpd_byaddress(lo)`. */
  function Stored(mem: Eeprom, lo: nat, hi: nat): (v: nat)
    requires lo < EEPROM_SIZE && hi < EEPROM_SIZE
    ensures v < 0x1_0000
  {
    (mem[hi] as int) * 256 + mem[lo] as int
  }

  /** The eight shifts of the inner loop of `check_crc`; the branch on the
      bit shifted out is `Step`. */
  method ShiftByte(c: bv16) returns (crc: bv16)
    ensures crc == Steps(c, 8)
  {
    crc := c;
    for i := 0 to 8
      invariant crc == Steps(c, i)
    {
      crc := Step(crc);
    }
  }

  /** The outer loop of `check_crc` over one address list. The value is kept
      in 16 bits throughout, which is what the `int16` arithmetic and the
      final `& 0xffff` of the source amount to. */
  method CrcOver(mem: Eeprom, addrs: seq<nat>) returns (crc: bv16)
    requires InEeprom(addrs)
    ensures crc == Crc16(Gather(mem, addrs))
  {
    crc := 0;
    for k := 0 to |addrs|
      invariant crc == Crc16(Gather(mem, addrs)[..k])
    {
      var temp1 := mem[addrs[k]];
      crc := crc ^ (ByteBits(temp1) << 8);
      crc := ShiftByte(crc);
      GatherStep(mem, addrs, k);
    }
    assert Gather(mem, addrs)[..|addrs|] == Gather(mem, addrs);
  }

  /** One more address continues the checksum with the byte stored there. */
  lemma GatherStep(mem: Eeprom, addrs: seq<nat>, k: nat)
    requires InEeprom(addrs) && k < |addrs|
    ensures Crc16(Gather(mem, addrs)[..k + 1]) == Update(Crc16(Gather(mem, addrs)[..k]), mem[addrs[k]])
  {
    var g := Gather(mem, addrs);
    assert g[..k + 1] == g[..k] + [mem[addrs[k]]];
    Crc16Append(g[..k], mem[addrs[k]]);
  }

  /** Whether each stored checksum matches the one computed. */
  predicate Crc1Ok(mem: Eeprom) {
    InEeprom(CRC_LIST1) &&
    Stored(mem, CRC1_LO, CRC1_HI) == Crc16(Gather(mem, CRC_LIST1)) as int
  }

  predicate Crc2Ok(mem: Eeprom) {
    InEeprom(CRC_LIST2) &&
    Stored(mem, CRC2_LO, CRC2_HI) == Crc16(Gather(mem, CRC_LIST2)) as int
  }

  lemma ListsInEeprom()
    ensures InEeprom(CRC_LIST1) && InEeprom(CRC_LIST2)
  {
    ListsCovered();
  }

  /** `check_crc` computes both checksums and compares each with the one
      stored; the caller fails the DUT on each mismatch. */
  method CheckCrc(mem: Eeprom) returns (ok1: bool, ok2: bool)
    ensures ok1 == Crc1Ok(mem) && ok2 == Crc2Ok(mem)
  {
    ListsInEeprom();
    var crc := CrcOver(mem, CRC_LIST1);
    var crcTemp := (mem[CRC1_HI] as int) * 256 + mem[CRC1_LO] as int;
    ok1 := crcTemp == crc as int;
    crc := CrcOver(mem, CRC_LIST2);
    crcTemp := (mem[CRC2_HI] as int) * 256 + mem[CRC2_LO] as int;
    ok2 := crcTemp == crc as int;
  }

  // ---------------------------------------------------------------------------
  // Programming the identity fields does not disturb the checksums

  /** No address a checksum covers or is stored at is one that `write_vpd`
      patches. */
  lemma ListsAvoidPatches(f: Barcode.Fields, writeId: int, slot: nat)
    requires Programmable(f)
    ensures forall k :: 0 <= k < |CRC_LIST2| ==> Placed(f, writeId, slot, CRC_LIST2[k]).None?
    ensures forall k :: 0 <= k < |CRC_LIST1| ==> Placed(f, writeId, slot, CRC_LIST1[k]).None?
    ensures forall a :: a in [CRC1_LO, CRC1_HI, CRC2_LO, CRC2_HI] ==> Placed(f, writeId, slot, a).None?
  {
    ListsCovered();
  }

  /** Burning a full-size image that differs from the template only in
      the bytes `write_vpd` places gives the same checksum verdicts as
      burning the template itself: a template with valid checksums is still
      valid once the identity fields are written. */
  lemma PatchKeepsCrc(mem: Eeprom, template: seq<Byte>, f: Barcode.Fields, writeId: int, slot: nat)
    requires Programmable(f)
    requires |template| == EEPROM_SIZE
    requires writeId != 0 ==> slot < 4
    ensures Image(template, f, writeId, slot).Some?
    ensures var img := Burn(mem, Image(template, f, writeId, slot).value);
      var plain := Burn(mem, template);
      (Crc1Ok(img) <==> Crc1Ok(plain)) && (Crc2Ok(img) <==> Crc2Ok(plain))
  {
    ImageFrame(template, f, writeId, slot);
    ListsInEeprom();
    ListsAvoidPatches(f, writeId, slot);
    var img := Burn(mem, Image(template, f, writeId, slot).value);
    var plain := Burn(mem, template);
    assert img == Image(template, f, writeId, slot).value;
    assert plain == template;
    assert Gather(img, CRC_LIST1) == Gather(plain, CRC_LIST1);
    assert Gather(img, CRC_LIST2) == Gather(plain, CRC_LIST2);
    assert Stored(img, CRC1_LO, CRC1_HI) == Stored(plain, CRC1_LO, CRC1_HI);
    assert Stored(img, CRC2_LO, CRC2_HI) == Stored(plain, CRC2_LO, CRC2_HI);
  }
}

=== FILE: devices.dfy ===
/** The device helpers of a PGEM module: the 16-bit register words of the
    BQ24707 and LTC3350 charge ICs, the charge-option bit, the PCA9536 port
    expander that drives the LED and the self-discharge switch, the
    encrypted-IC probe and the SE97B temperature decoding. Every bus read is
    an input and every bus write an entry of the returned trace. */
module Pgem {
  import opened Common

  /** I2C addresses on the DUT side of the mux. */
  const CHARGER_SLAVE: nat := 0x09
  const EXPANDER_SLAVE: nat := 0x41
  const TEMP_SENSOR_SLAVE: nat := 0x1B

  /** Register addresses of the BQ24707. */
  const CHG_OPT_ADDR: nat := 0x12
  const CHG_CUR_ADDR: nat := 0x14
  const CHG_VOL_ADDR: nat := 0x15
  const INPUT_CUR_ADDR: nat := 0x3F

  /** Register addresses of the LTC3350. */
  const VCAPFB_DAC_ADDR: nat := 0x05
  const VSHUNT_ADDR: nat := 0x06

  const WORD_LIMIT: nat := 0x1_0000

  // ---------------------------------------------------------------------------
  // 16-bit register words

  /** The two data bytes `[w & 0xFF, w >> 8]` that `write_bq24707` and
      `write_ltc3350` send for a word `w`: low byte first. */
  function WordBytes(w: nat): (r: seq<int>)
    ensures |r| == 2 && 0 <= r[0] < 256 && 0 <= r[1]
    ensures r[0] + 256 * r[1] == w
    ensures w < WORD_LIMIT ==> r[1] < 256
  {
    [w % 256, w / 256]
  }

  /** The word `(b1 << 8) + b0` that `read_bq24707` and `read_ltc3350` form
      from the two bytes read, low byte first. */
  function WordValue(b0: Byte, b1: Byte): (w: nat)
    ensures w < WORD_LIMIT
    ensures w % 256 == b0 as int && w / 256 == b1 as int
  {
    (b1 as int) * 256 + b0 as int
  }

  /** Writing a word and reading the same bytes back gives the word. */
  lemma WordRoundTrip(w: nat)
    requires w < WORD_LIMIT
    ensures WordValue(WordBytes(w)[0] as Byte, WordBytes(w)[1] as Byte) == w
  {
  }

  /** Splitting a word that was read gives back the bytes it was read from. */
  lemma BytesRoundTrip(b0: Byte, b1: Byte)
    ensures WordBytes(WordValue(b0, b1)) == [b0 as int, b1 as int]
  {
  }

  /** `write_bq24707(reg, w)`; the LTC3350 helper issues the same write. */
  function WriteWord(reg: nat, w: nat): I2cOp {
    WriteReg(CHARGER_SLAVE, reg, WordBytes(w))
  }

  /** A charge IC seen as a file of 16-bit registers: a two-byte register
      write stores the word they spell, and a register read returns its two
      bytes, low byte first (0 for a register never written). */
  type Registers = map<nat, nat>

  function ApplyWrite(regs: Registers, op: I2cOp): Registers {
    match op
    case WriteReg(slave, reg, data) =>
      if slave == CHARGER_SLAVE && |data| == 2 && 0 <= data[0] < 256 && 0 <= data[1] < 256
      then regs[reg := data[0] + 256 * data[1]]
      else regs
    case Write(_, _) => regs
  }

  function ApplyWrites(regs: Registers, ops: seq<I2cOp>): Registers
    decreases |ops|
  {
    if ops == [] then regs else ApplyWrites(ApplyWrite(regs, ops[0]), ops[1..])
  }

  /** The word `read_bq24707(reg)` returns from a register file. */
  function ReadWord(regs: Registers, reg: nat): (w: nat)
    ensures w < WORD_LIMIT
  {
    var v := if reg in regs then regs[reg] % WORD_LIMIT else 0;
    WordValue((v % 256) as Byte, (v / 256) as Byte)
  }

  /** A word written to a register reads back unchanged. */
  lemma ReadAfterWrite(regs: Registers, reg: nat, w: nat)
    requires w < WORD_LIMIT
    ensures ReadWord(ApplyWrite(regs, WriteWord(reg, w)), reg) == w
  {
    var after := ApplyWrite(regs, WriteWord(reg, w));
    assert after[reg] == w;
    assert w % WORD_LIMIT == w;
    WordRoundTrip(w);
  }

  /** A write to one register leaves every other register as it was. */
  lemma ReadOtherAfterWrite(regs: Registers, reg: nat, other: nat, w: nat)
    requires other != reg
    ensures ReadWord(ApplyWrite(regs, WriteWord(reg, w)), other) == ReadWord(regs, other)
  {
  }

  // ---------------------------------------------------------------------------
  // PGEMBase.charge (BQ24707)

  /** `charge_option &= ~(0x01)`. */
  function ClearBit0(w: nat): (r: nat)
    ensures r % 2 == 0 && r / 2 == w / 2
  {
    w - w % 2
  }

  /** `charge_option |= 0x01`. */
  function SetBit0(w: nat): (r: nat)
    ensures r % 2 == 1 && r / 2 == w / 2
  {
    w - w % 2 + 1
  }

  /** The four charge parameters of the configuration, already converted
      from their string form. */
  datatype ChargeOptions = ChargeOptions(
    chargeOption: nat, chargeCurrent: nat, chargeVoltage: nat, inputCurrent: nat)

  /** The values `charge(status=True)` writes, in register order. */
  function StartValues(opt: ChargeOptions): seq<nat> {
    [ClearBit0(opt.chargeOption), opt.chargeCurrent, opt.chargeVoltage, opt.inputCurrent]
  }

  /** `charge(status=True)` on the BQ24707: ChargeOption with bit 0 cleared
      (charging enabled), then ChargeCurrent, ChargeVoltage, InputCurrent. */
  function StartWrites(opt: ChargeOptions): seq<I2cOp> {
    [WriteWord(CHG_OPT_ADDR, ClearBit0(opt.chargeOption)), WriteWord(CHG_CUR_ADDR, opt.chargeCurrent),
     WriteWord(CHG_VOL_ADDR, opt.chargeVoltage), WriteWord(INPUT_CUR_ADDR, opt.inputCurrent)]
  }

  /** The four readback `assert`s of `charge(status=True)`, on the words read
      from ChargeOption, ChargeCurrent, ChargeVoltage and InputCurrent. */
  predicate StartReadbackOk(opt: ChargeOptions, readback: seq<nat>) {
    readback == StartValues(opt)
  }

  lemma ApplyWritesCons(regs: Registers, op: I2cOp, rest: seq<I2cOp>)
    ensures ApplyWrites(regs, [op] + rest) == ApplyWrites(ApplyWrite(regs, op), rest)
  {
    assert ([op] + rest)[1..] == rest;
  }

  /** On a charge IC that stores what is written, the readbacks of
      `charge(status=True)` find the written values, so no `assert` fails;
      ChargeOption then holds the configured option with bit 0 clear. */
  lemma ChargeStartReadsBack(regs: Registers, opt: ChargeOptions)
    requires opt.chargeOption < WORD_LIMIT && opt.chargeCurrent < WORD_LIMIT
    requires opt.chargeVoltage < WORD_LIMIT && opt.inputCurrent < WORD_LIMIT
    ensures var after := ApplyWrites(regs, StartWrites(opt));
      StartReadbackOk(opt, [ReadWord(after, CHG_OPT_ADDR), ReadWord(after, CHG_CUR_ADDR),
                            ReadWord(after, CHG_VOL_ADDR), ReadWord(after, INPUT_CUR_ADDR)])
    ensures var w := ReadWord(ApplyWrites(regs, StartWrites(opt)), CHG_OPT_ADDR);
      w % 2 == 0 && w / 2 == opt.chargeOption / 2
  {
    var v := StartValues(opt);
    var ops := StartWrites(opt);
    var r1 := ApplyWrite(regs, ops[0]);
    var r2 := ApplyWrite(r1, ops[1]);
    var r3 := ApplyWrite(r2, ops[2]);
    var r4 := ApplyWrite(r3, ops[3]);
    ApplyWritesCons(regs, ops[0], ops[1..]);
    assert ops == [ops[0]] + ops[1..];
    ApplyWritesCons(r1, ops[1], ops[2..]);
    assert ops[1..] == [ops[1]] + ops[2..];
    ApplyWritesCons(r2, ops[2], ops[3..]);
    assert ops[2..] == [ops[2]] + ops[3..];
    ApplyWritesCons(r3, ops[3], []);
    assert ops[3..] == [ops[3]] + [];
    assert ApplyWrites(regs, ops) == r4;
    ReadAfterWrite(r3, INPUT_CUR_ADDR, v[3]);
    ReadAfterWrite(r2, CHG_VOL_ADDR, v[2]);
    ReadOtherAfterWrite(r3, INPUT_CUR_ADDR, CHG_VOL_ADDR, v[3]);
    ReadAfterWrite(r1, CHG_CUR_ADDR, v[1]);
    ReadOtherAfterWrite(r2, CHG_VOL_ADDR, CHG_CUR_ADDR, v[2]);
    ReadOtherAfterWrite(r3, INPUT_CUR_ADDR, CHG_CUR_ADDR, v[3]);
    ReadAfterWrite(regs, CHG_OPT_ADDR, v[0]);
    ReadOtherAfterWrite(r1, CHG_CUR_ADDR, CHG_OPT_ADDR, v[1]);
    ReadOtherAfterWrite(r2, CHG_VOL_ADDR, CHG_OPT_ADDR, v[2]);
    ReadOtherAfterWrite(r3, INPUT_CUR_ADDR, CHG_OPT_ADDR, v[3]);
  }

  /** `charge(status=False)` on the BQ24707: read ChargeOption, set bit 0
      (charging inhibited) and write it back. */
  function ChargeStop(current: nat): (w: I2cOp) {
    WriteWord(CHG_OPT_ADDR, SetBit0(current))
  }

  /** After `charge(status=False)` the ChargeOption register has bit 0 set
      and every other bit as it was read. */
  lemma ChargeStopSetsInhibit(regs: Registers)
    ensures var before := ReadWord(regs, CHG_OPT_ADDR);
      var after := ReadWord(ApplyWrite(regs, ChargeStop(before)), CHG_OPT_ADDR);
      after % 2 == 1 && after / 2 == before / 2
  {
    var before := ReadWord(regs, CHG_OPT_ADDR);
    assert SetBit0(before) < WORD_LIMIT;
    ReadAfterWrite(regs, CHG_OPT_ADDR, SetBit0(before));
  }

  /** Starting and then stopping the charge leaves ChargeOption as it was
      configured, with bit 0 set. */
  lemma StopAfterStart(regs: Registers, opt: ChargeOptions)
    requires opt.chargeOption < WORD_LIMIT
    ensures var started := ApplyWrite(regs, WriteWord(CHG_OPT_ADDR, ClearBit0(opt.chargeOption)));
      var stopped := ApplyWrite(started, ChargeStop(ReadWord(started, CHG_OPT_ADDR)));
      ReadWord(stopped, CHG_OPT_ADDR) == SetBit0(opt.chargeOption)
  {
    var started := ApplyWrite(regs, WriteWord(CHG_OPT_ADDR, ClearBit0(opt.chargeOption)));
    ReadAfterWrite(regs, CHG_OPT_ADDR, ClearBit0(opt.chargeOption));
    var before := ReadWord(started, CHG_OPT_ADDR);
    assert SetBit0(before) == SetBit0(opt.chargeOption);
    ReadAfterWrite(started, CHG_OPT_ADDR, SetBit0(before));
  }

  // ---------------------------------------------------------------------------
  // Diamond4.charge (LTC3350)

  /** `Diamond4.charge`: on start, VSHUNT and then VCAPFB_DAC from the
      configuration; on stop, zero into both, in the same order. */
  function Ltc3350Charge(start: bool, vcapfbDac: nat, vshunt: nat): seq<I2cOp> {
    if start then [WriteWord(VSHUNT_ADDR, vshunt), WriteWord(VCAPFB_DAC_ADDR, vcapfbDac)]
    else [WriteWord(VSHUNT_ADDR, 0), WriteWord(VCAPFB_DAC_ADDR, 0)]
  }

  /** After `Diamond4.charge` the two registers hold the configured words on
      start and zero on stop. */
  lemma Ltc3350ChargeEffect(regs: Registers, start: bool, vcapfbDac: nat, vshunt: nat)
    requires vcapfbDac < WORD_LIMIT && vshunt < WORD_LIMIT
    ensures var after := ApplyWrites(regs, Ltc3350Charge(start, vcapfbDac, vshunt));
      ReadWord(after, VSHUNT_ADDR) == (if start then vshunt else 0) &&
      ReadWord(after, VCAPFB_DAC_ADDR) == (if start then vcapfbDac else 0)
  {
    var ops := Ltc3350Charge(start, vcapfbDac, vshunt);
    var s := if start then vshunt else 0;
    var d := if start then vcapfbDac else 0;
    var r1 := ApplyWrite(regs, WriteWord(VSHUNT_ADDR, s));
    var r2 := ApplyWrite(r1, WriteWord(VCAPFB_DAC_ADDR, d));
    ApplyWritesCons(regs, ops[0], [ops[1]]);
    ApplyWritesCons(r1, ops[1], []);
    assert ops == [ops[0]] + [ops[1]] && [ops[1]] == [ops[1]] + [];
    assert ApplyWrites(regs, ops) == r2;
    ReadAfterWrite(r1, VCAPFB_DAC_ADDR, d);
    ReadAfterWrite(regs, VSHUNT_ADDR, s);
    ReadOtherAfterWrite(r1, VCAPFB_DAC_ADDR, VSHUNT_ADDR, d);
  }

  // ---------------------------------------------------------------------------
  // PCA9536 port expander: LED on pin 1, self-discharge on pin 0

  const EXP_REG_OUTPUT: int := 0x01
  const EXP_REG_CONFIG: int := 0x03

  /** The configuration and output registers of the expander. */
  datatype Expander = Expander(config: int, output: int)

  function ExpanderApply(e: Expander, op: I2cOp): Expander {
    match op
    case Write(slave, data) =>
      if slave == EXPANDER_SLAVE && |data| == 2 then
        if data[0] == EXP_REG_CONFIG then e.(config := data[1])
        else if data[0] == EXP_REG_OUTPUT then e.(output := data[1])
        else e
      else e
    case WriteReg(_, _, _) => e
  }

  function ExpanderApplyAll(e: Expander, ops: seq<I2cOp>): Expander
    decreases |ops|
  {
    if ops == [] then e else ExpanderApplyAll(ExpanderApply(e, ops[0]), ops[1..])
  }

  lemma ExpanderApplyPair(e: Expander, a: I2cOp, b: I2cOp)
    ensures ExpanderApplyAll(e, [a, b]) == ExpanderApply(ExpanderApply(e, a), b)
  {
    assert [a, b][1..] == [b];
    assert [b][1..] == [];
    assert ExpanderApplyAll(e, [a, b]) == ExpanderApplyAll(ExpanderApply(e, a), [b]);
    assert ExpanderApplyAll(ExpanderApply(e, a), [b]) == ExpanderApplyAll(ExpanderApply(ExpanderApply(e, a), b), []);
  }

  /** Pin `k` is driven (configured as an output) and at level `level`. */
  predicate Drives(e: Expander, k: nat, level: int)
    requires k < 8
  {
    e.config >= 0 && e.output >= 0 &&
    (e.config / Pow2(k)) % 2 == 0 && (e.output / Pow2(k)) % 2 == level
  }

  /** `control_led`: "on" drives the LED pin low, "off" drives it high; any
      other value raises PGEMException before anything is written. */
  function ControlLed(status: string): (r: Result<seq<I2cOp>, string>)
    ensures r.Ok? <==> status == "on" || status == "off"
    ensures r.Err? ==> r.error == "wrong LED status is set"
  {
    var level := if status == "on" then Some(0) else if status == "off" then Some(1) else None;
    match level
    case None => Err("wrong LED status is set")
    case Some(l) =>
      Ok([Write(EXPANDER_SLAVE, [EXP_REG_CONFIG, 0x00]), Write(EXPANDER_SLAVE, [EXP_REG_OUTPUT, l * 2])])
  }

  /** After an accepted `control_led`, the LED pin is an output at level 0
      exactly when the request was "on" (the LED is active low). Pin 0 is
      driven low as well: switching the LED ends a self-discharge. */
  lemma ControlLedEffect(e: Expander, status: string)
    requires ControlLed(status).Ok?
    ensures var after := ExpanderApplyAll(e, ControlLed(status).value);
      Drives(after, 1, if status == "on" then 0 else 1) && Drives(after, 0, 0)
  {
    var ops := ControlLed(status).value;
    ExpanderApplyPair(e, ops[0], ops[1]);
    assert ops == [ops[0], ops[1]];
  }

  /** `self_discharge`: drives pin 0 high to discharge, low otherwise. */
  function SelfDischarge(status: bool): seq<I2cOp> {
    [Write(EXPANDER_SLAVE, [EXP_REG_CONFIG, 0x00]), Write(EXPANDER_SLAVE, [EXP_REG_OUTPUT, if status then 1 else 0])]
  }

  /** After `self_discharge`, pin 0 is an output at level 1 exactly when
      discharging was requested, and the LED pin is driven low (lit). */
  lemma SelfDischargeEffect(e: Expander, status: bool)
    ensures var after := ExpanderApplyAll(e, SelfDischarge(status));
      Drives(after, 0, if status then 1 else 0) && Drives(after, 1, 0)
  {
    var ops := SelfDischarge(status);
    ExpanderApplyPair(e, ops[0], ops[1]);
  }

  // ---------------------------------------------------------------------------
  // Encrypted IC

  const ENCRYPTED_IC_LENGTH: nat := 128

  /** `encrypted_ic`: the loop asserts that every byte read is 0xFF; the
      first byte that is not ends the loop with True, and an all-0xFF block
      gives False. */
  function EncryptedIcValid(val: seq<Byte>): (ok: bool)
    ensures ok <==> exists i :: 0 <= i < |val| && val[i] != 0xFF
  {
    if val == [] then false
    else if val[0] != 0xFF then true
    else
      assert forall i :: 1 <= i < |val| ==> val[i] == val[1..][i - 1];
      EncryptedIcValid(val[1..])
  }

  /** An erased (all-0xFF) block is reported as a missing encrypted IC. */
  lemma ErasedBlockInvalid()
    ensures !EncryptedIcValid(seq(ENCRYPTED_IC_LENGTH, _ => 0xFF))
  {
  }

  // ---------------------------------------------------------------------------
  // SE97B temperature sensor

  /** Bit 12 of the raw register value: the sign. */
  predicate SignBit(raw: nat) {
    (raw / 0x1000) % 2 == 1
  }

  /** `(temp >> 1) & 0xFFF`: bits 12 to 1 of the register value. */
  function Field(raw: nat): (f: nat)
    ensures f < 0x1000
  {
    (raw / 2) % 0x1000
  }

  /** Bit 12 is the top bit of the field: the sign of a 12-bit value. */
  lemma SignBitOfField(raw: nat)
    ensures SignBit(raw) <==> Field(raw) >= 0x800
  {
    var q := raw / 2;
    var a, f := q / 0x1000, q % 0x1000;
    var h := if f >= 0x800 then 1 else 0;
    assert q == 0x1000 * a + f;
    assert raw / 0x1000 == q / 0x800;
    assert q / 0x800 == 2 * a + h;
    assert (2 * a + h) % 2 == h;
  }

  /** A whole number of eighths is a multiple of 1/8. */
  lemma EighthsOfInt(e: int)
    ensures (e as real * 0.125 * 8.0).Floor as real == e as real * 0.125 * 8.0
  {
    assert e as real * 0.125 * 8.0 == e as real;
  }

  /** `_calc_temp`: with the sign bit set, the complement of the field
      `~(temp >> 1) & 0xFFF` plus one step, negated; otherwise the field.
      One step is 0.125 degrees. */
  function CalcTemp(raw: nat): (t: real)
    requires raw < WORD_LIMIT
    ensures t < 0.0 <==> SignBit(raw)
    ensures (t * 8.0).Floor as real == t * 8.0
    ensures t >= 0.0 ==> t <= 255.875
    ensures t < 0.0 ==> -256.0 <= t <= -0.125
  {
    SignBitOfField(raw);
    if SignBit(raw) then
      var magnitude := (0xFFF - Field(raw)) as real * 0.125 + 0.125;
      EighthsOfInt(Field(raw) - 0x1000);
      assert -magnitude == (Field(raw) - 0x1000) as real * 0.125;
      -magnitude
    else
      EighthsOfInt(Field(raw));
      Field(raw) as real * 0.125
  }

  /** An independent reading of the register: bits 12 to 1 as a 12-bit
      two's-complement number of eighths of a degree. */
  function TwosComplement12(f: nat): (e: int)
    requires f < 0x1000
    ensures -2048 <= e < 2048
  {
    if f < 0x800 then f else f - 0x1000
  }

  /** The complement formula of `_calc_temp` is two's complement. */
  lemma CalcTempIsTwosComplement(raw: nat)
    requires raw < WORD_LIMIT
    ensures CalcTemp(raw) == TwosComplement12(Field(raw)) as real * 0.125
  {
    SignBitOfField(raw);
  }

  /** The register value the sensor reports for `e` eighths of a degree
      (bit 0 and bits 15 to 13 clear). */
  function SensorRaw(e: int): (raw: nat)
    requires -2048 <= e < 2048
    ensures raw < WORD_LIMIT && raw % 2 == 0
  {
    2 * (if e >= 0 then e else e + 0x1000)
  }

  /** Decoding what the sensor reports for a temperature gives it back. */
  lemma CalcTempOfSensor(e: int)
    requires -2048 <= e < 2048
    ensures CalcTemp(SensorRaw(e)) == e as real * 0.125
  {
    var raw := SensorRaw(e);
    assert Field(raw) == (if e >= 0 then e else e + 0x1000);
    CalcTempIsTwosComplement(raw);
  }

  /** All ones is the step just below zero, not zero. */
  lemma AllOnesIsMinusOneStep()
    ensures CalcTemp(0xFFFF) == -0.125
  {
  }

  /** `check_temp`: register 0x05 read as two bytes, most significant
      first, `(val[0] << 8) + val[1]`. */
  function CheckTemp(msb: Byte, lsb: Byte): real {
    CalcTemp((msb as int) * 256 + lsb as int)
  }

  /** The two bytes the sensor sends for a temperature, most significant
      first, are what `check_temp` turns back into that temperature. */
  lemma CheckTempOfSensor(e: int)
    requires -2048 <= e < 2048
    ensures CheckTemp((SensorRaw(e) / 256) as Byte, (SensorRaw(e) % 256) as Byte) == e as real * 0.125
  {
    var raw := SensorRaw(e);
    assert ((raw / 256) as Byte as int) * 256 + (raw % 256) as Byte as int == raw;
    CalcTempOfSensor(e);
  }
}

=== FILE: dut.dfy ===
/** One device under test as the channel sees it: its identity, its test
    status and measurements, its EEPROM, and the test items loaded for it.
    A DUT is a value; the channel owns one per slot (`dut_list`). */
module Duts {
  import opened Common
  import Barcode
  import Vpd

  /** DUT_STATUS. */
  datatype Status = Idle | Charging | Discharging | Fail | Pass

  /** One sample recorded while polling. */
  datatype Cycle = Cycle(vin: real, vcap: real, temp: real, counter: int, time: real, state: string)

  /** The keys of one test item (`load_test_item(config, name)`) that the
      phases read, already converted to numbers: `min`/`max` are the band
      or the time limits, `threshold` and `current` are the parsed
      "Threshold" and "Current" strings, `on`/`off` the expected power-fail
      levels, `file` the contents of the VPD template file and `pgemId`
      the "PGEMID" flag. */
  datatype TestItem = TestItem(
    enable: bool, stopOnFail: bool, min: real, max: real,
    threshold: real, current: real, on: int, off: int,
    file: seq<Byte>, pgemId: int)

  /** The test items of one DUT, by phase. */
  datatype Config = Config(
    charge: TestItem, discharge: TestItem, programVpd: TestItem, checkTemp: TestItem,
    encryptedIc: TestItem, powerFailInt: TestItem, capacitor: TestItem)

  datatype Dut = Dut(
    slot: nat, fields: Barcode.Fields, status: Status, errormessage: string,
    cycles: seq<Cycle>, chargeTime: real, dischargeTime: real,
    capacitanceMeasured: real, selfCapacitanceMeasured: real, programVpd: int,
    eeprom: Vpd.Eeprom, config: Config)

  /** The slots of one channel: `None` where no DUT is loaded. */
  type Slots = seq<Option<Dut>>

  /** The PCA9548A mux has eight channels, so `switch_to_dut` can select
      slots 0 to 7. The fixture itself has four slots, 0 to 3, the ones
      `PGEM_ID` names; the model admits any slot the mux can select. */
  const MUX_CHANNELS: nat := 8

  /** There are no more slots than mux channels, and every loaded DUT sits
      in the slot it was created for. */
  predicate InSlots(duts: Slots) {
    |duts| <= MUX_CHANNELS &&
    forall i :: 0 <= i < |duts| && duts[i].Some? ==> duts[i].value.slot == i
  }

  /** Besides, every loaded DUT carries the groups of a barcode that parsed
      (the constructor raises otherwise). */
  predicate WellPlaced(duts: Slots) {
    InSlots(duts) &&
    forall i :: 0 <= i < |duts| && duts[i].Some? ==> Barcode.WellFormed(duts[i].value.fields)
  }

  /** The gate at the head of every phase loop: the item is enabled, and
      with `stoponfail` the DUT is in the status the phase expects. */
  predicate Gate(item: TestItem, status: Status, expected: Status) {
    item.enable && !(item.stopOnFail && status != expected)
  }

  /** The extra gate of the encrypted-IC, power-fail and capacitance
      phases: only an `Idle` DUT is examined. */
  predicate IdleGate(item: TestItem, status: Status) {
    Gate(item, status, Idle) && status == Idle
  }

  /** `dut.status = DUT_STATUS.Fail; dut.errormessage = msg`. */
  function Failed(d: Dut, msg: string): Dut {
    d.(status := Fail, errormessage := msg)
  }

  /** The verdict `prepare_to_exit` gives one DUT. */
  function Verdict(d: Dut): (r: Dut)
    ensures r.status == (if d.status == Idle then Pass else d.status)
    ensures r.(status := d.status) == d
  {
    if d.status == Idle then d.(status := Pass) else d
  }

  function VerdictSlot(od: Option<Dut>): Option<Dut> {
    match od
    case None => None
    case Some(d) => Some(Verdict(d))
  }

  /** `prepare_to_exit`: every present `Idle` DUT becomes `Pass`. */
  function Verdicts(duts: Slots): (r: Slots)
    ensures |r| == |duts|
    ensures forall i :: 0 <= i < |duts| ==> (r[i].None? <==> duts[i].None?)
    ensures forall i :: 0 <= i < |duts| && duts[i].Some? ==> r[i].value == Verdict(duts[i].value)
  {
    seq(|duts|, i requires 0 <= i < |duts| => VerdictSlot(duts[i]))
  }

  /** `prepare_to_exit` changes exactly the `Idle` DUTs, to `Pass`; empty
      slots, other statuses and every other attribute stay. */
  lemma VerdictsChangeOnlyIdle(duts: Slots, i: nat)
    requires i < |duts|
    ensures duts[i].None? ==> Verdicts(duts)[i].None?
    ensures duts[i].Some? ==> Verdicts(duts)[i].Some?
    ensures duts[i].Some? ==>
      (Verdicts(duts)[i].value.status == Pass <==> duts[i].value.status in {Idle, Pass})
    ensures duts[i].Some? && duts[i].value.status != Idle ==> Verdicts(duts)[i] == duts[i]
    ensures duts[i].Some? ==> Verdicts(duts)[i].value.(status := duts[i].value.status) == duts[i].value
  {
  }

  /** After `prepare_to_exit` no DUT is left `Idle`; applying it again
      changes nothing. */
  lemma VerdictsFinal(duts: Slots)
    ensures forall i :: 0 <= i < |duts| && Verdicts(duts)[i].Some? ==> Verdicts(duts)[i].value.status != Idle
    ensures Verdicts(Verdicts(duts)) == Verdicts(duts)
  {
  }

  /** `prepare_to_exit`'s loop, on the slots of a channel. */
  method PrepareVerdicts(duts: Slots) returns (r: Slots)
    ensures r == Verdicts(duts)
  {
    r := duts;
    for i := 0 to |duts|
      invariant |r| == |duts|
      invariant forall j :: 0 <= j < i ==> r[j] == VerdictSlot(duts[j])
      invariant forall j :: i <= j < |duts| ==> r[j] == duts[j]
    {
      if r[i].Some? && r[i].value.status == Idle {
        r := r[i := Some(r[i].value.(status := Pass))];
      }
    }
  }

  // ---------------------------------------------------------------------------
  // init's loop over the barcodes

  /** What `init` finds for one non-empty barcode besides the barcode
      itself: the DUT as the adapter and `load_config` present it (its
      EEPROM and its test items), and whether `load_config` raises. */
  datatype Found = Found(dut: Dut, configRaises: bool)

  /** What `init` finds on one run: one `Found` per barcode, and whether
      the supply's voltage or current is out of range, which raises
      before the loop. */
  datatype InitEnv = InitEnv(found: seq<Found>, rangeFails: bool)

  /** Barcode `bc` stops the loop: it is not empty and either it does not
      parse (the constructor raises PGEMException("Unvalide barcode.")) or
      its `load_config` raises. */
  predicate InitFault(bc: string, f: Found) {
    bc != "" && (Barcode.Parse(bc).None? || f.configRaises)
  }

  function InitFaults(barcodes: seq<string>, found: seq<Found>): seq<bool>
    requires |found| == |barcodes|
  {
    seq(|barcodes|, i requires 0 <= i < |barcodes| => InitFault(barcodes[i], found[i]))
  }

  /** The slot `init` appends for barcode `i`: `None` for an empty barcode,
      otherwise the DUT of slot `i`, `Idle`, with the parsed groups. */
  function BuiltSlot(i: nat, bc: string, f: Found): (r: Option<Dut>)
    requires bc != "" ==> Barcode.Parse(bc).Some?
    ensures r.None? <==> bc == ""
    ensures r.Some? ==>
      r.value.slot == i && r.value.status == Idle && Barcode.WellFormed(r.value.fields) &&
      Barcode.Format(r.value.fields) == bc && r.value.eeprom == f.dut.eeprom && r.value.config == f.dut.config
  {
    if bc == "" then None
    else Some(f.dut.(slot := i, fields := Barcode.Parse(bc).value, status := Idle))
  }

  /** The barcode at which `init`'s loop raises, or the number of
      barcodes when it does not. */
  function InitStop(barcodes: seq<string>, found: seq<Found>): (k: nat)
    requires |found| == |barcodes|
    ensures k <= |barcodes|
  {
    FirstFault(InitFaults(barcodes, found), 0)
  }

  /** The loop stops at the first barcode that stops it. */
  lemma InitStopFirst(barcodes: seq<string>, found: seq<Found>)
    requires |found| == |barcodes|
    ensures var k := InitStop(barcodes, found);
      && (k < |barcodes| ==> InitFault(barcodes[k], found[k]))
      && (forall i :: 0 <= i < k ==> !InitFault(barcodes[i], found[i]))
  {
    var faults := InitFaults(barcodes, found);
    var k := FirstFault(faults, 0);
    forall i | 0 <= i < k ensures !InitFault(barcodes[i], found[i]) { assert !faults[i]; }
    assert k < |barcodes| ==> faults[k];
  }

  /** How many slots the loop appends: one per barcode before the stop,
      and the stopping one too when it parsed (its `load_config` raised
      after the append). */
  function InitCount(barcodes: seq<string>, found: seq<Found>): (n: nat)
    requires |found| == |barcodes|
    ensures n <= |barcodes|
  {
    var k := InitStop(barcodes, found);
    if k < |barcodes| && Barcode.Parse(barcodes[k]).Some? then k + 1 else k
  }

  /** Every barcode with an appended slot is empty or parses. */
  lemma InitCountParses(barcodes: seq<string>, found: seq<Found>)
    requires |found| == |barcodes|
    ensures forall i :: 0 <= i < InitCount(barcodes, found) ==>
      barcodes[i] != "" ==> Barcode.Parse(barcodes[i]).Some?
  {
    InitStopFirst(barcodes, found);
  }

  /** The slots `init`'s loop appends, and whether it raises. A slot is
      appended for every barcode before the first one that stops the loop;
      that one is appended too when its `load_config` raises, since the
      append comes first, but not when it does not parse. */
  function InitSlots(barcodes: seq<string>, found: seq<Found>): (r: (Slots, bool))
    requires |found| == |barcodes|
    ensures |r.0| <= |barcodes|
  {
    var n := InitCount(barcodes, found);
    InitCountParses(barcodes, found);
    (seq(n, i requires 0 <= i < n && (barcodes[i] != "" ==> Barcode.Parse(barcodes[i]).Some?) =>
              BuiltSlot(i, barcodes[i], found[i])),
     InitStop(barcodes, found) < |barcodes|)
  }

  /** The loop raises if and only if some barcode stops it; then it is
      either the barcode after the appended slots, which did not parse, or
      the last appended one, whose `load_config` raised. Otherwise every
      barcode has its slot. */
  lemma InitSlotsRaises(barcodes: seq<string>, found: seq<Found>)
    requires |found| == |barcodes|
    ensures var r := InitSlots(barcodes, found);
      && (r.1 <==> exists i :: 0 <= i < |barcodes| && InitFault(barcodes[i], found[i]))
      && (!r.1 ==> |r.0| == |barcodes|)
      && (r.1 ==>
           (|r.0| < |barcodes| && barcodes[|r.0|] != "" && Barcode.Parse(barcodes[|r.0|]).None?) ||
           (0 < |r.0| && barcodes[|r.0| - 1] != "" && found[|r.0| - 1].configRaises))
  {
    var k := InitStop(barcodes, found);
    InitStopFirst(barcodes, found);
    assert |InitSlots(barcodes, found).0| == InitCount(barcodes, found);
    if k < |barcodes| {
      assert InitFault(barcodes[k], found[k]);
    }
  }

  /** Slot `i` of what the loop appends: empty for an empty barcode,
      otherwise the DUT of slot `i`, `Idle`, with the groups of its
      barcode and the EEPROM and test items found for it. */
  lemma InitSlotsSlot(barcodes: seq<string>, found: seq<Found>, i: nat)
    requires |found| == |barcodes| && i < |InitSlots(barcodes, found).0|
    ensures var s := InitSlots(barcodes, found).0[i];
      && (s.None? <==> barcodes[i] == "")
      && (s.Some? ==>
           s.value.slot == i && s.value.status == Idle && Barcode.WellFormed(s.value.fields) &&
           Barcode.Format(s.value.fields) == barcodes[i] &&
           s.value.eeprom == found[i].dut.eeprom && s.value.config == found[i].dut.config)
  {
    InitCountParses(barcodes, found);
    assert InitSlots(barcodes, found).0[i] == BuiltSlot(i, barcodes[i], found[i]);
  }

  /** The loop's appends one at a time: the slots after barcode `i` are
      those before it and the slot built for it. */
  lemma InitSlotsNext(barcodes: seq<string>, found: seq<Found>, i: nat)
    requires |found| == |barcodes| && i < InitCount(barcodes, found)
    requires barcodes[i] != "" ==> Barcode.Parse(barcodes[i]).Some?
    ensures InitSlots(barcodes, found).0[..i + 1] ==
            InitSlots(barcodes, found).0[..i] + [BuiltSlot(i, barcodes[i], found[i])]
  {
    var s := InitSlots(barcodes, found).0;
    InitCountParses(barcodes, found);
    assert s[i] == BuiltSlot(i, barcodes[i], found[i]);
    assert s[..i + 1] == s[..i] + [s[i]];
  }

  /** A valid barcode followed by one that does not parse: the first DUT
      is appended, then the loop raises. */
  lemma InitStopsAtBadBarcode(f0: Found, f1: Found)
    requires !f0.configRaises
    ensures InitSlots([Barcode.EXAMPLE, "x"], [f0, f1]).1
    ensures |InitSlots([Barcode.EXAMPLE, "x"], [f0, f1]).0| == 1
  {
    Barcode.ExampleBarcode();
    InitStopFirst([Barcode.EXAMPLE, "x"], [f0, f1]);
    assert !InitFault([Barcode.EXAMPLE, "x"][0], [f0, f1][0]);
    assert InitFault([Barcode.EXAMPLE, "x"][1], [f0, f1][1]);
    assert InitStop([Barcode.EXAMPLE, "x"], [f0, f1]) == 1;
  }

  /** What `init` appends and whether it raises: nothing and a raise when
      the supply is out of range, otherwise the loop over the barcodes. */
  function InitOutcome(barcodes: seq<string>, env: InitEnv): (Slots, bool)
    requires |env.found| == |barcodes|
  {
    if env.rangeFails then ([], true) else InitSlots(barcodes, env.found)
  }
}

=== FILE: fixture.dfy ===
/** The fixture's motherboard helpers of one channel: the TCA9555 port
    expander that drives the auto-discharge (PRESENT) lines on port 0 and
    reads the power-fail lines on port 1, and the PCA9548A I2C mux that
    connects the adapter to one DUT slot at a time. Port values are bytes
    read from the bus (inputs); writes are returned as a trace. */
module Fixture {
  import opened Common

  /** TCA9555 registers. */
  const REG_INPUT: int := 0x00
  const REG_OUTPUT: int := 0x02
  const REG_CONFIG: int := 0x06

  /** The motherboard expander and mux of channel `ch`. */
  function ExpanderAddr(ch: nat): nat { 0x20 + ch }
  function MuxAddr(ch: nat): nat { 0x70 + ch }

  /** The mask of slot `slot` on a port: `0x01 << slot`. */
  function Mask(slot: nat): (m: bv8)
    requires slot < 8
    ensures m != 0 && m & (m - 1) == 0
  {
    (1 as bv8) << slot
  }

  /** The configuration write before every access: port 0 as outputs,
      port 1 as inputs. */
  function ConfigurePorts(ch: nat): I2cOp {
    Write(ExpanderAddr(ch), [REG_CONFIG, 0x00, 0xFF])
  }

  // ---------------------------------------------------------------------------
  // auto_discharge

  /** The level `auto_discharge` drives: 0 discharges, 1 does not. */
  function DischargeLevel(status: bool): bv8 {
    if status then 0 else 1
  }

  /** The port 0 value `auto_discharge` writes, given the value it read:
      bit `slot` set when not discharging (`val |= IO << slot`), cleared
      when discharging (`val &= ~(0x01 << slot)`). */
  function PortAfter(port0: bv8, slot: nat, status: bool): (r: bv8)
    requires slot < 8
    ensures r & Mask(slot) == (if status then 0 else Mask(slot))
    ensures r & !Mask(slot) == port0 & !Mask(slot)
  {
    if DischargeLevel(status) == 1 then port0 | (DischargeLevel(status) << slot)
    else port0 & !((1 as bv8) << slot)
  }

  /** Bit `slot` of a port value: `(val & (0x01 << slot)) >> slot`. */
  function SlotBit(port: bv8, slot: nat): (b: bv8)
    requires slot < 8
    ensures b == 0 || b == 1
    ensures b == 1 <==> port & Mask(slot) != 0
  {
    (port & ((1 as bv8) << slot)) >> slot
  }

  /** `auto_discharge(slot, status)`: configure the ports, read port 0,
      write it back with the slot's bit changed, read it back. `port0` is
      the first value read and `readback` the second. The result is the
      write trace, both writes sent before the readback, and whether the
      readback `assert` passes; when it does not, the AssertionError
      leaves the routine after those writes. */
  function AutoDischarge(ch: nat, slot: nat, status: bool, port0: bv8, readback: bv8): (r: (seq<I2cOp>, bool))
    requires slot < 8
    ensures r.1 <==> SlotBit(readback, slot) == DischargeLevel(status)
    ensures r.0 == [ConfigurePorts(ch),
                    Write(ExpanderAddr(ch), [REG_OUTPUT, PortAfter(port0, slot, status) as int, 0xFF])]
  {
    var val := PortAfter(port0, slot, status);
    var ops := [ConfigurePorts(ch), Write(ExpanderAddr(ch), [REG_OUTPUT, val as int, 0xFF])];
    (ops, SlotBit(readback, slot) == DischargeLevel(status))
  }

  /** When the port reads back what was written (the lines are outputs),
      the readback check passes, whatever the other lines were. */
  lemma AutoDischargeReadsBack(ch: nat, slot: nat, status: bool, port0: bv8)
    requires slot < 8
    ensures AutoDischarge(ch, slot, status, port0, PortAfter(port0, slot, status)).1
  {
  }

  /** Discharging one slot and then releasing it restores the port value
      read before, when the slot's line was released to begin with. */
  lemma AutoDischargeUndo(port0: bv8, slot: nat)
    requires slot < 8 && port0 & Mask(slot) != 0
    ensures PortAfter(PortAfter(port0, slot, true), slot, false) == port0
  {
  }

  /** Changing one slot never changes the line of another. */
  lemma AutoDischargeOtherSlots(port0: bv8, slot: nat, other: nat, status: bool)
    requires slot < 8 && other < 8 && other != slot
    ensures SlotBit(PortAfter(port0, slot, status), other) == SlotBit(port0, other)
  {
    MaskValue(slot);
    MaskValue(other);
  }

  /** The eight masks, one bit each. */
  lemma MaskValue(slot: nat)
    requires slot < 8
    ensures Mask(slot) == [1, 2, 4, 8, 16, 32, 64, 128][slot]
  {
  }

  // ---------------------------------------------------------------------------
  // switch_to_dut, switch_to_mb

  /** The channels a PCA9548A control byte enables. */
  function EnabledChannels(control: bv8): set<nat> {
    set j: nat | j < 8 && control & Mask(j) != 0
  }

  /** `switch_to_dut(slot)`: the control byte `0x01 << slot` to the mux. */
  function SwitchToDut(ch: nat, slot: nat): (op: I2cOp)
    requires slot < 8
    ensures op == Write(0x70 + ch, [Pow2(slot)])
  {
    MaskIsPow2(slot);
    Write(MuxAddr(ch), [Mask(slot) as int])
  }

  /** The mask of a slot, read as a number, is 2 to the power of the slot. */
  lemma MaskIsPow2(slot: nat)
    requires slot < 8
    ensures Mask(slot) as int == Pow2(slot)
  {
    MaskValue(slot);
    assert Pow2(7) == 128 && Pow2(6) == 64 && Pow2(5) == 32 && Pow2(4) == 16;
    assert Pow2(3) == 8 && Pow2(2) == 4 && Pow2(1) == 2 && Pow2(0) == 1;
  }

  /** The control byte of `switch_to_dut` enables exactly the slot's
      channel. */
  lemma SwitchToDutEnablesOne(slot: nat)
    requires slot < 8
    ensures EnabledChannels(Mask(slot)) == {slot}
  {
    forall j: nat | j < 8 && j != slot ensures Mask(slot) & Mask(j) == 0 {
      MasksDisjoint(slot, j);
    }
  }

  lemma MasksDisjoint(a: nat, b: nat)
    requires a < 8 && b < 8 && a != b
    ensures Mask(a) & Mask(b) == 0
  {
  }

  /** `switch_to_mb`: the control byte 0x00, one data byte. */
  function SwitchToMb(ch: nat): I2cOp {
    Write(MuxAddr(ch), [0x00])
  }

  /** Control byte 0 disconnects every DUT slot. */
  lemma SwitchToMbEnablesNone()
    ensures EnabledChannels(0) == {}
  {
  }

  // ---------------------------------------------------------------------------
  // read_power_fail_io

  /** `read_power_fail_io`: configure the ports, read both, and return the
      slot's bit of port 1. `port1` is the value read. */
  function ReadPowerFailIo(ch: nat, slot: nat, port1: bv8): (r: (seq<I2cOp>, int))
    requires slot < 8
    ensures r.1 == 0 || r.1 == 1
    ensures r.1 == 1 <==> port1 & Mask(slot) != 0
    ensures r.0 == [ConfigurePorts(ch)]
  {
    ([ConfigurePorts(ch)], SlotBit(port1, slot) as int)
  }
}

=== FILE: phases.dfy ===
/** The pass/fail phases of a channel other than the two polling loops:
    temperature, encrypted IC, power-fail interrupt, capacitance and VPD
    programming with its checksum check. Each phase visits the slots in
    order, skips the ones its gate rejects and can only fail a DUT. The
    hardware readings of each slot are inputs. */
module Phases {
  import opened Common
  import opened Duts
  import Barcode
  import Vpd
  import Crc
  import Pgem
  import Fixture

  const TEMP_MSG: string := "Temperature out of range."
  const ENCRYPTED_MSG: string := "Check I2C on Encrypted IC Fail."
  const POWER_FAIL_MSG: string := "check power_fail_int fail."
  const CAP_MSG: string := "Capacitor out of range."
  const PROGRAM_MSG: string := "Programming VPD Fail"
  const CRC1_MSG: string := "CRC fail"
  const CRC2_MSG: string := "CR2C fail"

  /** What every phase may do to the slots: keep every empty slot empty,
      and change a DUT's status only to `Fail`. */
  predicate OnlyFails(before: Slots, after: Slots) {
    |after| == |before| &&
    forall i :: 0 <= i < |before| ==>
      (before[i].None? <==> after[i].None?) &&
      (before[i].Some? ==> after[i].value.status in {before[i].value.status, Fail})
  }

  lemma OnlyFailsTrans(a: Slots, b: Slots, c: Slots)
    requires OnlyFails(a, b) && OnlyFails(b, c)
    ensures OnlyFails(a, c)
  {
  }

  /** What the encrypted-IC, power-fail and capacitance phases may do:
      keep every empty slot empty, and change a DUT's status only from
      `Idle` to `Fail`. */
  predicate OnlyIdleToFail(before: Slots, after: Slots) {
    |after| == |before| &&
    forall i :: 0 <= i < |before| ==>
      (before[i].None? <==> after[i].None?) &&
      (before[i].Some? ==> after[i].value.status == before[i].value.status ||
                           (before[i].value.status == Idle && after[i].value.status == Fail))
  }

  // ---------------------------------------------------------------------------
  // check_temperature_dut

  /** The SE97B temperature register as read: two bytes, most significant
      first. */
  datatype TempReading = TempReading(msb: Byte, lsb: Byte)

  function TempStep(d: Dut, reading: TempReading): (r: Dut)
    ensures !Gate(d.config.checkTemp, d.status, Idle) ==> r == d
    ensures r == d || r == Failed(d, TEMP_MSG)
    ensures Gate(d.config.checkTemp, d.status, Idle) && d.status == Idle ==>
      (r.status == Idle <==> d.config.checkTemp.min < Pgem.CheckTemp(reading.msb, reading.lsb) < d.config.checkTemp.max)
  {
    var item := d.config.checkTemp;
    if !Gate(item, d.status, Idle) then d
    else
      var temp := Pgem.CheckTemp(reading.msb, reading.lsb);
      if !(item.min < temp < item.max) then Failed(d, TEMP_MSG) else d
  }

  /** The slots whose sensor read raises: the gate lets the DUT through
      and there is no reading (`None`), the adapter having raised. */
  function TempFaults(duts: Slots, readings: seq<Option<TempReading>>): (f: seq<bool>)
    requires |readings| == |duts|
    ensures |f| == |duts|
  {
    seq(|duts|, i requires 0 <= i < |duts| =>
      duts[i].Some? && Gate(duts[i].value.config.checkTemp, duts[i].value.status, Idle) && readings[i].None?)
  }

  /** The slot at which `check_temperature_dut` raises, or the number of
      slots when no read raises. */
  function TempFault(duts: Slots, readings: seq<Option<TempReading>>): nat
    requires |readings| == |duts|
  {
    FirstFault(TempFaults(duts, readings), 0)
  }

  /** `check_temperature_dut`: every DUT whose gate passes is failed when
      its temperature is not strictly inside the item's band. Without
      `stoponfail` the gate lets a DUT of any status through, so a DUT
      that already failed can be failed again with this message. A read
      that raises leaves the routine: the slots before it are judged, the
      rest untouched, and the flag is set. */
  function TempPhase(duts: Slots, readings: seq<Option<TempReading>>): (r: (Slots, bool))
    requires |readings| == |duts|
    ensures |r.0| == |duts|
    ensures r.1 <==> exists i :: 0 <= i < |duts| && TempFaults(duts, readings)[i]
    ensures forall i :: 0 <= i < |duts| ==> (duts[i].None? <==> r.0[i].None?)
    ensures forall i :: 0 <= i < |duts| && duts[i].Some? ==>
      r.0[i] == duts[i] || r.0[i] == Some(Failed(duts[i].value, TEMP_MSG))
    ensures forall i :: 0 <= i < |duts| && duts[i].Some? && !Gate(duts[i].value.config.checkTemp, duts[i].value.status, Idle) ==>
      r.0[i] == duts[i]
    ensures forall i :: TempFault(duts, readings) <= i < |duts| ==> r.0[i] == duts[i]
  {
    var k := TempFault(duts, readings);
    (seq(|duts|, i requires 0 <= i < |duts| =>
       if i < k && duts[i].Some? && readings[i].Some? then Some(TempStep(duts[i].value, readings[i].value)) else duts[i]),
     k < |duts|)
  }

  /** A slot before the one that raises is judged: an examined `Idle` DUT
      had its sensor read and stays `Idle` exactly when the temperature is
      strictly inside the band. */
  lemma TempVerdict(duts: Slots, readings: seq<Option<TempReading>>, i: nat)
    requires |readings| == |duts| && i < TempFault(duts, readings)
    requires i < |duts| && duts[i].Some? && duts[i].value.status == Idle && duts[i].value.config.checkTemp.enable
    ensures readings[i].Some?
    ensures TempPhase(duts, readings).0[i].value.status == Idle <==>
      duts[i].value.config.checkTemp.min < Pgem.CheckTemp(readings[i].value.msb, readings[i].value.lsb) < duts[i].value.config.checkTemp.max
  {
    assert !TempFaults(duts, readings)[i];
  }

  /** With `stoponfail` on every DUT, the temperature check only moves a
      status from `Idle` to `Fail`. */
  lemma TempPhaseStopOnFail(duts: Slots, readings: seq<Option<TempReading>>)
    requires |readings| == |duts|
    requires forall i :: 0 <= i < |duts| && duts[i].Some? ==> duts[i].value.config.checkTemp.stopOnFail
    ensures OnlyIdleToFail(duts, TempPhase(duts, readings).0)
  {
    var r := TempPhase(duts, readings).0;
    forall i | 0 <= i < |duts| && duts[i].Some?
      ensures r[i].value.status == duts[i].value.status ||
              (duts[i].value.status == Idle && r[i].value.status == Fail)
    {
      assert r[i] == duts[i] || r[i] == Some(Failed(duts[i].value, TEMP_MSG));
      assert !Gate(duts[i].value.config.checkTemp, duts[i].value.status, Idle) ==> r[i] == duts[i];
    }
  }

  // ---------------------------------------------------------------------------
  // check_encryptedic_dut

  function EncryptedStep(d: Dut, block: seq<Byte>): (r: Dut)
    ensures !IdleGate(d.config.encryptedIc, d.status) ==> r == d
    ensures IdleGate(d.config.encryptedIc, d.status) ==>
      r == (if Pgem.EncryptedIcValid(block) then d else Failed(d, ENCRYPTED_MSG))
  {
    if !IdleGate(d.config.encryptedIc, d.status) then d
    else if !Pgem.EncryptedIcValid(block) then Failed(d, ENCRYPTED_MSG)
    else d
  }

  /** The slots whose probe raises: an examined DUT with no block read. */
  function EncryptedFaults(duts: Slots, blocks: seq<Option<seq<Byte>>>): (f: seq<bool>)
    requires |blocks| == |duts|
    ensures |f| == |duts|
  {
    seq(|duts|, i requires 0 <= i < |duts| =>
      duts[i].Some? && IdleGate(duts[i].value.config.encryptedIc, duts[i].value.status) && blocks[i].None?)
  }

  /** The slot at which `check_encryptedic_dut` raises, or the number of
      slots. */
  function EncryptedFault(duts: Slots, blocks: seq<Option<seq<Byte>>>): nat
    requires |blocks| == |duts|
  {
    FirstFault(EncryptedFaults(duts, blocks), 0)
  }

  /** `check_encryptedic_dut`, given the 128 bytes each slot's probe reads
      (`None` where the read raises, which leaves the routine with the
      later slots untouched). */
  function EncryptedPhase(duts: Slots, blocks: seq<Option<seq<Byte>>>): (r: (Slots, bool))
    requires |blocks| == |duts|
    ensures OnlyIdleToFail(duts, r.0)
    ensures r.1 <==> exists i :: 0 <= i < |duts| && EncryptedFaults(duts, blocks)[i]
    ensures forall i :: 0 <= i < |duts| && duts[i].Some? && !IdleGate(duts[i].value.config.encryptedIc, duts[i].value.status) ==>
      r.0[i] == duts[i]
    ensures forall i :: EncryptedFault(duts, blocks) <= i < |duts| ==> r.0[i] == duts[i]
    ensures forall i :: 0 <= i < EncryptedFault(duts, blocks) && i < |duts| && duts[i].Some? &&
                        IdleGate(duts[i].value.config.encryptedIc, duts[i].value.status) ==>
      blocks[i].Some? && r.0[i] == Some(EncryptedStep(duts[i].value, blocks[i].value))
  {
    var k := EncryptedFault(duts, blocks);
    assert forall i :: 0 <= i < k && i < |duts| && duts[i].Some? &&
                       IdleGate(duts[i].value.config.encryptedIc, duts[i].value.status)
                       ==> blocks[i].Some? by {
      forall i | 0 <= i < k && i < |duts| && duts[i].Some? &&
                 IdleGate(duts[i].value.config.encryptedIc, duts[i].value.status)
        ensures blocks[i].Some?
      {
        assert !EncryptedFaults(duts, blocks)[i];
      }
    }
    (seq(|duts|, i requires 0 <= i < |duts| =>
       if i < k && duts[i].Some? && blocks[i].Some? then Some(EncryptedStep(duts[i].value, blocks[i].value)) else duts[i]),
     k < |duts|)
  }

  /** A gated DUT whose probe reads back an erased block fails. */
  lemma ErasedEncryptedIcFails(d: Dut)
    requires IdleGate(d.config.encryptedIc, d.status)
    ensures EncryptedStep(d, seq(Pgem.ENCRYPTED_IC_LENGTH, _ => 0xFF)) == Failed(d, ENCRYPTED_MSG)
  {
    Pgem.ErasedBlockInvalid();
  }

  // ---------------------------------------------------------------------------
  // check_power_fail

  /** One of the two passes of `check_power_fail`: compare the slot's
      power-fail bit, read from port 1 of the motherboard expander, with
      the level the item expects with the supply on (`ON`) or lowered
      (`OFF`). */
  function PowerFailStep(ch: nat, d: Dut, port1: bv8, on: bool): (r: Dut)
    requires d.slot < MUX_CHANNELS
    ensures !IdleGate(d.config.powerFailInt, d.status) ==> r == d
    ensures r == d || r == Failed(d, POWER_FAIL_MSG)
  {
    var item := d.config.powerFailInt;
    if !IdleGate(item, d.status) then d
    else
      var val := Fixture.ReadPowerFailIo(ch, d.slot, port1).1;
      if val != (if on then item.on else item.off) then Failed(d, POWER_FAIL_MSG) else d
  }

  /** The slots whose port read raises in a pass: an examined DUT with no
      port value read. */
  function PowerFailFaults(duts: Slots, ports: seq<Option<bv8>>): (f: seq<bool>)
    requires |ports| == |duts|
    ensures |f| == |duts|
  {
    seq(|duts|, i requires 0 <= i < |duts| =>
      duts[i].Some? && IdleGate(duts[i].value.config.powerFailInt, duts[i].value.status) && ports[i].None?)
  }

  /** The slot at which a pass raises, or the number of slots. */
  function PowerFailFault(duts: Slots, ports: seq<Option<bv8>>): nat
    requires |ports| == |duts|
  {
    FirstFault(PowerFailFaults(duts, ports), 0)
  }

  /** One pass of `check_power_fail`, given port 1 as each slot's read
      finds it (`None` where the read raises and leaves the routine). */
  function PowerFailRound(ch: nat, duts: Slots, ports: seq<Option<bv8>>, on: bool): (r: (Slots, bool))
    requires InSlots(duts) && |ports| == |duts|
    ensures InSlots(r.0)
    ensures OnlyIdleToFail(duts, r.0)
    ensures r.1 <==> exists i :: 0 <= i < |duts| && PowerFailFaults(duts, ports)[i]
  {
    var k := PowerFailFault(duts, ports);
    (seq(|duts|, i requires 0 <= i < |duts| && InSlots(duts) => PowerFailSlot(ch, duts[i], ports[i], on, i < k)),
     k < |duts|)
  }

  /** One slot after a pass: judged by the step when the pass reached it
      and there is a DUT with a port value, otherwise as it was. */
  function PowerFailSlot(ch: nat, od: Option<Dut>, port: Option<bv8>, on: bool, reached: bool): (r: Option<Dut>)
    requires od.Some? ==> od.value.slot < MUX_CHANNELS
    ensures r.None? <==> od.None?
  {
    if reached && od.Some? && port.Some? then Some(PowerFailStep(ch, od.value, port.value, on)) else od
  }

  /** The slots a pass leaves when it stops at slot `k`, the slot that
      raises or the end: those before `k` judged, the rest as they were. */
  lemma PowerFailRoundUpTo(ch: nat, duts: Slots, ports: seq<Option<bv8>>, on: bool, slots: Slots, k: nat)
    requires InSlots(duts) && |ports| == |duts| && |slots| == |duts|
    requires k == PowerFailFault(duts, ports)
    requires forall j :: 0 <= j < k && j < |duts| ==> slots[j] == PowerFailSlot(ch, duts[j], ports[j], on, true)
    requires forall j :: k <= j < |duts| ==> slots[j] == duts[j]
    ensures slots == PowerFailRound(ch, duts, ports, on).0
  {
  }

  /** Slot `i` after a pass: only its status and message can change; from
      the slot that raises on it is untouched; before it, an examined DUT
      had its port read and is judged by the power-fail step. */
  lemma PowerFailRoundSlot(ch: nat, duts: Slots, ports: seq<Option<bv8>>, on: bool, i: nat)
    requires InSlots(duts) && |ports| == |duts| && i < |duts|
    ensures var r := PowerFailRound(ch, duts, ports, on).0;
      && (duts[i].Some? ==>
            r[i].value.(status := duts[i].value.status, errormessage := duts[i].value.errormessage) == duts[i].value)
      && (PowerFailFault(duts, ports) <= i ==> r[i] == duts[i])
      && (i < PowerFailFault(duts, ports) && duts[i].Some? && IdleGate(duts[i].value.config.powerFailInt, duts[i].value.status) ==>
            ports[i].Some? && r[i] == Some(PowerFailStep(ch, duts[i].value, ports[i].value, on)))
  {
    if i < PowerFailFault(duts, ports) {
      assert !PowerFailFaults(duts, ports)[i];
    }
  }

  /** `check_power_fail`: the pass with the supply on, then the pass with
      the supply at 9 V; a DUT failed by the first is skipped by the
      second, and a pass that raises ends the routine. */
  function PowerFailPhase(ch: nat, duts: Slots, portsOn: seq<Option<bv8>>, portsOff: seq<Option<bv8>>): (r: (Slots, bool))
    requires InSlots(duts) && |portsOn| == |duts| && |portsOff| == |duts|
    ensures InSlots(r.0)
    ensures OnlyIdleToFail(duts, r.0)
  {
    var (mid, raised) := PowerFailRound(ch, duts, portsOn, true);
    if raised then (mid, true) else PowerFailRound(ch, mid, portsOff, false)
  }

  /** When the check completes, an examined DUT stays `Idle` exactly when
      its bit reads `ON` with the supply on and `OFF` with the supply
      lowered. */
  lemma PowerFailVerdict(ch: nat, duts: Slots, portsOn: seq<Option<bv8>>, portsOff: seq<Option<bv8>>, i: nat)
    requires InSlots(duts) && |portsOn| == |duts| && |portsOff| == |duts|
    requires !PowerFailPhase(ch, duts, portsOn, portsOff).1
    requires i < |duts| && duts[i].Some? && IdleGate(duts[i].value.config.powerFailInt, duts[i].value.status)
    ensures portsOn[i].Some?
    ensures PowerFailPhase(ch, duts, portsOn, portsOff).0[i].value.status == Idle <==>
      (Fixture.ReadPowerFailIo(ch, i, portsOn[i].value).1 == duts[i].value.config.powerFailInt.on &&
       portsOff[i].Some? && Fixture.ReadPowerFailIo(ch, i, portsOff[i].value).1 == duts[i].value.config.powerFailInt.off)
  {
    var (mid, raised) := PowerFailRound(ch, duts, portsOn, true);
    assert !raised;
    assert !PowerFailFaults(duts, portsOn)[i];
    PowerFailRoundSlot(ch, duts, portsOn, true, i);
    assert mid[i] == Some(PowerFailStep(ch, duts[i].value, portsOn[i].value, true));
    var (r, raised2) := PowerFailRound(ch, mid, portsOff, false);
    assert !raised2;
    PowerFailRoundSlot(ch, mid, portsOff, false, i);
    if mid[i].value.status == Idle {
      assert !PowerFailFaults(mid, portsOff)[i];
      assert r[i] == Some(PowerFailStep(ch, mid[i].value, portsOff[i].value, false));
    } else {
      assert r[i] == mid[i];
    }
  }

  // ---------------------------------------------------------------------------
  // calculate_capacitance

  /** The band in which a pair of discharge samples is used. */
  predicate InBand(v: real) { 5.2 < v < 6.3 }

  predicate InBandPair(pre: Cycle, cur: Cycle) { InBand(pre.vcap) && InBand(cur.vcap) }

  /** A sample of the discharge polling loop. */
  predicate IsDischarge(c: Cycle) { c.state == "discharge" }

  /** The samples tagged "discharge", in order. */
  function Discharges(cycles: seq<Cycle>): (ds: seq<Cycle>)
    ensures |ds| <= |cycles|
    ensures forall k :: 0 <= k < |ds| ==> IsDischarge(ds[k])
  {
    if cycles == [] then []
    else
      var last := cycles[|cycles| - 1];
      Discharges(cycles[..|cycles| - 1]) + (if IsDischarge(last) then [last] else [])
  }

  /** No in-band pair has two equal voltages (the division would raise). */
  predicate NoFlatPair(ds: seq<Cycle>) {
    forall k :: 1 <= k < |ds| && InBandPair(ds[k - 1], ds[k]) ==> ds[k - 1].vcap != ds[k].vcap
  }

  /** The estimate of one in-band pair at discharge current `current`. */
  function PairCapacitance(pre: Cycle, cur: Cycle, current: real): real
    requires pre.vcap != cur.vcap
  {
    current * (cur.time - pre.time) / (pre.vcap - cur.vcap)
  }

  /** The estimates of the consecutive in-band pairs, in order: each sample
      is paired with the one before it, whether or not that pair was in
      band. */
  function Contributions(ds: seq<Cycle>, current: real): (cs: seq<real>)
    requires NoFlatPair(ds)
    ensures |cs| <= |ds|
  {
    if |ds| < 2 then []
    else
      var pre, cur := ds[|ds| - 2], ds[|ds| - 1];
      Contributions(ds[..|ds| - 1], current) +
      (if InBandPair(pre, cur) then [PairCapacitance(pre, cur, current)] else [])
  }

  function Sum(xs: seq<real>): real {
    if xs == [] then 0.0 else Sum(xs[..|xs| - 1]) + xs[|xs| - 1]
  }

  /** `sum(cap_list) / float(len(cap_list))`, or 0 for an empty list. */
  function Mean(xs: seq<real>): real {
    if |xs| > 0 then Sum(xs) / |xs| as real else 0.0
  }

  /** The capacitance `calculate_capacitance` estimates from a DUT's
      samples. */
  function Capacitance(cycles: seq<Cycle>, current: real): real
    requires NoFlatPair(Discharges(cycles))
  {
    Mean(Contributions(Discharges(cycles), current))
  }

  function LastOf(ds: seq<Cycle>): Option<Cycle> {
    if ds == [] then None else Some(ds[|ds| - 1])
  }

  lemma DischargesPrefix(cycles: seq<Cycle>, i: nat)
    requires i < |cycles|
    ensures Discharges(cycles[..i + 1]) ==
      Discharges(cycles[..i]) + (if IsDischarge(cycles[i]) then [cycles[i]] else [])
  {
    assert cycles[..i + 1][..i] == cycles[..i];
  }

  lemma {:induction false} DischargesOfPrefix(cycles: seq<Cycle>, i: nat)
    requires i <= |cycles|
    ensures Discharges(cycles[..i]) <= Discharges(cycles)
    decreases |cycles| - i
  {
    if i < |cycles| {
      DischargesOfPrefix(cycles, i + 1);
      DischargesPrefix(cycles, i);
    } else {
      assert cycles[..i] == cycles;
    }
  }

  /** Appending a sample extends the pairs by the one it closes. */
  lemma ContributionsSnoc(ds: seq<Cycle>, c: Cycle, current: real)
    requires NoFlatPair(ds + [c])
    ensures NoFlatPair(ds)
    ensures ds != [] && InBandPair(ds[|ds| - 1], c) ==> ds[|ds| - 1].vcap != c.vcap
    ensures Contributions(ds + [c], current) == Contributions(ds, current) +
      (if ds != [] && InBandPair(ds[|ds| - 1], c) then [PairCapacitance(ds[|ds| - 1], c, current)] else [])
  {
    var e := ds + [c];
    assert forall k :: 0 <= k < |ds| ==> e[k] == ds[k];
    assert e[..|e| - 1] == ds;
    if ds != [] {
      assert e[|e| - 2] == ds[|ds| - 1] && e[|e| - 1] == c;
      assert InBandPair(e[|e| - 2], e[|e| - 1]) ==> e[|e| - 2].vcap != e[|e| - 1].vcap;
    }
  }

  lemma NoFlatPrefix(ds: seq<Cycle>, pre: seq<Cycle>)
    requires NoFlatPair(ds) && pre <= ds
    ensures NoFlatPair(pre)
  {
    assert forall k :: 0 <= k < |pre| ==> pre[k] == ds[k];
  }

  /** `calculate_capacitance`'s loop over one DUT's samples: `pre_vcap` and
      `pre_time` follow the latest "discharge" sample, and `cap_list`
      collects the estimates of in-band pairs. */
  method EstimateCapacitance(cycles: seq<Cycle>, current: real) returns (capacitor: real)
    requires NoFlatPair(Discharges(cycles))
    ensures capacitor == Capacitance(cycles, current)
  {
    var capList: seq<real> := [];
    var pre: Option<Cycle> := None;
    NoFlatDischargesPrefix(cycles, 0);
    for i := 0 to |cycles|
      invariant NoFlatPair(Discharges(cycles[..i]))
      invariant capList == Contributions(Discharges(cycles[..i]), current)
      invariant pre == LastOf(Discharges(cycles[..i]))
    {
      ghost var before := Discharges(cycles[..i]);
      DischargesPrefix(cycles, i);
      NoFlatDischargesPrefix(cycles, i + 1);
      var cycle := cycles[i];
      if IsDischarge(cycle) {
        capList := PairWithPrevious(capList, pre, before, cycle, current);
        pre := Some(cycle);
      } else {
        assert Discharges(cycles[..i + 1]) == before;
      }
    }
    assert cycles[..|cycles|] == cycles;
    if |capList| > 0 {
      capacitor := Sum(capList) / |capList| as real;
    } else {
      capacitor := 0.0;
    }
  }

  /** The discharge samples of a prefix have no flat pair when those of the
      whole sequence have none. */
  lemma NoFlatDischargesPrefix(cycles: seq<Cycle>, i: nat)
    requires i <= |cycles| && NoFlatPair(Discharges(cycles))
    ensures NoFlatPair(Discharges(cycles[..i]))
  {
    DischargesOfPrefix(cycles, i);
    NoFlatPrefix(Discharges(cycles), Discharges(cycles[..i]));
  }

  /** One "discharge" sample of `calculate_capacitance`'s loop: when it
      and the previous one are both in band, their estimate joins the list. */
  method PairWithPrevious(capList: seq<real>, pre: Option<Cycle>, ghost before: seq<Cycle>, cycle: Cycle, current: real)
    returns (caps: seq<real>)
    requires NoFlatPair(before + [cycle])
    requires NoFlatPair(before) && capList == Contributions(before, current) && pre == LastOf(before)
    ensures caps == Contributions(before + [cycle], current)
  {
    ContributionsSnoc(before, cycle, current);
    caps := capList;
    if pre.Some? && InBand(pre.value.vcap) && InBand(cycle.vcap) {
      caps := capList + [PairCapacitance(pre.value, cycle, current)];
    }
  }

  /** A capacitor of `c` farads discharged at a constant current loses
      voltage in proportion to time; every in-band pair then estimates
      `c`, and so does the mean. */
  predicate ConstantCapacitance(ds: seq<Cycle>, current: real, c: real) {
    forall k :: 1 <= k < |ds| && InBandPair(ds[k - 1], ds[k]) ==> ConstantPair(ds[k - 1], ds[k], current, c)
  }

  /** The charge `current * dt` drawn between two samples is `c` times the
      voltage lost. */
  predicate ConstantPair(pre: Cycle, cur: Cycle, current: real, c: real) {
    (pre.vcap - cur.vcap) * c == current * (cur.time - pre.time)
  }

  lemma PairOfConstant(pre: Cycle, cur: Cycle, current: real, c: real)
    requires pre.vcap != cur.vcap && ConstantPair(pre, cur, current, c)
    ensures PairCapacitance(pre, cur, current) == c
  {
    Quotient(current * (cur.time - pre.time), pre.vcap - cur.vcap, c);
  }

  lemma {:induction false} ContributionsOfConstant(ds: seq<Cycle>, current: real, c: real)
    requires NoFlatPair(ds) && ConstantCapacitance(ds, current, c)
    ensures forall k :: 0 <= k < |Contributions(ds, current)| ==> Contributions(ds, current)[k] == c
  {
    if |ds| >= 2 {
      var init := ds[..|ds| - 1];
      assert forall k :: 0 <= k < |init| ==> init[k] == ds[k];
      assert NoFlatPair(init) && ConstantCapacitance(init, current, c);
      ContributionsOfConstant(init, current, c);
      var pre, cur := ds[|ds| - 2], ds[|ds| - 1];
      var cs := Contributions(ds, current);
      if InBandPair(pre, cur) {
        var k := |ds| - 1;
        assert InBandPair(ds[k - 1], ds[k]);
        PairOfConstant(pre, cur, current, c);
        assert cs == Contributions(init, current) + [c];
      } else {
        assert cs == Contributions(init, current);
      }
    }
  }

  /** Dividing `d * c` by a non-zero `d` gives back `c`. */
  lemma Quotient(x: real, d: real, c: real)
    requires d != 0.0 && d * c == x
    ensures x / d == c
  {
  }

  lemma {:induction false} SumOfConstant(xs: seq<real>, c: real)
    requires forall k :: 0 <= k < |xs| ==> xs[k] == c
    ensures Sum(xs) == |xs| as real * c
  {
    if xs != [] {
      SumOfConstant(xs[..|xs| - 1], c);
    }
  }

  lemma CapacitanceOfConstant(cycles: seq<Cycle>, current: real, c: real)
    requires NoFlatPair(Discharges(cycles)) && ConstantCapacitance(Discharges(cycles), current, c)
    requires |Contributions(Discharges(cycles), current)| > 0
    ensures Capacitance(cycles, current) == c
  {
    var cs := Contributions(Discharges(cycles), current);
    ContributionsOfConstant(Discharges(cycles), current, c);
    SumOfConstant(cs, c);
  }

  lemma {:induction false} SumBounds(xs: seq<real>, lo: real, hi: real)
    requires forall k :: 0 <= k < |xs| ==> lo < xs[k] < hi
    ensures xs != [] ==> |xs| as real * lo < Sum(xs) < |xs| as real * hi
  {
    if xs != [] {
      var init, last := xs[..|xs| - 1], xs[|xs| - 1];
      assert Sum(xs) == Sum(init) + last;
      assert lo < last < hi;
      if init == [] {
        assert Sum(init) == 0.0 && Sum(xs) == last;
        assert |xs| == 1 && |xs| as real * lo == lo && |xs| as real * hi == hi;
      } else {
        assert forall k :: 0 <= k < |init| ==> init[k] == xs[k];
        SumBounds(init, lo, hi);
        var n := |init| as real;
        assert |xs| as real == n + 1.0;
        assert (n + 1.0) * lo == n * lo + lo && (n + 1.0) * hi == n * hi + hi;
      }
    }
  }

  /** The mean of estimates that all lie in a band lies in it. */
  lemma MeanWithin(xs: seq<real>, lo: real, hi: real)
    requires xs != [] && forall k :: 0 <= k < |xs| ==> lo < xs[k] < hi
    ensures lo < Mean(xs) < hi
  {
    SumBounds(xs, lo, hi);
    var n := |xs| as real;
    assert Mean(xs) * n == Sum(xs);
  }

  /** No in-band pair: the estimate is 0. */
  lemma NoPairIsZero(cycles: seq<Cycle>, current: real)
    requires NoFlatPair(Discharges(cycles)) && |Contributions(Discharges(cycles), current)| == 0
    ensures Capacitance(cycles, current) == 0.0
  {
  }

  /** A gated DUT's capacitance is what its samples estimate; the DUT fails
      when it is not strictly inside the item's band. */
  function CapacitanceStep(d: Dut, current: real): (r: Dut)
    requires IdleGate(d.config.capacitor, d.status) ==> NoFlatPair(Discharges(d.cycles))
    ensures !IdleGate(d.config.capacitor, d.status) ==> r == d
    ensures IdleGate(d.config.capacitor, d.status) ==>
      r.capacitanceMeasured == Capacitance(d.cycles, current) &&
      (r.status == Idle <==> d.config.capacitor.min < Capacitance(d.cycles, current) < d.config.capacitor.max) &&
      (r.status != Idle ==> r.errormessage == CAP_MSG)
    ensures r.(status := d.status, errormessage := d.errormessage, capacitanceMeasured := d.capacitanceMeasured) == d
  {
    var item := d.config.capacitor;
    if !IdleGate(item, d.status) then d
    else
      var measured := d.(capacitanceMeasured := Capacitance(d.cycles, current));
      if !(item.min < measured.capacitanceMeasured < item.max) then Failed(measured, CAP_MSG) else measured
  }

  /** The requirement the division of `calculate_capacitance` puts on the
      DUTs it examines. */
  predicate CapacitanceDefined(duts: Slots) {
    forall i :: 0 <= i < |duts| && duts[i].Some? && IdleGate(duts[i].value.config.capacitor, duts[i].value.status) ==>
      NoFlatPair(Discharges(duts[i].value.cycles))
  }

  /** `calculate_capacitance`, with the discharge current the channel last
      set. */
  function CapacitancePhase(duts: Slots, current: real): (r: Slots)
    requires CapacitanceDefined(duts)
    ensures OnlyIdleToFail(duts, r)
  {
    seq(|duts|, i requires 0 <= i < |duts| && CapacitanceDefined(duts) =>
      if duts[i].None? then None else Some(CapacitanceStep(duts[i].value, current)))
  }

  // ---------------------------------------------------------------------------
  // program_dut and check_crc

  /** `check_crc` on a DUT: each mismatch fails it, the second message
      overwriting the first. */
  function CrcStep(d: Dut): (r: Dut)
    ensures r.status == (if Crc.Crc1Ok(d.eeprom) && Crc.Crc2Ok(d.eeprom) then d.status else Fail)
    ensures !Crc.Crc2Ok(d.eeprom) ==> r.errormessage == CRC2_MSG
    ensures Crc.Crc2Ok(d.eeprom) && !Crc.Crc1Ok(d.eeprom) ==> r.errormessage == CRC1_MSG
    ensures r.(status := d.status, errormessage := d.errormessage) == d
  {
    var d1 := if Crc.Crc1Ok(d.eeprom) then d else Failed(d, CRC1_MSG);
    if Crc.Crc2Ok(d1.eeprom) then d1 else Failed(d1, CRC2_MSG)
  }

  /** One slot of `program_dut`: gate, `write_vpd` (an AssertionError fails
      the DUT and is caught; an unknown slot or an adapter fault raises out
      of the phase), then `check_crc` on what the EEPROM now holds. The
      flag is set when the phase raises. */
  function ProgramStep(d: Dut): (r: (Dut, bool))
    requires Barcode.WellFormed(d.fields)
    ensures !Gate(d.config.programVpd, d.status, Idle) ==> r == (d, false)
    ensures r.0.status in {d.status, Fail}
    ensures r.0.(status := d.status, errormessage := d.errormessage, eeprom := d.eeprom, programVpd := d.programVpd) == d
  {
    var item := d.config.programVpd;
    if !Gate(item, d.status, Idle) then (d, false)
    else
      Vpd.WellFormedIsProgrammable(d.fields);
      var (mem, outcome) := Vpd.WriteSpec(d.eeprom, item.file, d.fields, item.pgemId, d.slot);
      match outcome
      case UnknownSlot => (d, true)
      case AdapterFault => (d.(eeprom := mem), true)
      case ReadbackMismatch => (CrcStep(Failed(d.(eeprom := mem), PROGRAM_MSG)), false)
      case Written => (CrcStep(d.(eeprom := mem, programVpd := 1)), false)
  }

  /** An `Idle` DUT with a template that covers every identity field, fills
      the EEPROM and carries valid checksums is programmed and stays
      `Idle`; its checksums survive the identity bytes. */
  lemma ProgramPasses(d: Dut)
    requires Barcode.WellFormed(d.fields) && d.status == Idle && d.config.programVpd.enable
    requires |d.config.programVpd.file| == Vpd.EEPROM_SIZE
    requires d.config.programVpd.pgemId != 0 ==> d.slot < 4
    requires Crc.Crc1Ok(Vpd.Burn(d.eeprom, d.config.programVpd.file)) && Crc.Crc2Ok(Vpd.Burn(d.eeprom, d.config.programVpd.file))
    ensures !ProgramStep(d).1 && ProgramStep(d).0.status == Idle && ProgramStep(d).0.programVpd == 1
  {
    var item := d.config.programVpd;
    Vpd.WellFormedIsProgrammable(d.fields);
    Vpd.WriteSucceeds(d.eeprom, item.file, d.fields, item.pgemId, d.slot);
    Crc.PatchKeepsCrc(d.eeprom, item.file, d.fields, item.pgemId, d.slot);
  }

  /** `program_dut` from slot `i` on: slots in order until one raises. */
  function ProgramFrom(duts: Slots, i: nat): (r: (Slots, bool))
    requires WellPlaced(duts)
    ensures WellPlaced(r.0) && |r.0| == |duts|
    ensures forall j :: 0 <= j < i && j < |duts| ==> r.0[j] == duts[j]
    decreases |duts| - i
  {
    if i >= |duts| then (duts, false)
    else if duts[i].None? then ProgramFrom(duts, i + 1)
    else
      var (d, raised) := ProgramStep(duts[i].value);
      if raised then (duts[i := Some(d)], true)
      else ProgramFrom(duts[i := Some(d)], i + 1)
  }

  /** Programming one slot only fails it, if anything. */
  lemma ProgramSlotOnlyFails(duts: Slots, i: nat)
    requires WellPlaced(duts) && i < |duts| && duts[i].Some?
    ensures WellPlaced(duts[i := Some(ProgramStep(duts[i].value).0)])
    ensures OnlyFails(duts, duts[i := Some(ProgramStep(duts[i].value).0)])
  {
  }

  /** `program_dut` never empties or fills a slot and only fails DUTs, up
      to the slot that raises, if any. */
  lemma {:induction false} ProgramFromOnlyFails(duts: Slots, i: nat)
    requires WellPlaced(duts)
    ensures OnlyFails(duts, ProgramFrom(duts, i).0)
    decreases |duts| - i
  {
    if i < |duts| {
      if duts[i].None? {
        ProgramFromOnlyFails(duts, i + 1);
      } else {
        var d := ProgramStep(duts[i].value).0;
        ProgramSlotOnlyFails(duts, i);
        if !ProgramStep(duts[i].value).1 {
          ProgramFromOnlyFails(duts[i := Some(d)], i + 1);
          OnlyFailsTrans(duts, duts[i := Some(d)], ProgramFrom(duts[i := Some(d)], i + 1).0);
        }
      }
    }
  }

  /** `program_dut`. */
  function ProgramPhase(duts: Slots): (r: (Slots, bool))
    requires WellPlaced(duts)
    ensures WellPlaced(r.0)
  {
    ProgramFrom(duts, 0)
  }
}

=== FILE: polling.dfy ===
/** The polling loops of `charge_dut` and `discharge_dut`. Both arm the
    DUTs their gate admits, then sample every admitted DUT in slot order,
    round after round, until a round in which every sampled DUT has
    settled: its time ran out, or its voltage crossed the threshold (too
    early, or in time). The samples are supplied as a finite trace, read
    one per sampled DUT. */
module Polling {
  import opened Common
  import opened Duts

  datatype PollKind = ChargePoll | DischargePoll

  /** The test item that drives the loop ("Charge" or "Discharge"). */
  function Item(k: PollKind, d: Dut): TestItem {
    if k == ChargePoll then d.config.charge else d.config.discharge
  }

  /** The status an armed DUT has while it is polled. */
  function Active(k: PollKind): Status {
    if k == ChargePoll then Charging else Discharging
  }

  /** The `state` tag of the recorded cycles. */
  function Tag(k: PollKind): string {
    if k == ChargePoll then "charge" else "discharge"
  }

  function TooLongMsg(k: PollKind): string {
    if k == ChargePoll then "Charge Time Too Long." else "Discharge Time Too Long."
  }

  function TooShortMsg(k: PollKind): string {
    if k == ChargePoll then "Charge Time Too Short." else "Discharge Time Too Short."
  }

  /** What one sampled DUT reads: the supply voltage, the temperature
      (`None` when the sensor read raised, recorded as 0), the time and the
      capacitor voltage. */
  datatype Sample = Sample(vin: real, temp: Option<real>, time: real, vcap: real)

  /** A DUT is sampled when its item is enabled and, with `stoponfail`,
      it is still being charged or discharged. */
  predicate Sampled(k: PollKind, od: Option<Dut>) {
    od.Some? && Gate(Item(k, od.value), od.value.status, Active(k))
  }

  // ---------------------------------------------------------------------------
  // One sample

  datatype Outcome = TooLong | TooShort | Reached | Pending

  /** Charging ends above the threshold, discharging below it. */
  predicate Crossed(k: PollKind, vcap: real, threshold: real) {
    if k == ChargePoll then vcap > threshold else vcap < threshold
  }

  /** The verdict on one sample, `elapsed` after the loop started. */
  function OutcomeOf(k: PollKind, item: TestItem, elapsed: real, vcap: real): Outcome {
    if elapsed > item.max then TooLong
    else if Crossed(k, vcap, item.threshold) then (if elapsed < item.min then TooShort else Reached)
    else Pending
  }

  /** Each verdict, exactly when its condition holds: too long past the
      maximum time, otherwise too short or in time once the threshold is
      crossed, otherwise still pending. */
  lemma OutcomeCases(k: PollKind, item: TestItem, elapsed: real, vcap: real)
    ensures var o := OutcomeOf(k, item, elapsed, vcap);
      && (o == TooLong <==> elapsed > item.max)
      && (o == TooShort <==> elapsed <= item.max && Crossed(k, vcap, item.threshold) && elapsed < item.min)
      && (o == Reached <==> elapsed <= item.max && Crossed(k, vcap, item.threshold) && elapsed >= item.min)
      && (o == Pending <==> elapsed <= item.max && !Crossed(k, vcap, item.threshold))
  {
  }

  /** The cycle recorded for a sample. */
  function Record(k: PollKind, s: Sample, counter: int): Cycle {
    Cycle(s.vin, s.vcap, if s.temp.Some? then s.temp.value else 0.0, counter, s.time, Tag(k))
  }

  /** The effect of one sample on its DUT: the elapsed time is stored, the
      verdict applied (a charge that takes too long also keeps the last
      voltage in `self_capacitance_measured`), and the cycle appended. */
  function PollDut(k: PollKind, d: Dut, s: Sample, counter: int, start: real): Dut {
    var elapsed := s.time - start;
    var timed := if k == ChargePoll then d.(chargeTime := elapsed) else d.(dischargeTime := elapsed);
    var judged := match OutcomeOf(k, Item(k, d), elapsed, s.vcap)
      case TooLong => Failed(if k == ChargePoll then timed.(selfCapacitanceMeasured := s.vcap) else timed, TooLongMsg(k))
      case TooShort => Failed(timed, TooShortMsg(k))
      case Reached => timed.(status := Idle)
      case Pending => timed;
    judged.(cycles := judged.cycles + [Record(k, s, counter)])
  }

  /** A sample appends exactly one cycle, with the given counter and the
      loop's tag, and ends in exactly one of three ways. */
  lemma PollDutEffect(k: PollKind, d: Dut, s: Sample, counter: int, start: real)
    ensures var r := PollDut(k, d, s, counter, start);
      var item := Item(k, d);
      var elapsed := s.time - start;
      r.cycles == d.cycles + [Record(k, s, counter)] &&
      r.cycles[|r.cycles| - 1].counter == counter && r.cycles[|r.cycles| - 1].state == Tag(k) &&
      (elapsed > item.max ==> r.status == Fail && r.errormessage == TooLongMsg(k)) &&
      (elapsed <= item.max && Crossed(k, s.vcap, item.threshold) ==>
        if elapsed < item.min then r.status == Fail && r.errormessage == TooShortMsg(k)
        else r.status == Idle && r.errormessage == d.errormessage) &&
      (elapsed <= item.max && !Crossed(k, s.vcap, item.threshold) ==>
        r.status == d.status && r.errormessage == d.errormessage) &&
      r.slot == d.slot && r.fields == d.fields && r.config == d.config && r.eeprom == d.eeprom
  {
  }

  /** A settled DUT is `Idle` or `Fail`, so with `stoponfail` it is not
      sampled again. */
  lemma SettledNotResampled(k: PollKind, d: Dut, s: Sample, counter: int, start: real)
    requires OutcomeOf(k, Item(k, d), s.time - start, s.vcap) != Pending
    ensures PollDut(k, d, s, counter, start).status in {Idle, Fail}
    ensures Item(k, d).stopOnFail ==> !Sampled(k, Some(PollDut(k, d, s, counter, start)))
  {
  }

  // ---------------------------------------------------------------------------
  // One round over the slots

  /** The channel state the loops change: the slots, the sample counter,
      and the DC-load channels whose input is on. */
  datatype PollState = PollState(duts: Slots, counter: int, loadOn: set<nat>)

  /** A sample settles its DUT: its time ran out or its voltage crossed
      the threshold. */
  predicate Settles(k: PollKind, d: Dut, s: Sample, start: real) {
    OutcomeOf(k, Item(k, d), s.time - start, s.vcap) != Pending
  }

  /** The visit of the sampled slot `i` with the sample `s`: the DUT is
      judged and its cycle recorded, the counter advances, and a DUT that
      settles while discharging has its load input switched off. */
  function Visit(k: PollKind, st: PollState, i: nat, s: Sample, start: real): (r: PollState)
    requires i < |st.duts| && st.duts[i].Some?
    ensures |r.duts| == |st.duts| && r.counter == st.counter + 1
    ensures r.loadOn <= st.loadOn && (k == ChargePoll ==> r.loadOn == st.loadOn)
  {
    var d := st.duts[i].value;
    PollState(st.duts[i := Some(PollDut(k, d, s, st.counter, start))], st.counter + 1,
              if k == DischargePoll && Settles(k, d, s, start) then st.loadOn - {d.slot} else st.loadOn)
  }

  /** How a round ends: the state, the position of the next unread sample,
      whether every sampled DUT settled (`all_charged`), and whether the
      trace ran out. */
  datatype RoundEnd = RoundEnd(st: PollState, pos: nat, settled: bool, exhausted: bool)

  /** The slots from `i` on of one round of the `while` loop, reading the
      samples from position `pos`. */
  function RoundFrom(k: PollKind, st: PollState, i: nat, samples: seq<Sample>, pos: nat, start: real, settled: bool): (r: RoundEnd)
    requires pos <= |samples|
    ensures |r.st.duts| == |st.duts|
    ensures pos <= r.pos <= |samples|
    ensures r.st.counter == st.counter + (r.pos - pos)
    ensures r.st.loadOn <= st.loadOn && (k == ChargePoll ==> r.st.loadOn == st.loadOn)
    ensures !r.exhausted && r.settled ==> settled
    ensures !r.exhausted && !r.settled ==> !settled || pos < r.pos
    decreases |st.duts| - i
  {
    if i >= |st.duts| then RoundEnd(st, pos, settled, false)
    else if !Sampled(k, st.duts[i]) then RoundFrom(k, st, i + 1, samples, pos, start, settled)
    else if pos == |samples| then RoundEnd(st, pos, settled, true)
    else RoundFrom(k, Visit(k, st, i, samples[pos], start), i + 1, samples, pos + 1, start,
                   settled && Settles(k, st.duts[i].value, samples[pos], start))
  }

  /** The number of sampled slots among `ds[i..j]`. */
  function CountSampled(k: PollKind, ds: Slots, i: nat, j: nat): (n: nat)
    requires i <= j <= |ds|
    ensures n <= j - i
    decreases j - i
  {
    if i == j then 0 else (if Sampled(k, ds[i]) then 1 else 0) + CountSampled(k, ds, i + 1, j)
  }

  /** The count depends only on the slots counted. */
  lemma {:induction false} CountSampledFrame(k: PollKind, ds: Slots, es: Slots, i: nat, j: nat)
    requires i <= j <= |ds| && j <= |es|
    requires forall m :: i <= m < j ==> ds[m] == es[m]
    ensures CountSampled(k, ds, i, j) == CountSampled(k, es, i, j)
    decreases j - i
  {
    if i < j {
      CountSampledFrame(k, ds, es, i + 1, j);
    }
  }

  /** Counting further never counts fewer, and counts one more past a
      sampled slot. */
  lemma {:induction false} CountSampledGrows(k: PollKind, ds: Slots, i: nat, j: nat)
    requires i <= j <= |ds|
    ensures CountSampled(k, ds, i, j) <= CountSampled(k, ds, i, |ds|)
    ensures j < |ds| && Sampled(k, ds[j]) ==> CountSampled(k, ds, i, j) < CountSampled(k, ds, i, |ds|)
    decreases j - i
  {
    if i < j {
      CountSampledGrows(k, ds, i + 1, j);
    }
  }

  /** A round that does not run out of samples reads one sample per
      sampled slot. */
  lemma {:induction false} RoundConsumes(k: PollKind, st: PollState, i: nat, samples: seq<Sample>, pos: nat, start: real, settled: bool)
    requires i <= |st.duts| && pos <= |samples|
    requires !RoundFrom(k, st, i, samples, pos, start, settled).exhausted
    ensures RoundFrom(k, st, i, samples, pos, start, settled).pos - pos == CountSampled(k, st.duts, i, |st.duts|)
    decreases |st.duts| - i, 1
  {
    if i < |st.duts| {
      if !Sampled(k, st.duts[i]) {
        assert RoundFrom(k, st, i, samples, pos, start, settled) == RoundFrom(k, st, i + 1, samples, pos, start, settled);
        RoundConsumes(k, st, i + 1, samples, pos, start, settled);
        assert CountSampled(k, st.duts, i, |st.duts|) == CountSampled(k, st.duts, i + 1, |st.duts|);
      } else {
        RoundConsumesVisit(k, st, i, samples, pos, start, settled);
      }
    }
  }

  /** `RoundConsumes` from a sampled slot: it reads one sample, and the
      rest of the round reads one per sampled slot after it. */
  lemma {:induction false} RoundConsumesVisit(k: PollKind, st: PollState, i: nat, samples: seq<Sample>, pos: nat, start: real, settled: bool)
    requires i < |st.duts| && pos <= |samples| && Sampled(k, st.duts[i])
    requires !RoundFrom(k, st, i, samples, pos, start, settled).exhausted
    ensures RoundFrom(k, st, i, samples, pos, start, settled).pos - pos == CountSampled(k, st.duts, i, |st.duts|)
    decreases |st.duts| - i, 0
  {
    assert pos < |samples|;
    var st' := Visit(k, st, i, samples[pos], start);
    var settled' := settled && Settles(k, st.duts[i].value, samples[pos], start);
    assert RoundFrom(k, st, i, samples, pos, start, settled) == RoundFrom(k, st', i + 1, samples, pos + 1, start, settled');
    RoundConsumes(k, st', i + 1, samples, pos + 1, start, settled');
    CountSampledFrame(k, st'.duts, st.duts, i + 1, |st.duts|);
    assert CountSampled(k, st.duts, i, |st.duts|) == 1 + CountSampled(k, st.duts, i + 1, |st.duts|);
  }

  /** A slot the round does not sample, or one before `i`, is untouched,
      whether or not the trace runs out. */
  lemma {:induction false} RoundKeepsUnsampled(k: PollKind, st: PollState, i: nat, samples: seq<Sample>, pos: nat, start: real, settled: bool, j: nat)
    requires pos <= |samples|
    requires j < |st.duts| && (j < i || !Sampled(k, st.duts[j]))
    ensures RoundFrom(k, st, i, samples, pos, start, settled).st.duts[j] == st.duts[j]
    decreases |st.duts| - i, 1
  {
    if i < |st.duts| && Sampled(k, st.duts[i]) && pos < |samples| {
      RoundKeepsVisited(k, st, i, samples, pos, start, settled, j);
    } else if i < |st.duts| && !Sampled(k, st.duts[i]) {
      assert RoundFrom(k, st, i, samples, pos, start, settled) == RoundFrom(k, st, i + 1, samples, pos, start, settled);
      RoundKeepsUnsampled(k, st, i + 1, samples, pos, start, settled, j);
    }
  }

  /** `RoundKeepsUnsampled` when slot `i` is visited: the visit changes
      slot `i` only. */
  lemma {:induction false} RoundKeepsVisited(k: PollKind, st: PollState, i: nat, samples: seq<Sample>, pos: nat, start: real, settled: bool, j: nat)
    requires i < |st.duts| && Sampled(k, st.duts[i]) && pos < |samples|
    requires j < |st.duts| && (j < i || !Sampled(k, st.duts[j]))
    ensures RoundFrom(k, st, i, samples, pos, start, settled).st.duts[j] == st.duts[j]
    decreases |st.duts| - i, 0
  {
    var st' := Visit(k, st, i, samples[pos], start);
    var settled' := settled && Settles(k, st.duts[i].value, samples[pos], start);
    assert st'.duts[j] == st.duts[j];
    assert RoundFrom(k, st, i, samples, pos, start, settled) == RoundFrom(k, st', i + 1, samples, pos + 1, start, settled');
    RoundKeepsUnsampled(k, st', i + 1, samples, pos + 1, start, settled', j);
  }

  /** What a round leaves in slot `j` when it reaches the slot with the
      sample at `idx` and the counter at `counter`: the slot judged with
      that sample and counter, or the slot untouched. */
  function SlotAfter(k: PollKind, od: Option<Dut>, samples: seq<Sample>, idx: nat, counter: int, start: real): Option<Dut> {
    if Sampled(k, od) && idx < |samples| then Some(PollDut(k, od.value, samples[idx], counter, start)) else od
  }

  /** In a round that does not run out of samples, the sampled slots take
      consecutive samples and consecutive counters, in slot order: slot `j`
      is judged with the sample and the counter that follow those of the
      `n` sampled slots before it. */
  lemma {:induction false} RoundSlot(k: PollKind, st: PollState, i: nat, samples: seq<Sample>, pos: nat, start: real, settled: bool, j: nat)
    requires i <= j < |st.duts| && pos <= |samples|
    requires !RoundFrom(k, st, i, samples, pos, start, settled).exhausted
    ensures var n := CountSampled(k, st.duts, i, j);
      RoundFrom(k, st, i, samples, pos, start, settled).st.duts[j] ==
        SlotAfter(k, st.duts[j], samples, pos + n, st.counter + n, start)
    decreases j - i, 1
  {
    if Sampled(k, st.duts[i]) {
      if i == j {
        RoundSlotHere(k, st, i, samples, pos, start, settled);
      } else {
        RoundSlotLater(k, st, i, samples, pos, start, settled, j);
      }
    } else if i == j {
      RoundSlotKept(k, st, i, samples, pos, start, settled);
    } else {
      RoundSlotSkip(k, st, i, samples, pos, start, settled, j);
    }
  }

  /** `RoundSlot` for a slot `i` the round does not sample: it is left as
      it is. */
  lemma RoundSlotKept(k: PollKind, st: PollState, i: nat, samples: seq<Sample>, pos: nat, start: real, settled: bool)
    requires i < |st.duts| && pos <= |samples| && !Sampled(k, st.duts[i])
    ensures var n := CountSampled(k, st.duts, i, i);
      RoundFrom(k, st, i, samples, pos, start, settled).st.duts[i] ==
        SlotAfter(k, st.duts[i], samples, pos + n, st.counter + n, start)
  {
    RoundKeepsUnsampled(k, st, i, samples, pos, start, settled, i);
  }

  /** `RoundSlot` past a slot `i` the round does not sample: the rest of
      the round starts at the same sample and count. */
  lemma {:induction false} RoundSlotSkip(k: PollKind, st: PollState, i: nat, samples: seq<Sample>, pos: nat, start: real, settled: bool, j: nat)
    requires i < j < |st.duts| && pos <= |samples| && !Sampled(k, st.duts[i])
    requires !RoundFrom(k, st, i, samples, pos, start, settled).exhausted
    ensures var n := CountSampled(k, st.duts, i, j);
      RoundFrom(k, st, i, samples, pos, start, settled).st.duts[j] ==
        SlotAfter(k, st.duts[j], samples, pos + n, st.counter + n, start)
    decreases j - i, 0
  {
    assert RoundFrom(k, st, i, samples, pos, start, settled).st.duts[j] ==
           RoundFrom(k, st, i + 1, samples, pos, start, settled).st.duts[j] by {
      assert RoundFrom(k, st, i, samples, pos, start, settled) == RoundFrom(k, st, i + 1, samples, pos, start, settled);
    }
    assert CountSampled(k, st.duts, i, j) == CountSampled(k, st.duts, i + 1, j);
    RoundSlot(k, st, i + 1, samples, pos, start, settled, j);
  }

  /** `RoundSlot` for the sampled slot `i` itself: it takes the sample at
      `pos` and the counter as it is, and the rest of the round leaves it. */
  lemma RoundSlotHere(k: PollKind, st: PollState, i: nat, samples: seq<Sample>, pos: nat, start: real, settled: bool)
    requires i < |st.duts| && pos <= |samples| && Sampled(k, st.duts[i])
    requires !RoundFrom(k, st, i, samples, pos, start, settled).exhausted
    ensures RoundFrom(k, st, i, samples, pos, start, settled).st.duts[i] ==
      SlotAfter(k, st.duts[i], samples, pos, st.counter, start)
  {
    assert pos < |samples|;
    var st' := Visit(k, st, i, samples[pos], start);
    var settled' := settled && Settles(k, st.duts[i].value, samples[pos], start);
    assert RoundFrom(k, st, i, samples, pos, start, settled) == RoundFrom(k, st', i + 1, samples, pos + 1, start, settled');
    RoundKeepsUnsampled(k, st', i + 1, samples, pos + 1, start, settled', i);
  }

  /** `RoundSlot` for a slot `j` after the sampled slot `i`: the rest of
      the round starts one sample and one count later. */
  lemma {:induction false} RoundSlotLater(k: PollKind, st: PollState, i: nat, samples: seq<Sample>, pos: nat, start: real, settled: bool, j: nat)
    requires i < j < |st.duts| && pos <= |samples| && Sampled(k, st.duts[i])
    requires !RoundFrom(k, st, i, samples, pos, start, settled).exhausted
    ensures var n := CountSampled(k, st.duts, i, j);
      RoundFrom(k, st, i, samples, pos, start, settled).st.duts[j] ==
        SlotAfter(k, st.duts[j], samples, pos + n, st.counter + n, start)
    decreases j - i, 0
  {
    assert pos < |samples|;
    var st' := Visit(k, st, i, samples[pos], start);
    var settled' := settled && Settles(k, st.duts[i].value, samples[pos], start);
    assert RoundFrom(k, st, i, samples, pos, start, settled) == RoundFrom(k, st', i + 1, samples, pos + 1, start, settled');
    RoundSlot(k, st', i + 1, samples, pos + 1, start, settled', j);
    VisitCount(k, st, i, samples[pos], start, j);
    assert st'.duts[j] == st.duts[j];
  }

  /** After the visit of the sampled slot `i`, the slots up to `j` hold one
      sampled slot fewer. */
  lemma VisitCount(k: PollKind, st: PollState, i: nat, s: Sample, start: real, j: nat)
    requires i < j <= |st.duts| && Sampled(k, st.duts[i])
    ensures CountSampled(k, Visit(k, st, i, s, start).duts, i + 1, j) + 1 == CountSampled(k, st.duts, i, j)
  {
    var st' := Visit(k, st, i, s, start);
    CountSampledFrame(k, st'.duts, st.duts, i + 1, j);
  }

  /** In a round that ends with every DUT settled, each DUT it sampled is
      left `Idle` or `Fail`; while discharging, its load input is off. */
  lemma {:induction false} RoundSettled(k: PollKind, st: PollState, i: nat, samples: seq<Sample>, pos: nat, start: real, settled: bool, j: nat)
    requires i <= j < |st.duts| && pos <= |samples| && Sampled(k, st.duts[j])
    requires var r := RoundFrom(k, st, i, samples, pos, start, settled); !r.exhausted && r.settled
    ensures var r := RoundFrom(k, st, i, samples, pos, start, settled);
      r.st.duts[j].Some? && r.st.duts[j].value.status in {Idle, Fail} &&
      (k == DischargePoll ==> st.duts[j].value.slot !in r.st.loadOn)
    decreases |st.duts| - i, 1
  {
    if !Sampled(k, st.duts[i]) {
      assert RoundFrom(k, st, i, samples, pos, start, settled) == RoundFrom(k, st, i + 1, samples, pos, start, settled);
      RoundSettled(k, st, i + 1, samples, pos, start, settled, j);
    } else if j == i {
      RoundSettledHere(k, st, i, samples, pos, start, settled);
    } else {
      RoundSettledLater(k, st, i, samples, pos, start, settled, j);
    }
  }

  /** `RoundSettled` for the slot `i` the round samples first: its own
      sample settled it. */
  lemma RoundSettledHere(k: PollKind, st: PollState, i: nat, samples: seq<Sample>, pos: nat, start: real, settled: bool)
    requires i < |st.duts| && pos <= |samples| && Sampled(k, st.duts[i])
    requires var r := RoundFrom(k, st, i, samples, pos, start, settled); !r.exhausted && r.settled
    ensures var r := RoundFrom(k, st, i, samples, pos, start, settled);
      r.st.duts[i].Some? && r.st.duts[i].value.status in {Idle, Fail} &&
      (k == DischargePoll ==> st.duts[i].value.slot !in r.st.loadOn)
  {
    assert pos < |samples|;
    var d := st.duts[i].value;
    var st' := Visit(k, st, i, samples[pos], start);
    var settled' := settled && Settles(k, d, samples[pos], start);
    assert RoundFrom(k, st, i, samples, pos, start, settled) == RoundFrom(k, st', i + 1, samples, pos + 1, start, settled');
    RoundKeepsUnsampled(k, st', i + 1, samples, pos + 1, start, settled', i);
    SettledNotResampled(k, d, samples[pos], st.counter, start);
  }

  /** `RoundSettled` for a slot `j` after the sampled slot `i`. */
  lemma {:induction false} RoundSettledLater(k: PollKind, st: PollState, i: nat, samples: seq<Sample>, pos: nat, start: real, settled: bool, j: nat)
    requires i < j < |st.duts| && pos <= |samples| && Sampled(k, st.duts[i]) && Sampled(k, st.duts[j])
    requires var r := RoundFrom(k, st, i, samples, pos, start, settled); !r.exhausted && r.settled
    ensures var r := RoundFrom(k, st, i, samples, pos, start, settled);
      r.st.duts[j].Some? && r.st.duts[j].value.status in {Idle, Fail} &&
      (k == DischargePoll ==> st.duts[j].value.slot !in r.st.loadOn)
    decreases |st.duts| - i, 0
  {
    assert pos < |samples|;
    var st' := Visit(k, st, i, samples[pos], start);
    var settled' := settled && Settles(k, st.duts[i].value, samples[pos], start);
    assert RoundFrom(k, st, i, samples, pos, start, settled) == RoundFrom(k, st', i + 1, samples, pos + 1, start, settled');
    assert st'.duts[j] == st.duts[j];
    RoundSettled(k, st', i + 1, samples, pos + 1, start, settled', j);
  }

  // ---------------------------------------------------------------------------
  // The whole loop

  /** How the loop ends: the state, the position of the next unread
      sample, and whether the trace ran out before every DUT settled. */
  datatype PollEnd = PollEnd(st: PollState, pos: nat, exhausted: bool)

  /** The `while (not all_charged)` loop: rounds until one in which every
      sampled DUT settled (a round that samples nothing also ends it). */
  function Poll(k: PollKind, st: PollState, samples: seq<Sample>, pos: nat, start: real): (r: PollEnd)
    requires pos <= |samples|
    ensures |r.st.duts| == |st.duts|
    ensures pos <= r.pos <= |samples| && r.st.counter == st.counter + (r.pos - pos)
    ensures r.st.loadOn <= st.loadOn && (k == ChargePoll ==> r.st.loadOn == st.loadOn)
    decreases |samples| - pos
  {
    var round := RoundFrom(k, st, 0, samples, pos, start, true);
    if round.exhausted then PollEnd(round.st, round.pos, true)
    else if round.settled then PollEnd(round.st, round.pos, false)
    else Poll(k, round.st, samples, round.pos, start)
  }

  /** A slot the loop does not sample at the start is never touched: an
      empty slot, a DUT whose item is disabled, or with `stoponfail` a DUT
      that is not being charged or discharged. */
  lemma {:induction false} PollKeepsUnsampled(k: PollKind, st: PollState, samples: seq<Sample>, pos: nat, start: real, j: nat)
    requires pos <= |samples|
    requires j < |st.duts| && !Sampled(k, st.duts[j])
    ensures Poll(k, st, samples, pos, start).st.duts[j] == st.duts[j]
    decreases |samples| - pos
  {
    var round := RoundFrom(k, st, 0, samples, pos, start, true);
    RoundKeepsUnsampled(k, st, 0, samples, pos, start, true, j);
    if !round.exhausted && !round.settled {
      PollKeepsUnsampled(k, round.st, samples, round.pos, start, j);
    }
  }

  /** A round keeps every DUT in its slot, with its test items. */
  lemma RoundKeepsItem(k: PollKind, st: PollState, samples: seq<Sample>, pos: nat, start: real, j: nat)
    requires pos <= |samples| && j < |st.duts| && st.duts[j].Some?
    requires !RoundFrom(k, st, 0, samples, pos, start, true).exhausted
    ensures var r := RoundFrom(k, st, 0, samples, pos, start, true);
      r.st.duts[j].Some? && Item(k, r.st.duts[j].value) == Item(k, st.duts[j].value)
  {
    RoundSlot(k, st, 0, samples, pos, start, true, j);
    var n := CountSampled(k, st.duts, 0, j);
    if Sampled(k, st.duts[j]) && pos + n < |samples| {
      PollDutEffect(k, st.duts[j].value, samples[pos + n], st.counter + n, start);
    }
  }

  /** When the loop ends without running out of samples, no DUT whose item
      is enabled is still being charged (or discharged): the ones it kept
      sampling settled in the last round. */
  lemma {:induction false} PollEndsSettled(k: PollKind, st: PollState, samples: seq<Sample>, pos: nat, start: real, j: nat)
    requires pos <= |samples|
    requires j < |st.duts| && st.duts[j].Some? && Item(k, st.duts[j].value).enable
    requires !Poll(k, st, samples, pos, start).exhausted
    ensures Poll(k, st, samples, pos, start).st.duts[j].Some?
    ensures Poll(k, st, samples, pos, start).st.duts[j].value.status != Active(k)
    decreases |samples| - pos
  {
    var round := RoundFrom(k, st, 0, samples, pos, start, true);
    if round.settled {
      if Sampled(k, st.duts[j]) {
        RoundSettled(k, st, 0, samples, pos, start, true, j);
      } else {
        RoundKeepsUnsampled(k, st, 0, samples, pos, start, true, j);
      }
    } else {
      RoundKeepsItem(k, st, samples, pos, start, j);
      PollEndsSettled(k, round.st, samples, round.pos, start, j);
    }
  }

  /** One pass of the `for dut in self.dut_list` loop inside the polling
      loop. */
  method PollRound(k: PollKind, st0: PollState, samples: seq<Sample>, pos0: nat, start: real) returns (r: RoundEnd)
    requires pos0 <= |samples|
    ensures r == RoundFrom(k, st0, 0, samples, pos0, start, true)
  {
    var st := st0;
    var pos: nat := pos0;
    var allSettled := true;
    for i := 0 to |st0.duts|
      invariant |st.duts| == |st0.duts| && pos <= |samples|
      invariant RoundFrom(k, st, i, samples, pos, start, allSettled) == RoundFrom(k, st0, 0, samples, pos0, start, true)
    {
      if Sampled(k, st.duts[i]) {
        if pos == |samples| {
          return RoundEnd(st, pos, allSettled, true);
        }
        var d := st.duts[i].value;
        var s := samples[pos];
        var outcome := OutcomeOf(k, Item(k, d), s.time - start, s.vcap);
        var loadOn := st.loadOn;
        if k == DischargePoll && outcome != Pending {
          loadOn := loadOn - {d.slot};
        }
        st := PollState(st.duts[i := Some(PollDut(k, d, s, st.counter, start))], st.counter + 1, loadOn);
        pos := pos + 1;
        allSettled := allSettled && outcome != Pending;
      }
    }
    r := RoundEnd(st, pos, allSettled, false);
  }

  /** The loop of `charge_dut` and `discharge_dut` as written: the outer
      `while (not all_charged)` around one round at a time. */
  method PollLoop(k: PollKind, st0: PollState, samples: seq<Sample>, start: real) returns (r: PollEnd)
    ensures r == Poll(k, st0, samples, 0, start)
  {
    var st := st0;
    var pos: nat := 0;
    var allSettled := false;
    while !allSettled
      invariant pos <= |samples|
      invariant !allSettled ==> Poll(k, st, samples, pos, start) == Poll(k, st0, samples, 0, start)
      invariant allSettled ==> PollEnd(st, pos, false) == Poll(k, st0, samples, 0, start)
      decreases |samples| - pos + (if allSettled then 0 else 1)
    {
      var round := PollRound(k, st, samples, pos, start);
      if round.exhausted {
        return PollEnd(round.st, round.pos, true);
      }
      st, pos, allSettled := round.st, round.pos, round.settled;
    }
    r := PollEnd(st, pos, false);
  }

  // ---------------------------------------------------------------------------
  // Arming

  /** The arming loop before the polling: a DUT whose gate admits it (with
      `stoponfail`, only an `Idle` one) is set to charging or discharging.
      The charger, auto-discharge and self-discharge writes that go with it
      are the device helpers of their own modules. */
  function ArmSlot(k: PollKind, od: Option<Dut>): (r: Option<Dut>)
    ensures od.None? ==> r.None?
    ensures od.Some? ==> r.Some? && r.value.(status := od.value.status) == od.value
  {
    match od
    case None => None
    case Some(d) => if Gate(Item(k, d), d.status, Idle) then Some(d.(status := Active(k))) else od
  }

  function Arm(k: PollKind, duts: Slots): (r: Slots)
    ensures |r| == |duts|
  {
    seq(|duts|, i requires 0 <= i < |duts| => ArmSlot(k, duts[i]))
  }

  /** The load channels `discharge_dut` switches on while arming: those of
      the slots of the DUTs it arms. */
  function ArmedSlots(duts: Slots): set<nat> {
    set i | 0 <= i < |duts| && duts[i].Some? && Gate(duts[i].value.config.discharge, duts[i].value.status, Idle) :: duts[i].value.slot
  }

  /** `self.current` after arming: the "Current" of the last DUT armed for
      discharge, or the current before when none was. */
  function ArmedCurrent(duts: Slots, current: real): real {
    if duts == [] then current
    else
      var last := duts[|duts| - 1];
      if last.Some? && Gate(last.value.config.discharge, last.value.status, Idle) then last.value.config.discharge.current
      else ArmedCurrent(duts[..|duts| - 1], current)
  }

  /** Arming one more slot: its load channel joins the armed ones and its
      current becomes the channel's when the gate admits it for discharge. */
  lemma ArmStep(duts: Slots, i: nat, current: real)
    requires i < |duts|
    ensures var armed := duts[i].Some? && Gate(duts[i].value.config.discharge, duts[i].value.status, Idle);
      && ArmedSlots(duts[..i + 1]) == ArmedSlots(duts[..i]) + (if armed then {duts[i].value.slot} else {})
      && ArmedCurrent(duts[..i + 1], current) == if armed then duts[i].value.config.discharge.current else ArmedCurrent(duts[..i], current)
  {
    var pre, ext := duts[..i], duts[..i + 1];
    assert ext[..i] == pre;
    assert forall j :: 0 <= j < i ==> ext[j] == pre[j];
  }

  /** An armed DUT is sampled in the first round. */
  lemma ArmedIsSampled(k: PollKind, duts: Slots, i: nat)
    requires i < |duts| && duts[i].Some? && Gate(Item(k, duts[i].value), duts[i].value.status, Idle)
    ensures Sampled(k, Arm(k, duts)[i])
  {
  }
}

=== FILE: sequencer.dfy ===
/** The phase codes of `ChannelStates`, the progress each phase is worth,
    the `auto_test` sequence, and what the `run` loop does with a queue of
    codes. The phase routines are abstract steps here: each one either
    completes or raises, as an oracle says, and leaves the slots as a
    second oracle says; what each routine does to the DUTs is the subject
    of the phase methods of `Channels.Channel`. INIT and EXIT are not
    abstract: INIT appends the slots `init` appended before it returned or
    raised, EXIT gives the verdicts. */
module Sequencer {
  import opened Common
  import opened Duts

  const EXIT: int := -1
  const INIT: int := 0x0A
  const LOAD_DISCHARGE: int := 0x0C
  const CHARGE: int := 0x0E
  const PROGRAM_VPD: int := 0x0F
  const CHECK_CAPACITANCE: int := 0x1A
  const CHECK_ENCRYPTED_IC: int := 0x1B
  const CHECK_TEMP: int := 0x1C
  const DUT_DISCHARGE: int := 0x1D
  const CHECK_POWER_FAIL: int := 0x1E

  /** What `run` adds to `progressbar` when the phase of `code` completes;
      `None` for EXIT and for a code `run` does not know. */
  function Weight(code: int): (w: Option<nat>)
    ensures w.Some? ==> code != EXIT && w.value > 0
  {
    if code == INIT then Some(20)
    else if code == CHARGE then Some(20)
    else if code == LOAD_DISCHARGE then Some(30)
    else if code == PROGRAM_VPD then Some(10)
    else if code == CHECK_ENCRYPTED_IC then Some(5)
    else if code == CHECK_TEMP then Some(5)
    else if code == CHECK_CAPACITANCE then Some(5)
    else if code == DUT_DISCHARGE then Some(10)
    else if code == CHECK_POWER_FAIL then Some(10)
    else None
  }

  /** `run` dispatches `code` to a phase routine. */
  predicate IsPhase(code: int) {
    Weight(code).Some?
  }

  /** The nine codes `run` knows besides EXIT, and nothing else. */
  lemma PhaseCodes(code: int)
    ensures IsPhase(code) <==>
      code in {INIT, LOAD_DISCHARGE, CHARGE, PROGRAM_VPD, CHECK_CAPACITANCE,
               CHECK_ENCRYPTED_IC, CHECK_TEMP, DUT_DISCHARGE, CHECK_POWER_FAIL}
  {
  }

  /** The codes `auto_test` queues, in order; the self-discharge check
      (DUT_DISCHARGE) is not among them. */
  const AUTO_TEST: seq<int> :=
    [INIT, CHARGE, PROGRAM_VPD, CHECK_ENCRYPTED_IC, CHECK_TEMP, CHECK_POWER_FAIL,
     LOAD_DISCHARGE, CHECK_CAPACITANCE, EXIT]

  /** The sum of the weights of the phase codes among `queue[i..j]`. */
  function WeightSum(queue: seq<int>, i: nat, j: nat): (s: nat)
    requires i <= j <= |queue|
    decreases j - i
  {
    if i == j then 0
    else (if IsPhase(queue[i]) then Weight(queue[i]).value else 0) + WeightSum(queue, i + 1, j)
  }

  /** Why the loop stopped: EXIT was handled, an unknown code was read, a
      routine raised (the exception leaves `run` after `error` set the
      flag), or the queue is empty and `queue.get()` waits for more. */
  datatype Stop = Exited | UnknownCode | Raised | Waiting

  /** How the loop ends: the progress, the number of codes taken from the
      queue, and why it stopped. */
  datatype RunEnd = RunEnd(progress: int, taken: nat, stop: Stop)

  /** The codes whose routine completed: all taken codes, except the last
      when that one stopped the loop. */
  function Completed(r: RunEnd): int {
    if r.stop == Waiting then r.taken else r.taken - 1
  }

  /** The `while (not self.exit)` loop of `run`, from position `i` of the
      queue with progress `progress`; `raises[m]` says whether the routine
      of `queue[m]` raises (for EXIT, whether `prepare_to_exit` does). */
  function RunFrom(queue: seq<int>, raises: seq<bool>, i: nat, progress: int): (r: RunEnd)
    requires |raises| == |queue| && i <= |queue|
    ensures i <= r.taken <= |queue|
    decreases |queue| - i
  {
    if i == |queue| then RunEnd(progress, i, Waiting)
    else if queue[i] == EXIT then RunEnd(progress, i + 1, if raises[i] then Raised else Exited)
    else if !IsPhase(queue[i]) then RunEnd(progress, i + 1, UnknownCode)
    else if raises[i] then RunEnd(progress, i + 1, Raised)
    else RunFrom(queue, raises, i + 1, progress + Weight(queue[i]).value)
  }

  /** How the loop can end: every code it completed is a phase whose
      routine did not raise; it waits exactly when it has taken the whole
      queue; otherwise the last code taken is what stopped it. */
  lemma {:induction false} RunEnds(queue: seq<int>, raises: seq<bool>, i: nat, progress: int)
    requires |raises| == |queue| && i <= |queue|
    ensures var r := RunFrom(queue, raises, i, progress);
      && i <= Completed(r) <= r.taken <= |queue|
      && (forall m :: i <= m < Completed(r) ==> IsPhase(queue[m]) && !raises[m])
      && (r.stop == Waiting <==> r.taken == Completed(r) == |queue|)
      && (r.stop == Exited ==> queue[r.taken - 1] == EXIT && !raises[r.taken - 1])
      && (r.stop == UnknownCode ==> queue[r.taken - 1] != EXIT && !IsPhase(queue[r.taken - 1]))
      && (r.stop == Raised ==> raises[r.taken - 1] && (queue[r.taken - 1] == EXIT || IsPhase(queue[r.taken - 1])))
    decreases |queue| - i
  {
    if i < |queue| && queue[i] != EXIT && IsPhase(queue[i]) && !raises[i] {
      RunEnds(queue, raises, i + 1, progress + Weight(queue[i]).value);
    }
  }

  /** Every phase that completes adds its weight: the final progress is the
      progress before plus the weights of the completed codes. */
  lemma {:induction false} RunProgress(queue: seq<int>, raises: seq<bool>, i: nat, progress: int)
    requires |raises| == |queue| && i <= |queue|
    ensures var r := RunFrom(queue, raises, i, progress);
      i <= Completed(r) <= |queue| && r.progress == progress + WeightSum(queue, i, Completed(r))
    decreases |queue| - i
  {
    RunEnds(queue, raises, i, progress);
    if i < |queue| && queue[i] != EXIT && IsPhase(queue[i]) && !raises[i] {
      RunProgress(queue, raises, i + 1, progress + Weight(queue[i]).value);
    }
  }

  /** The loop takes the codes in FIFO order and stops at the first code
      that stops it: the first EXIT, unknown code or raising routine is the
      last code taken, and nothing queued after it is processed. */
  lemma {:induction false} RunStopsAtFirst(queue: seq<int>, raises: seq<bool>, i: nat, progress: int, k: nat)
    requires |raises| == |queue| && i <= k < |queue|
    requires queue[k] == EXIT || !IsPhase(queue[k]) || raises[k]
    requires forall m :: i <= m < k ==> IsPhase(queue[m]) && !raises[m]
    ensures var r := RunFrom(queue, raises, i, progress);
      r.taken == k + 1 && Completed(r) == k &&
      r.stop == (if queue[k] != EXIT && !IsPhase(queue[k]) then UnknownCode
                 else if raises[k] then Raised
                 else Exited)
    decreases k - i
  {
    if i < k {
      RunStopsAtFirst(queue, raises, i + 1, progress + Weight(queue[i]).value, k);
    }
  }

  /** The weights of the `auto_test` phases total 105: the progress bar
      does not stop at 100. */
  lemma AutoTestWeights()
    ensures WeightSum(AUTO_TEST, 0, |AUTO_TEST| - 1) == 105
  {
    var q := AUTO_TEST;
    assert WeightSum(q, 8, 8) == 0;
    assert WeightSum(q, 7, 8) == 5;
    assert WeightSum(q, 6, 8) == 35;
    assert WeightSum(q, 5, 8) == 45;
    assert WeightSum(q, 4, 8) == 50;
    assert WeightSum(q, 3, 8) == 55;
    assert WeightSum(q, 2, 8) == 65;
    assert WeightSum(q, 1, 8) == 85;
  }

  /** `auto_test` with no routine raising: every phase runs once in order,
      EXIT ends the loop, and the progress reaches 105. */
  lemma AutoTestRun(raises: seq<bool>)
    requires |raises| == |AUTO_TEST| && forall m :: 0 <= m < |raises| ==> !raises[m]
    ensures RunFrom(AUTO_TEST, raises, 0, 0) == RunEnd(105, |AUTO_TEST|, Exited)
  {
    RunStopsAtFirst(AUTO_TEST, raises, 0, 0, |AUTO_TEST| - 1);
    RunProgress(AUTO_TEST, raises, 0, 0);
    AutoTestWeights();
  }

  /** What the slots are after `run` handled `code`: EXIT gives the
      verdicts of `prepare_to_exit` (which come before the save that may
      raise), INIT appends the slots `init` appends before it returns or
      raises (none when the supply check raises),
      any other phase routine leaves the slots as `out` says, and an
      unknown code leaves them alone. */
  function SlotsStep(code: int, raises: bool, out: Slots, duts: Slots): Slots {
    if code == EXIT then Verdicts(duts)
    else if code == INIT then duts + out
    else if IsPhase(code) then out
    else duts
  }

  /** The cases of one step on the slots, as the routines promise them:
      INIT keeps the slots it had and appends the new ones after them,
      whether it raises or not. */
  lemma SlotsStepCases(code: int, raises: bool, out: Slots, duts: Slots)
    ensures var r := SlotsStep(code, raises, out, duts);
      && (code == INIT ==> |r| == |duts| + |out| && r[..|duts|] == duts && r[|duts|..] == out)
      && (code == EXIT ==> r == Verdicts(duts))
      && (code != EXIT && !IsPhase(code) ==> r == duts)
  {
  }

  /** The slots after `run` took the first `n` codes of the queue from
      slots `duts`; `outs[m]` is how the routine of `queue[m]` leaves
      them. */
  function SlotsAfter(queue: seq<int>, raises: seq<bool>, outs: seq<Slots>, n: nat, duts: Slots): Slots
    requires |raises| == |queue| && |outs| == |queue| && n <= |queue|
  {
    if n == 0 then duts
    else SlotsStep(queue[n - 1], raises[n - 1], outs[n - 1], SlotsAfter(queue, raises, outs, n - 1, duts))
  }

  /** Whether the supply output is on after `run` handled `code`: `init`
      switches it on (before the range check that may raise), and a
      `prepare_to_exit` whose save does not raise switches it off. */
  function SupplyStep(code: int, raises: bool, on: bool): bool {
    if code == INIT then true
    else if code == EXIT then on && raises
    else on
  }

  /** The cases of one step on the supply output. */
  lemma SupplyStepCases(code: int, raises: bool, on: bool)
    ensures code == INIT ==> SupplyStep(code, raises, on)
    ensures code == EXIT ==> SupplyStep(code, raises, on) == (on && raises)
    ensures code != INIT && code != EXIT ==> SupplyStep(code, raises, on) == on
  {
  }

  /** The supply output after `run` took the first `n` codes. */
  function SupplyAfter(queue: seq<int>, raises: seq<bool>, n: nat, on: bool): bool
    requires |raises| == |queue| && n <= |queue|
  {
    if n == 0 then on
    else SupplyStep(queue[n - 1], raises[n - 1], SupplyAfter(queue, raises, n - 1, on))
  }

  /** A clean `auto_test` run leaves the verdicts of the slots as the last
      phase routine before EXIT (the capacitance check) leaves them, and
      switches the supply off whatever state it was in. */
  lemma AutoTestSlots(raises: seq<bool>, outs: seq<Slots>, duts: Slots, on: bool)
    requires |raises| == |AUTO_TEST| && |outs| == |AUTO_TEST|
    requires forall m :: 0 <= m < |raises| ==> !raises[m]
    ensures SlotsAfter(AUTO_TEST, raises, outs, |AUTO_TEST|, duts) == Verdicts(outs[|AUTO_TEST| - 2])
    ensures !SupplyAfter(AUTO_TEST, raises, |AUTO_TEST|, on)
  {
    assert AUTO_TEST[8] == EXIT && AUTO_TEST[7] == CHECK_CAPACITANCE && IsPhase(CHECK_CAPACITANCE);
  }

  /** INIT appends every time it runs: a second INIT puts a second copy of
      the slots after the first, as `init`'s `append` does. */
  lemma InitTwice(outs: seq<Slots>, duts: Slots)
    requires |outs| == 2
    ensures SlotsAfter([INIT, INIT], [false, false], outs, 2, duts) == duts + outs[0] + outs[1]
  {
    assert SlotsAfter([INIT, INIT], [false, false], outs, 1, duts) == duts + outs[0];
  }

  /** `auto_test` when the routine at position `k` raises: the phases
      before it complete and the loop stops there; nothing queued after it
      is taken. */
  lemma AutoTestRaises(raises: seq<bool>, k: nat)
    requires |raises| == |AUTO_TEST| && k < |AUTO_TEST| && raises[k]
    requires forall m :: 0 <= m < k ==> !raises[m]
    ensures var r := RunFrom(AUTO_TEST, raises, 0, 0);
      r.stop == Raised && r.taken == k + 1 && r.progress == WeightSum(AUTO_TEST, 0, k)
  {
    RunStopsAtFirst(AUTO_TEST, raises, 0, 0, k);
    RunProgress(AUTO_TEST, raises, 0, 0);
  }

  /** Once `quit` has left only EXIT queued, the loop takes it and stops,
      without progress; before INIT the channel has no slots, so none
      passes. */
  lemma RunAfterQuit(raises: seq<bool>, outs: seq<Slots>, progress: int)
    requires |raises| == 1 && |outs| == 1
    ensures var r := RunFrom([EXIT], raises, 0, progress);
      r.taken == 1 && r.progress == progress && r.stop == (if raises[0] then Raised else Exited) &&
      SlotsAfter([EXIT], raises, outs, r.taken, []) == []
  {
  }
}

=== FILE: vpd.dfy ===
/** The vital-product-data EEPROM of a PGEM: the field table EEP_MAP, the
    table query `_query_map`, field decoding (`read_vpd_byname`,
    `read_vpd_byaddress`, `read_vpd`) and the template patcher `write_vpd`. */
module Vpd {
  import opened Common
  import Barcode

  /** The EEPROM at slave address 0x53 holds 256 bytes (addresses 0x00 to 0xFF). */
  const EEPROM_SIZE: nat := 256
  const EEPROM_SLAVE: nat := 0x53

  type Eeprom = s: seq<Byte> | |s| == EEPROM_SIZE witness seq(256, _ => 0)

  datatype FieldType = IntField | WordField | StrField

  /** One row of EEP_MAP. */
  datatype EepRow = EepRow(name: string, addr: nat, length: nat, typ: FieldType)

  const EEP_MAP: seq<EepRow> := [
    EepRow("TEMPHIST", 0x000, 2, IntField),
    EepRow("CAPHIST", 0x021, 32, IntField),
    EepRow("CHARGER", 0x041, 1, IntField),
    EepRow("CAPACITANCE", 0x042, 1, IntField),
    EepRow("CHARGEVOL", 0x043, 2, IntField),
    EepRow("CHGMAXVAL", 0x045, 2, IntField),
    EepRow("POWERDET", 0x047, 1, IntField),
    EepRow("CHARGECUR", 0x048, 2, IntField),
    EepRow("HWVER", 0x04A, 2, StrField),
    EepRow("CAPPN", 0x04C, 16, StrField),
    SN_ROW,
    EepRow("PCBVER", 0x064, 2, StrField),
    MFDATE_ROW,
    ENDUSR_ROW,
    EepRow("PCA", 0x06C, 11, StrField),
    EepRow("INITIALCAP", 0x077, 1, IntField),
    PGEMID_ROW
  ]

  /** The rows that `write_vpd` patches. */
  const SN_ROW: EepRow := EepRow("SN", 0x05C, 8, StrField)
  const MFDATE_ROW: EepRow := EepRow("MFDATE", 0x066, 4, StrField)
  const ENDUSR_ROW: EepRow := EepRow("ENDUSR", 0x06A, 2, StrField)
  const PGEMID_ROW: EepRow := EepRow("PGEMID", 0x0DA, 1, StrField)

  /** One `key=value` argument of `_query_map`. */
  datatype Condition = NameIs(name: string) | AddrIs(addr: nat) | LengthIs(length: nat) | TypeIs(typ: FieldType)

  predicate Holds(row: EepRow, c: Condition) {
    match c
    case NameIs(n) => row.name == n
    case AddrIs(a) => row.addr == a
    case LengthIs(l) => row.length == l
    case TypeIs(t) => row.typ == t
  }

  predicate HoldsAll(row: EepRow, conds: seq<Condition>) {
    forall c :: c in conds ==> Holds(row, c)
  }

  /** `filter(lambda row: row[k] == v, r)`. */
  function FilterBy(rows: seq<EepRow>, c: Condition): (r: seq<EepRow>)
    ensures forall row :: row in r <==> row in rows && Holds(row, c)
  {
    if rows == [] then []
    else (if Holds(rows[0], c) then [rows[0]] else []) + FilterBy(rows[1..], c)
  }

  /** `_query_map`: one filter per condition, applied in turn. */
  function QueryMap(rows: seq<EepRow>, conds: seq<Condition>): seq<EepRow>
    decreases |conds|
  {
    if conds == [] then rows else QueryMap(FilterBy(rows, conds[0]), conds[1..])
  }

  /** Reference definition: the rows that meet every condition, in table order. */
  function Select(rows: seq<EepRow>, conds: seq<Condition>): (r: seq<EepRow>)
    ensures |r| <= |rows|
  {
    if rows == [] then []
    else (if HoldsAll(rows[0], conds) then [rows[0]] else []) + Select(rows[1..], conds)
  }

  lemma {:induction false} SelectFilterBy(rows: seq<EepRow>, c: Condition, cs: seq<Condition>)
    ensures Select(FilterBy(rows, c), cs) == Select(rows, [c] + cs)
  {
    if rows != [] {
      SelectFilterBy(rows[1..], c, cs);
      assert HoldsAll(rows[0], [c] + cs) <==> Holds(rows[0], c) && HoldsAll(rows[0], cs);
      if Holds(rows[0], c) {
        assert FilterBy(rows, c) == [rows[0]] + FilterBy(rows[1..], c);
        assert FilterBy(rows, c)[1..] == FilterBy(rows[1..], c);
      } else {
        assert FilterBy(rows, c) == FilterBy(rows[1..], c);
      }
    }
  }

  lemma SelectNoConditions(rows: seq<EepRow>)
    ensures Select(rows, []) == rows
  {
  }

  /** `_query_map` returns exactly the rows that satisfy every condition,
      in their original order, whatever order the conditions come in. */
  lemma {:induction false} QueryMapIsSelect(rows: seq<EepRow>, conds: seq<Condition>)
    ensures QueryMap(rows, conds) == Select(rows, conds)
    decreases |conds|
  {
    if conds == [] {
      SelectNoConditions(rows);
    } else {
      QueryMapIsSelect(FilterBy(rows, conds[0]), conds[1..]);
      SelectFilterBy(rows, conds[0], conds[1..]);
      assert [conds[0]] + conds[1..] == conds;
    }
  }

  lemma {:induction false} SelectMembers(rows: seq<EepRow>, conds: seq<Condition>)
    ensures forall row :: row in Select(rows, conds) <==> row in rows && HoldsAll(row, conds)
  {
    if rows != [] {
      SelectMembers(rows[1..], conds);
      assert rows == [rows[0]] + rows[1..];
    }
  }

  lemma {:induction false} SelectSameConditions(rows: seq<EepRow>, c1: seq<Condition>, c2: seq<Condition>)
    requires forall c :: c in c1 <==> c in c2
    ensures Select(rows, c1) == Select(rows, c2)
  {
    if rows != [] {
      SelectSameConditions(rows[1..], c1, c2);
      assert HoldsAll(rows[0], c1) == HoldsAll(rows[0], c2);
    }
  }

  /** The keyword arguments of `_query_map` form an unordered dict: any two
      orderings of the same conditions select the same rows. */
  lemma QueryMapOrderIrrelevant(rows: seq<EepRow>, c1: seq<Condition>, c2: seq<Condition>)
    requires forall c :: c in c1 <==> c in c2
    ensures QueryMap(rows, c1) == QueryMap(rows, c2)
  {
    QueryMapIsSelect(rows, c1);
    QueryMapIsSelect(rows, c2);
    SelectSameConditions(rows, c1, c2);
  }

  predicate NamesDistinct(rows: seq<EepRow>) {
    forall i, j :: 0 <= i < j < |rows| ==> rows[i].name != rows[j].name
  }

  lemma {:induction false} SelectUniqueName(rows: seq<EepRow>, k: nat)
    requires k < |rows| && NamesDistinct(rows)
    ensures Select(rows, [NameIs(rows[k].name)]) == [rows[k]]
  {
    var n := rows[k].name;
    assert NameIs(n) in [NameIs(n)];
    if k == 0 {
      assert HoldsAll(rows[0], [NameIs(n)]);
      assert forall j :: 0 <= j < |rows[1..]| ==> rows[1..][j].name != n by {
        forall j | 0 <= j < |rows[1..]| ensures rows[1..][j].name != n {
          assert rows[1..][j] == rows[j + 1];
        }
      }
      SelectNone(rows[1..], n);
    } else {
      assert rows[0].name != n;
      assert !HoldsAll(rows[0], [NameIs(n)]);
      assert NamesDistinct(rows[1..]) by {
        forall i, j | 0 <= i < j < |rows[1..]| ensures rows[1..][i].name != rows[1..][j].name {
          assert rows[1..][i] == rows[i + 1] && rows[1..][j] == rows[j + 1];
        }
      }
      assert rows[1..][k - 1] == rows[k];
      SelectUniqueName(rows[1..], k - 1);
    }
  }

  lemma {:induction false} SelectNone(rows: seq<EepRow>, n: string)
    requires forall j :: 0 <= j < |rows| ==> rows[j].name != n
    ensures Select(rows, [NameIs(n)]) == []
  {
    if rows != [] {
      assert !HoldsAll(rows[0], [NameIs(n)]) by { assert NameIs(n) in [NameIs(n)]; }
      SelectNone(rows[1..], n);
    }
  }

  lemma EepMapNamesDistinct()
    ensures NamesDistinct(EEP_MAP)
  {
  }

  /** Looking a field up by name in EEP_MAP yields exactly its one row. */
  lemma LookupByName(k: nat)
    requires k < |EEP_MAP|
    ensures QueryMap(EEP_MAP, [NameIs(EEP_MAP[k].name)]) == [EEP_MAP[k]]
  {
    EepMapNamesDistinct();
    QueryMapIsSelect(EEP_MAP, [NameIs(EEP_MAP[k].name)]);
    SelectUniqueName(EEP_MAP, k);
  }

  /** Every field of EEP_MAP lies inside the EEPROM. */
  lemma EepMapFits()
    ensures forall k :: 0 <= k < |EEP_MAP| ==> EEP_MAP[k].addr + EEP_MAP[k].length <= EEPROM_SIZE
  {
  }

  // ---------------------------------------------------------------------------
  // Little-endian decoding of "int" and "word" fields

  function Pow256(n: nat): (p: nat)
    ensures p >= 1
  {
    if n == 0 then 1 else 256 * Pow256(n - 1)
  }

  /** The value of `sum(datas[i] << 8*i)`. */
  function LeValue(datas: seq<Byte>): nat
  {
    if datas == [] then 0
    else LeValue(datas[..|datas| - 1]) + (datas[|datas| - 1] as nat) * Pow256(|datas| - 1)
  }

  /** The little-endian bytes of `v`, `n` of them (the inverse of LeValue). */
  function LeBytes(v: nat, n: nat): (r: seq<Byte>)
    ensures |r| == n
  {
    if n == 0 then [] else [(v % 256) as Byte] + LeBytes(v / 256, n - 1)
  }

  /** Peeling the last byte off a field: the definition of LeValue. */
  lemma LeValueLast(s: seq<Byte>)
    requires s != []
    ensures LeValue(s) == LeValue(s[..|s| - 1]) + (s[|s| - 1] as nat) * Pow256(|s| - 1)
  {
  }

  lemma {:induction false} LeValueCons(b: Byte, t: seq<Byte>)
    ensures LeValue([b] + t) == b as nat + 256 * LeValue(t)
  {
    if t == [] {
      assert [b] + t == [b];
      assert [b][..0] == [];
    } else {
      var s := [b] + t;
      var t' := t[..|t| - 1];
      var y := t[|t| - 1] as nat;
      var p := Pow256(|t| - 1);
      assert s[..|s| - 1] == [b] + t';
      assert s[|s| - 1] as nat == y;
      assert Pow256(|t|) == 256 * p;
      LeValueLast(s);
      LeValueLast(t);
      LeValueCons(b, t');
      ConsArith(b as nat, LeValue(t'), y, p, LeValue([b] + t'), LeValue(t), LeValue(s));
    }
  }

  lemma ConsArith(b: int, x: int, y: int, p: int, l: int, lt: int, ls: int)
    requires l == b + 256 * x
    requires lt == x + y * p
    requires ls == l + y * (256 * p)
    ensures ls == b + 256 * lt
  {
    assert y * (256 * p) == 256 * (y * p);
  }

  /** A decoded field of `n` bytes is below 256^n. */
  lemma {:induction false} LeValueBound(datas: seq<Byte>)
    ensures LeValue(datas) < Pow256(|datas|)
  {
    if datas != [] {
      var n := |datas|;
      LeValueBound(datas[..n - 1]);
      assert (datas[n - 1] as nat) <= 255;
      assert (datas[n - 1] as nat) * Pow256(n - 1) <= 255 * Pow256(n - 1);
    }
  }

  lemma LowByte(v: nat)
    ensures ((v % 256) as Byte) as nat == v % 256
    ensures v == v % 256 + 256 * (v / 256)
  {
  }

  /** Decoding the little-endian bytes of a value that fits gives it back. */
  lemma {:induction false} LeRoundTrip(v: nat, n: nat)
    requires v < Pow256(n)
    ensures LeValue(LeBytes(v, n)) == v
  {
    if n == 0 {
      assert LeBytes(v, n) == [];
    } else {
      var hi := v / 256;
      assert hi < Pow256(n - 1);
      LeRoundTrip(hi, n - 1);
      LowByte(v);
      assert LeBytes(v, n) == [(v % 256) as Byte] + LeBytes(hi, n - 1);
      LeValueCons((v % 256) as Byte, LeBytes(hi, n - 1));
    }
  }

  lemma SplitLowByte(b: Byte, l: nat)
    ensures (b as nat + 256 * l) % 256 == b as nat
    ensures (b as nat + 256 * l) / 256 == l
    ensures ((b as nat + 256 * l) % 256) as Byte == b
  {
  }

  /** Encoding the decoded value of a byte string gives the bytes back. */
  lemma {:induction false} LeBytesOfValue(datas: seq<Byte>)
    ensures LeBytes(LeValue(datas), |datas|) == datas
  {
    if datas != [] {
      var t := datas[1..];
      assert datas == [datas[0]] + t;
      LeValueCons(datas[0], t);
      LeBytesOfValue(t);
      var v := LeValue(datas);
      SplitLowByte(datas[0], LeValue(t));
      assert LeBytes(v, |datas|) == [(v % 256) as Byte] + LeBytes(v / 256, |t|);
    }
  }

  // ---------------------------------------------------------------------------
  // Reading fields

  datatype VpdValue = IntValue(n: nat) | StrValue(s: string)

  /** `read_vpd_byaddress`: the one byte stored at `address`. */
  function ReadByAddress(mem: Eeprom, address: nat): (b: Byte)
    requires address < EEPROM_SIZE
  {
    mem[address]
  }

  function Decode(typ: FieldType, datas: seq<Byte>): VpdValue {
    match typ
    case StrField => StrValue(Chars(datas))
    case _ => IntValue(LeValue(datas))
  }

  /** The value `read_vpd_byname(name)` returns; `None` stands for the
      IndexError of `_query_map(...)[0]` on an unknown name. */
  function FieldValue(mem: Eeprom, name: string): Option<VpdValue> {
    var rows := QueryMap(EEP_MAP, [NameIs(name)]);
    if rows == [] then None
    else
      var row := rows[0];
      EepMapFieldFits(name);
      Some(Decode(row.typ, mem[row.addr..row.addr + row.length]))
  }

  lemma EepMapFieldFits(name: string)
    ensures forall row :: row in QueryMap(EEP_MAP, [NameIs(name)]) ==>
      row.addr + row.length <= EEPROM_SIZE
  {
    QueryMapIsSelect(EEP_MAP, [NameIs(name)]);
    SelectMembers(EEP_MAP, [NameIs(name)]);
    EepMapFits();
  }

  /** The accumulation loop of `read_vpd_byname` for "int" and "word" fields. */
  method DecodeLittleEndian(datas: seq<Byte>) returns (val: nat)
    ensures val == LeValue(datas)
  {
    val := 0;
    var i := 0;
    while i < |datas|
      invariant 0 <= i <= |datas|
      invariant val == LeValue(datas[..i])
    {
      assert datas[..i + 1][..i] == datas[..i];
      val := val + (datas[i] as nat) * Pow256(i);
      i := i + 1;
    }
    assert datas[..|datas|] == datas;
  }

  /** `read_vpd_byname`. */
  method ReadByName(mem: Eeprom, name: string) returns (v: Option<VpdValue>)
    ensures v == FieldValue(mem, name)
  {
    var rows := QueryMap(EEP_MAP, [NameIs(name)]);
    if rows == [] {
      return None;
    }
    var row := rows[0];
    EepMapFieldFits(name);
    var datas := mem[row.addr..row.addr + row.length];
    var value := DecodeDatas(row.typ, datas);
    v := Some(value);
  }

  /** The `if typ == "str"` branch of `read_vpd_byname`: characters, or a
      little-endian number for "int" and "word". */
  method DecodeDatas(typ: FieldType, datas: seq<Byte>) returns (v: VpdValue)
    ensures v == Decode(typ, datas)
  {
    match typ {
      case StrField =>
        v := StrValue(Chars(datas));
      case _ =>
        var val := DecodeLittleEndian(datas);
        v := IntValue(val);
    }
  }

  function RowValue(mem: Eeprom, row: EepRow): VpdValue
    requires row.addr + row.length <= EEPROM_SIZE
  {
    Decode(row.typ, mem[row.addr..row.addr + row.length])
  }

  /** Reading a field of EEP_MAP by its name decodes that field's own bytes. */
  lemma FieldValueOfRow(mem: Eeprom, k: nat)
    requires k < |EEP_MAP|
    ensures EEP_MAP[k].addr + EEP_MAP[k].length <= EEPROM_SIZE
    ensures FieldValue(mem, EEP_MAP[k].name) == Some(RowValue(mem, EEP_MAP[k]))
  {
    LookupByName(k);
    EepMapFits();
  }

  /** `str.lower()` on one character of a byte string. */
  function LowerChar(c: char): (r: char)
    ensures !('A' <= r <= 'Z')
  {
    if 'A' <= c <= 'Z' then (c as int + 32) as char else c
  }

  /** `str.lower()`: the key `read_vpd` files each field under. */
  function Lower(s: string): (r: string)
    ensures |r| == |s| && forall i :: 0 <= i < |s| ==> r[i] == LowerChar(s[i])
  {
    seq(|s|, i requires 0 <= i < |s| => LowerChar(s[i]))
  }

  predicate NoLowercase(s: string) {
    forall i :: 0 <= i < |s| ==> !('a' <= s[i] <= 'z')
  }

  /** Lower-casing tells apart names written without lower-case letters. */
  lemma LowerInjective(s: string, t: string)
    requires NoLowercase(s) && NoLowercase(t) && s != t
    ensures Lower(s) != Lower(t)
  {
    if |s| == |t| {
      var i :| 0 <= i < |s| && s[i] != t[i];
      assert Lower(s)[i] != Lower(t)[i];
    }
  }

  /** The names of EEP_MAP are written in capitals. */
  lemma EepMapCapitals()
    ensures forall k :: 0 <= k < |EEP_MAP| ==> NoLowercase(EEP_MAP[k].name)
  {
  }

  /** The dictionary `read_vpd` builds from the first `n` rows of EEP_MAP,
      each value under the lower-cased name. */
  function Record(mem: Eeprom, n: nat): map<string, VpdValue>
    requires n <= |EEP_MAP|
  {
    if n == 0 then map[]
    else
      EepMapFits();
      Record(mem, n - 1)[Lower(EEP_MAP[n - 1].name) := RowValue(mem, EEP_MAP[n - 1])]
  }

  /** Every field of EEP_MAP appears in the record, under its lower-cased
      name, with its decoded value. */
  lemma {:induction false} RecordHoldsEveryField(mem: Eeprom, n: nat, k: nat)
    requires k < n <= |EEP_MAP|
    ensures Lower(EEP_MAP[k].name) in Record(mem, n)
    ensures EEP_MAP[k].addr + EEP_MAP[k].length <= EEPROM_SIZE
    ensures Record(mem, n)[Lower(EEP_MAP[k].name)] == RowValue(mem, EEP_MAP[k])
  {
    EepMapFits();
    if k < n - 1 {
      RecordHoldsEveryField(mem, n - 1, k);
      EepMapNamesDistinct();
      EepMapCapitals();
      LowerInjective(EEP_MAP[n - 1].name, EEP_MAP[k].name);
    }
  }

  /** `read_vpd`: every EEP_MAP field read by name into one dictionary,
      keyed by the lower-cased name. */
  method ReadVpd(mem: Eeprom) returns (record: map<string, VpdValue>)
    ensures record == Record(mem, |EEP_MAP|)
  {
    record := map[];
    for k := 0 to |EEP_MAP|
      invariant record == Record(mem, k)
    {
      var v := ReadByName(mem, EEP_MAP[k].name);
      FieldValueOfRow(mem, k);
      record := record[Lower(EEP_MAP[k].name) := v.value];
    }
  }

  // ---------------------------------------------------------------------------
  // Writing the identity fields

  /** PGEM_ID: the identity letter written for slots 0 to 3. */
  function PgemId(slot: nat): (c: Option<char>)
    ensures c.Some? <==> slot < 4
    ensures c.Some? ==> c.value as int == 'A' as int + slot
  {
    if slot < 4 then Some(['A', 'B', 'C', 'D'][slot]) else None
  }

  /** Python's `buf[lo:hi] = vals` for 0 <= lo <= hi: both bounds are
      clamped to the length, and the slice is replaced by `vals`. */
  function SliceAssign(buf: seq<Byte>, lo: nat, hi: nat, vals: seq<Byte>): (r: seq<Byte>)
    requires lo <= hi
    ensures hi <= |buf| && |vals| == hi - lo ==>
      (|r| == |buf| && r[lo..hi] == vals &&
       forall i :: 0 <= i < |buf| && !(lo <= i < hi) ==> r[i] == buf[i])
  {
    var l := if lo < |buf| then lo else |buf|;
    var h := if hi < |buf| then hi else |buf|;
    buf[..l] + vals + buf[h..]
  }

  function Patch(buf: seq<Byte>, row: EepRow, vals: seq<Byte>): seq<Byte> {
    SliceAssign(buf, row.addr, row.addr + row.length, vals)
  }

  datatype WriteOutcome =
    | Written          // every write and every readback comparison succeeded
    | ReadbackMismatch // one of the `assert`s after writing failed (AssertionError)
    | UnknownSlot      // PGEM_ID[slotnum] raised KeyError
    | AdapterFault     // a write past the last EEPROM address was refused

  /** What patching needs of the barcode groups: ID, YY+WW and VV have the
      widths of SN, MFDATE and ENDUSR, and every character fits a byte. */
  predicate Programmable(f: Barcode.Fields) {
    |f.id| == SN_ROW.length && ByteChars(f.id) &&
    |f.yy + f.ww| == MFDATE_ROW.length && ByteChars(f.yy + f.ww) &&
    |f.vv| == ENDUSR_ROW.length && ByteChars(f.vv)
  }

  /** Every barcode the pattern accepts can be programmed. */
  lemma WellFormedIsProgrammable(f: Barcode.Fields)
    requires Barcode.WellFormed(f)
    ensures Programmable(f)
  {
    var yyww := f.yy + f.ww;
    forall i | 0 <= i < |yyww| ensures yyww[i] as int < 256 {
      if i < 2 { assert yyww[i] == f.yy[i]; } else { assert yyww[i] == f.ww[i - 2]; }
    }
  }

  /** The buffer `write_vpd` sends: the template with ID, YY+WW and VV patched
      in and, when `writeId` is non-zero, the slot letter. `None` stands for
      the KeyError of a slot without a letter. */
  function Image(template: seq<Byte>, f: Barcode.Fields, writeId: int, slot: nat): Option<seq<Byte>>
    requires Programmable(f)
  {
    var b1 := Patch(template, SN_ROW, Ascii(f.id));
    var b2 := Patch(b1, MFDATE_ROW, Ascii(f.yy + f.ww));
    var b3 := Patch(b2, ENDUSR_ROW, Ascii(f.vv));
    if writeId != 0 then
      match PgemId(slot)
      case None => None
      case Some(c) => Some(Patch(b3, PGEMID_ROW, [CharToByte(c)]))
    else Some(b3)
  }

  /** The bytes `write_vpd` places in the template, by address. */
  function Placed(f: Barcode.Fields, writeId: int, slot: nat, i: nat): Option<Byte>
    requires Programmable(f)
  {
    if 0x5C <= i < 0x64 then Some(CharToByte(f.id[i - 0x5C]))
    else if 0x66 <= i < 0x6A then Some(CharToByte((f.yy + f.ww)[i - 0x66]))
    else if 0x6A <= i < 0x6C then Some(CharToByte(f.vv[i - 0x6A]))
    else if i == 0xDA && writeId != 0 && slot < 4 then Some(CharToByte(PgemId(slot).value))
    else None
  }

  /** `img` is `template` with the placed bytes written over it. */
  predicate Framed(img: seq<Byte>, template: seq<Byte>, f: Barcode.Fields, writeId: int, slot: nat)
    requires Programmable(f)
  {
    |img| == |template| &&
    forall i :: 0 <= i < |template| ==>
      img[i] == (if Placed(f, writeId, slot, i).Some? then Placed(f, writeId, slot, i).value else template[i])
  }

  /** On a template that reaches past the last field written, the patch keeps
      the length, writes the identity bytes at their table offsets and leaves
      every other byte as it was. */
  lemma ImageFrame(template: seq<Byte>, f: Barcode.Fields, writeId: int, slot: nat)
    requires Programmable(f)
    requires |template| >= (if writeId != 0 then 0xDB else 0x6C)
    requires writeId != 0 ==> slot < 4
    ensures Image(template, f, writeId, slot).Some?
    ensures Framed(Image(template, f, writeId, slot).value, template, f, writeId, slot)
  {
    var b1 := Patch(template, SN_ROW, Ascii(f.id));
    var b2 := Patch(b1, MFDATE_ROW, Ascii(f.yy + f.ww));
    var b3 := Patch(b2, ENDUSR_ROW, Ascii(f.vv));
    assert |b3| == |template|;
    var img := Image(template, f, writeId, slot).value;
    forall i | 0 <= i < |template|
      ensures img[i] == (if Placed(f, writeId, slot, i).Some? then Placed(f, writeId, slot, i).value else template[i])
    {
      if 0x5C <= i < 0x64 {
        assert b1[0x5C..0x64][i - 0x5C] == b1[i];
      } else if 0x66 <= i < 0x6A {
        assert b2[0x66..0x6A][i - 0x66] == b2[i];
        assert Ascii(f.yy + f.ww)[i - 0x66] == CharToByte((f.yy + f.ww)[i - 0x66]);
      } else if 0x6A <= i < 0x6C {
        assert b3[0x6A..0x6C][i - 0x6A] == b3[i];
      } else if i == 0xDA && writeId != 0 {
        assert img[0xDA..0xDB][0] == img[i];
      }
    }
  }

  /** The EEPROM after `write_reg(i, buf[i])` for every index of a buffer
      that fits: its first |buf| bytes are the buffer, the rest unchanged. */
  function Burn(mem: Eeprom, buf: seq<Byte>): Eeprom
    requires |buf| <= EEPROM_SIZE
  {
    buf + mem[|buf|..]
  }

  /** Writing byte `i` of the buffer extends the burnt prefix by one. */
  lemma BurnStep(mem: Eeprom, buf: seq<Byte>, i: nat)
    requires i < |buf| && i < EEPROM_SIZE
    ensures Burn(mem, buf[..i])[i := buf[i]] == Burn(mem, buf[..i + 1])
  {
    var a, b := Burn(mem, buf[..i])[i := buf[i]], Burn(mem, buf[..i + 1]);
    forall k | 0 <= k < EEPROM_SIZE
      ensures a[k] == b[k]
    {
      if k < i {
        assert a[k] == buf[k] == b[k];
      } else if k > i {
        assert a[k] == mem[k] == b[k];
      }
    }
  }

  /** The readback comparisons of `write_vpd` (its `assert` statements),
      each on the field as `read_vpd_byname` decodes it: the three barcode
      fields, and the slot letter when `write_id` is set. */
  predicate ReadbackMatches(mem: Eeprom, f: Barcode.Fields, writeId: int, slot: nat) {
    FieldsReadBack(mem, f) && IdReadBack(mem, writeId, slot)
  }

  predicate FieldsReadBack(mem: Eeprom, f: Barcode.Fields) {
    RowValue(mem, SN_ROW) == StrValue(f.id) &&
    RowValue(mem, MFDATE_ROW) == StrValue(f.yy + f.ww) &&
    RowValue(mem, ENDUSR_ROW) == StrValue(f.vv)
  }

  predicate IdReadBack(mem: Eeprom, writeId: int, slot: nat) {
    writeId != 0 ==> slot < 4 && RowValue(mem, PGEMID_ROW) == StrValue([PgemId(slot).value])
  }

  /** What `write_vpd` leaves in the EEPROM and how it ends. */
  function WriteSpec(mem: Eeprom, template: seq<Byte>, f: Barcode.Fields, writeId: int, slot: nat): (Eeprom, WriteOutcome)
    requires Programmable(f)
  {
    match Image(template, f, writeId, slot)
    case None => (mem, UnknownSlot)
    case Some(img) =>
      if |img| > EEPROM_SIZE then (Burn(mem, img[..EEPROM_SIZE]), AdapterFault)
      else
        var mem' := Burn(mem, img);
        (mem', if ReadbackMatches(mem', f, writeId, slot) then Written else ReadbackMismatch)
  }

  /** The byte loop of `write_vpd`: `write_reg(i, buf[i])` for each index in
      turn, until the adapter refuses an address past the EEPROM. */
  method WriteBytes(mem: Eeprom, buf: seq<Byte>) returns (mem': Eeprom, fault: bool)
    ensures fault <==> |buf| > EEPROM_SIZE
    ensures mem' == Burn(mem, if fault then buf[..EEPROM_SIZE] else buf)
  {
    mem' := mem;
    var i := 0;
    while i < |buf|
      invariant 0 <= i <= |buf| && i <= EEPROM_SIZE
      invariant mem' == Burn(mem, buf[..i])
    {
      if i >= EEPROM_SIZE {
        return mem', true;
      }
      BurnStep(mem, buf, i);
      mem' := mem'[i := buf[i]];
      i := i + 1;
    }
    assert buf[..i] == buf;
    fault := false;
  }

  /** The first three readbacks of `write_vpd`: SN, MFDATE and ENDUSR. */
  method CheckFieldsReadBack(mem: Eeprom, f: Barcode.Fields) returns (ok: bool)
    ensures ok == FieldsReadBack(mem, f)
  {
    EepMapFits();
    var sn := ReadByName(mem, SN_ROW.name);
    FieldValueOfRow(mem, 10);
    var date := ReadByName(mem, MFDATE_ROW.name);
    FieldValueOfRow(mem, 12);
    var usr := ReadByName(mem, ENDUSR_ROW.name);
    FieldValueOfRow(mem, 13);
    ok := sn == Some(StrValue(f.id)) && date == Some(StrValue(f.yy + f.ww)) && usr == Some(StrValue(f.vv));
    assert ok == (RowValue(mem, SN_ROW) == StrValue(f.id) && RowValue(mem, MFDATE_ROW) == StrValue(f.yy + f.ww) &&
                  RowValue(mem, ENDUSR_ROW) == StrValue(f.vv));
  }

  /** The last readback of `write_vpd`: PGEMID, when `write_id` is set. */
  method CheckIdReadBack(mem: Eeprom, writeId: int, slot: nat) returns (ok: bool)
    ensures ok == IdReadBack(mem, writeId, slot)
  {
    EepMapFits();
    ok := true;
    if writeId != 0 {
      if slot < 4 {
        var id := ReadByName(mem, PGEMID_ROW.name);
        FieldValueOfRow(mem, 16);
        ok := id == Some(StrValue([PgemId(slot).value]));
      } else {
        ok := false;
      }
    }
  }

  /** `write_vpd`: patch the template in place, write it byte by byte, then
      read the identity fields back. */
  method WriteVpd(mem: Eeprom, template: seq<Byte>, f: Barcode.Fields, writeId: int, slot: nat)
    returns (mem': Eeprom, outcome: WriteOutcome)
    requires Programmable(f)
    ensures (mem', outcome) == WriteSpec(mem, template, f, writeId, slot)
  {
    var buf := template;
    buf := Patch(buf, SN_ROW, Ascii(f.id));
    buf := Patch(buf, MFDATE_ROW, Ascii(f.yy + f.ww));
    buf := Patch(buf, ENDUSR_ROW, Ascii(f.vv));
    if writeId != 0 {
      if slot >= 4 {
        return mem, UnknownSlot;
      }
      buf := Patch(buf, PGEMID_ROW, [CharToByte(PgemId(slot).value)]);
    }
    assert Image(template, f, writeId, slot) == Some(buf);
    var fault;
    mem', fault := WriteBytes(mem, buf);
    if fault {
      return mem', AdapterFault;
    }
    var fieldsOk := CheckFieldsReadBack(mem', f);
    if !fieldsOk {
      return mem', ReadbackMismatch;
    }
    var idOk := CheckIdReadBack(mem', writeId, slot);
    outcome := if idOk then Written else ReadbackMismatch;
  }

  /** A string field whose bytes in the burnt buffer are the ASCII codes of
      `s` reads back as `s`. */
  lemma RowOfBurn(mem: Eeprom, img: seq<Byte>, row: EepRow, s: string)
    requires |img| <= EEPROM_SIZE && row.typ == StrField
    requires row.addr + row.length <= |img|
    requires ByteChars(s) && img[row.addr..row.addr + row.length] == Ascii(s)
    ensures RowValue(Burn(mem, img), row) == StrValue(s)
  {
    assert Burn(mem, img)[row.addr..row.addr + row.length] == img[row.addr..row.addr + row.length];
    CharsOfAscii(s);
  }

  /** After burning a patched image, the barcode fields read back as written. */
  lemma FieldsAfterBurn(mem: Eeprom, template: seq<Byte>, f: Barcode.Fields, writeId: int, slot: nat)
    requires Programmable(f)
    requires (if writeId != 0 then 0xDB else 0x6C) <= |template| <= EEPROM_SIZE
    requires writeId != 0 ==> slot < 4
    ensures FieldsReadBack(Burn(mem, Image(template, f, writeId, slot).value), f)
  {
    ImageFrame(template, f, writeId, slot);
    var img := Image(template, f, writeId, slot).value;
    var yyww := f.yy + f.ww;
    assert img[0x5C..0x64] == Ascii(f.id);
    RowOfBurn(mem, img, SN_ROW, f.id);
    assert img[0x66..0x6A] == Ascii(yyww);
    RowOfBurn(mem, img, MFDATE_ROW, yyww);
    assert img[0x6A..0x6C] == Ascii(f.vv);
    RowOfBurn(mem, img, ENDUSR_ROW, f.vv);
  }

  /** After burning a patched image, the slot letter reads back as written. */
  lemma IdAfterBurn(mem: Eeprom, template: seq<Byte>, f: Barcode.Fields, writeId: int, slot: nat)
    requires Programmable(f)
    requires (if writeId != 0 then 0xDB else 0x6C) <= |template| <= EEPROM_SIZE
    requires writeId != 0 ==> slot < 4
    ensures IdReadBack(Burn(mem, Image(template, f, writeId, slot).value), writeId, slot)
  {
    ImageFrame(template, f, writeId, slot);
    var img := Image(template, f, writeId, slot).value;
    if writeId != 0 {
      var id := [PgemId(slot).value];
      assert ByteChars(id);
      assert img[0xDA..0xDB] == Ascii(id);
      RowOfBurn(mem, img, PGEMID_ROW, id);
    }
  }

  /** Programming a template that covers every identity field and fits the
      EEPROM always succeeds: the readback finds what was written. */
  lemma WriteSucceeds(mem: Eeprom, template: seq<Byte>, f: Barcode.Fields, writeId: int, slot: nat)
    requires Programmable(f)
    requires (if writeId != 0 then 0xDB else 0x6C) <= |template| <= EEPROM_SIZE
    requires writeId != 0 ==> slot < 4
    ensures WriteSpec(mem, template, f, writeId, slot).1 == Written
  {
    ImageFrame(template, f, writeId, slot);
    FieldsAfterBurn(mem, template, f, writeId, slot);
    IdAfterBurn(mem, template, f, writeId, slot);
  }
}
